=== FILE: README.md ===
# tg-repost-2: a Dafny model of the per-chat bot core

tg-repost-2 is a Telegram bot that watches channels for new posts and stores them per operator chat. It shows each new post in the operator's chat as a preview with edit, delete and post-now buttons. From the preview the operator can edit the text or media, ask a GPT assistant to rework the text, and publish the post at once or later in one of their own channels. When the operator has a single channel of their own, posts from "absolute" source channels skip moderation and are published straight away.

This project models the deterministic part of one chat's `Bot` object in `index.js`:

- **Navigation.** The four pages (`startPage`, `editPostPage`, `publishScreen`, `gptPage`), the `active` and `isSenderBlocked` flags, and the two cursors (the post being edited and the chosen publishing channel).
- **Dispatch.** How an incoming message is dispatched, in this order: reply to a prompt, media upload on the editing page, command token, forwarding to the assistant. Also the inline-button (callback) dispatch.
- **Delivery.** One pass of the delivery loop (`loopPostSender` with `sendPost`): which posts take the fast path, which become `sended`, and when the pass stops.
- **Publish formatting.** The send plan of `publishPostInMyChannel`: caption versus separate text, the 1024 boundary, and the signature-or-`@channel` suffix.
- **Stored posts.** Mutations of the stored post list, addressed by link.
- **Message bookkeeping.** The UI history (`afterEditHistory`), retracted on the way back to the start page, and the preview list (`sendedPostMessages`) with its delete rule.
- **Small parsers.** The `action::payload` callback data, the `H:M` delay reply, and the assistant's turn history.

Everything is pure. A `World` holds the session, the stored data and the list of outbound `Action`s so far. Each handler returns the next `World`.

Telegram, MongoDB and OpenAI are never called. What they answer comes in as data:

- an `Oracle` per event: whether the store write succeeded, the random media uuid, the completion, Telegram's answers to a publication, whether Telegram accepted the message carrying the assistant's answer, which `deleteMessage` of a button press Telegram refuses (if any), and `toHTML`;
- an `Observation` per pending post in a delivery pass: whether the gate was open at the send, Telegram's answers, and whether the gate was still open afterwards.

Telegram message ids are modelled by a counter. JavaScript details that change behaviour are written out:

- `if (msgIndex)` is false at index 0;
- `!currentPublishChannel` is true for `null` and for `""`;
- `${sign[1]}` prints `undefined` when there is no second entry;
- `+"x"` is `NaN`, and a `NaN` timeout fires after 1 ms, as does one above 2^31 − 1 ms (Node's `setTimeout` limit);
- a missing post makes `post.media` throw.

Modules, in dependency order:

- `Base`, `Seqs`, `Text`: shared types, subsequences and counts, and split, join, trim, UTF-16 length and the sanitizer.
- `CallbackData`, `DelayParse`, `Posts`, `Assistant`, `Outbound`, `UiHistory`: the parsers, the stored data, and the bookkeeping lists.
- `Publish`, `Navigation`, `Dispatch`, `Delivery`: formatting, page transitions, event handling, and the delivery pass.

`index.js`'s sanitizer is not idempotent: its single-pass `replaceAll` steps turn `<br<br/>/>` into `<br/>` and then into the empty string (`Text.SanitizeNotIdempotent`).

## Model

| member | source | states |
|---|---|---|
| Text.SplitOn | index.js:244 | `split('\n')` always yields at least one piece, and no piece contains the separator |
| Text.JoinSplit | index.js:244 | joining the pieces of a split with the separator gives back the original text |
| Text.SplitJoin | index.js:244 | splitting the join of separator-free pieces gives back exactly those pieces |
| Text.Trim | index.js:163 | `trim()` only drops characters (a subsequence of the input), leaves no whitespace at either end, and keeps every non-whitespace character |
| Text.Utf16Length | index.js:935 | `length` counts UTF-16 units: between the number of characters and twice it, and equal to it when every character is inside the Basic Multilingual Plane |
| Text.Sanitize | index.js:156-163 | the sanitized description only loses characters (a subsequence of the stored one) and has no whitespace at either end |
| Text.SanitizeShrinks | index.js:156-163 | sanitizing never makes a description longer |
| Text.SanitizeNotIdempotent | index.js:158-163 | the three `<br>` removals are single-pass: `<br<br/>/>` sanitizes to `<br/>`, which sanitizes again to the empty string |
| Text.SanitizeJoinsTags | index.js:158-163 | removing `<br/>` from `<br<br/>/>` closes up the outer tag: the result is `<br/>` |
| Text.SanitizeTagOnly | index.js:158-163 | a lone `<br/>` sanitizes to the empty string |
| CallbackData.FindSep | index.js:526 | finds the first `::` at or after a position, and there is none before it |
| CallbackData.ActionOf | index.js:526 | `split('::')[0]` is a prefix of the data and contains no `::` |
| CallbackData.PayloadOf | index.js:527 | `split('::')[1]` is missing exactly when the data has no `::`, and contains no `::` when present |
| CallbackData.RoundTrip | index.js:526-527 | for separator-free parts, with an action not ending in `:`, `action::payload` splits back into the same action and payload |
| CallbackData.TrailingColonShiftsSplit | index.js:526-527 | an action ending in `:` breaks the round trip: `x:` and `y` come back as `x` and `:y` |
| CallbackData.ActionNamesRoundTrip | index.js:177-179 | every button action the bot builds comes back from its callback data with the payload intact, whenever the payload has no `::` |
| DelayParse.NumeralValue | index.js:274 | the decimal numeral of n reads back as n |
| DelayParse.NumberOf | index.js:274 | unary `+` on a piece gives a number exactly when the piece is all digits |
| DelayParse.DelaySeconds | index.js:274-276 | a delay that parses is a whole number of minutes and comes from a text containing `:` |
| DelayParse.DelayRoundTrip | index.js:274-276 | the reply `H:M` is read as H·3600 + M·60 seconds |
| DelayParse.SecondsRoundTrip | index.js:274-276 | every whole number of minutes is the delay of some `H:M` reply |
| DelayParse.NoColonNoDelay | index.js:274-276 | a reply without `:` gives no number, because `split(':')[1]` is undefined |
| DelayParse.TimerDelay | index.js:719 | the timer waits 1000·s ms exactly when that lies between 1 and 2^31 − 1; otherwise (NaN, 0, or too long) it waits 1 ms |
| DelayParse.DelayHonoured | index.js:273-287 | a reply `H:M` within the timer's range waits exactly H hours and M minutes (and line 719) |
| DelayParse.LongDelayFiresAtOnce | index.js:719 | `596:31` is the longest delay honoured; `596:32` and `597:00` fire after 1 ms |
| Posts.FindPost | index.js:907 | `posts.find` by link: the first post with that link, or none when no post has it or the link is unset |
| Posts.FindUnique | index.js:907 | with unique links, the lookup of a post's own link finds that post |
| Posts.WithoutUuid | index.js:749-759 | pulling media by uuid removes every item with that uuid and keeps every other item, in order and with its multiplicity |
| Posts.ApplyEdit | index.js:1259-1269 | an edit keeps link and source channel, sets only its own field, and `sended`/`deleted` are only ever set to true |
| Posts.PushAppends | index.js:737-747 | `$push` puts the new media item at the end and leaves the earlier items unchanged |
| Posts.EditPost | index.js:1207-1217 | a `posts.$` update changes only the first post with the link and keeps every link in place |
| Posts.EditKeepsLookups | index.js:1207-1217 | after any update every lookup by link finds the same post as before |
| Posts.ClearSent | index.js:581-587 | clearing old posts removes exactly the sent posts and keeps the others, in order and with their multiplicity |
| Posts.ClearKeepsUnsent | index.js:581-587 | clearing old posts leaves the set of unsent links unchanged |
| Posts.EditNeverUnsends | index.js:1259-1269 | no update adds a link to the unsent set |
| Posts.MarkSendedRemovesLink | index.js:1259-1269 | with unique links, marking a post sent removes exactly its link from the unsent set |
| Assistant.Asked | index.js:627 | the question is appended as the user's turn after the existing turns |
| Assistant.Exchange | index.js:623-644 | with the answer shown, a completion appends the question and the answer, a failure empties the turns, and complete exchanges stay complete; with the answer message refused, the handler stalls after pushing the question, so only the question is appended; every answer always follows a question (and lines 790-797) |
| Assistant.PairedIsAnswered | index.js:623-644 | complete exchanges are answered ones: every assistant turn follows a user turn |
| Assistant.RefusedAnswerUnpairs | index.js:630-638 | after one refused answer the next exchange leaves two user turns in a row, and the turns are no longer complete exchanges (and lines 790-797) |
| Assistant.ExchangesAccumulate | index.js:623-644 | after n successful exchanges the history is the 2n alternating turns of those questions and answers |
| UiHistory.RetractHistory | index.js:1026-1052 | the loop deletes the ids of the history entries in order: the single messages and each media group's messages, skipping entries that throw |
| UiHistory.RetractCovers | index.js:1026-1052 | an id is deleted exactly when some history entry stands for it |
| UiHistory.UnawaitedIsSkipped | index.js:1029-1047 | an entry holding an unawaited promise contributes no deletion |
| UiHistory.FirstMessage | index.js:1226-1233 | the search finds the first single message with the id, or none |
| UiHistory.DropMessage | index.js:1253 | the final filter drops every single message with the id and keeps every other entry, in order |
| UiHistory.RemoveAt | index.js:1240-1242 | filtering out one index removes exactly that entry |
| UiHistory.DeleteMessageFromChat | index.js:1224-1257 | the remaining list is a subsequence of the previews and keeps every other inline-keyboard preview; when anything is deleted the pressed message is deleted last and no entry for it remains, and otherwise the list is unchanged |
| UiHistory.DeletePreviewWithAlbum | index.js:1235-1257 | a preview text right after its media group is deleted together with every message of the group |
| UiHistory.DeletePreviewAfterPreview | index.js:1244-1257 | a preview right after another post's preview is deleted alone, and the other preview stays |
| UiHistory.DeleteMediaItemFromChat | index.js:1219-1222 | a media item's message is deleted and only its entries leave the preview list |
| UiHistory.Interrupted | index.js:1235-1256 | a refused deletion stops the sequence: the earlier deletions happened, the refused id is reported, and the list has been filtered only if the refused deletion was the last |
| UiHistory.DeleteMessageFromChatWith | index.js:1224-1257 | without a refusal the deletion is as DeleteMessageFromChat; with one, the deletions done and the refused id form a prefix of its deletions |
| UiHistory.DeleteMediaItemFromChatWith | index.js:1219-1222 | the list is filtered before the deletion, so it loses the message even when Telegram refuses the deletion; only then is nothing deleted |
| UiHistory.RefusedPreviewDeletion | index.js:1235-1257 | a refusal inside a preview's media group leaves the whole preview listed; a refusal on its text leaves the text on screen but no longer listed, the media group deleted |
| Publish.AlbumOf | index.js:913-925 | the media group has one item per media entry, in order, with its type and url |
| Publish.SuffixForm | index.js:936 | the suffix is a blank line followed by either `@channel` (no signature) or the signature link, never both |
| Publish.PublishPlan | index.js:912-969 | caption on the first item for 1–1023 units, media group plus a separate text for 1024 or more, media group alone for an empty description, a single text without media; every send goes to the channel |
| Publish.CaptionBoundary | index.js:935-941 | with media, a 1023-unit description is a caption and a 1024-unit one is a separate message |
| Publish.TextOnlyAlwaysSuffixed | index.js:953-969 | a post without media is one text with the suffix, even when its description is empty |
| Publish.DescriptionOnce | index.js:935-951 | the description reaches the channel at most once, never both as a caption and as a message |
| Publish.Execute | index.js:934-975 | the plan succeeds exactly when every send is accepted; the first refusal stops the plan |
| Publish.PublishPost | index.js:901-977 | a missing post fails with nothing sent; otherwise the post's plan is executed; only sends and refusals are produced |
| Publish.Caption | index.js:156-167 | the text under a post is its sanitized description when that is non-empty; under media an empty one becomes the placeholder; without media it is the sanitized description, possibly empty (and lines 1165-1193) |
| Publish.PreviewTextIsPublished | index.js:156-167 | the preview's text plus the suffix is what the channel receives, as caption or as message; the placeholder is never published: such a post goes out as the bare media group (and lines 930-969) |
| Publish.PreviewPlan | index.js:139-211 | the preview is the post's media group, then exactly the text Caption with the post buttons; a post without media is that text alone |
| Publish.PreviewTextNonEmpty | index.js:156-167 | under a media group the preview's text is never empty |
| Publish.ViewPlan | index.js:1149-1197 | the page view is the post's media group, then exactly the text Caption with the page's reply keyboard; a post without media is that text alone |
| Publish.PreviewMatchesView | index.js:139-211 | preview and page view show the same messages and differ only in the keyboard under the text |
| Navigation.Initial | index.js:54-58 | a new chat starts on the start page, active and unblocked |
| Navigation.ShowPost | index.js:1130-1205 | a missing post shows nothing; an empty post shows the notice, tracked (the corrected half); a post whose sanitized text is empty gets one refused send and nothing tracked; otherwise exactly the page view is sent and tracked, in order; no stored data changes |
| Navigation.ShowContent | index.js:1149-1203 | a post with something to show sends its page view in order and tracks each message; an empty text is refused and the `catch` swallows it, so nothing is tracked |
| Navigation.TagOnlyPostShowsNothing | index.js:1185-1203 | a text-only post whose description is `<br/>` passes the blank check, but its empty text is refused and the page shows nothing of the post (and line 1139) |
| Navigation.ShowPostAsWritten | index.js:1139-1146 | as written, showing a post changes no stored data and only extends actions and history |
| Navigation.EmptyPostNoticeLingers | index.js:1139-1146 | as written, the empty-post notice is sent but its id is never deleted on the way back to the start page; as corrected it is |
| Navigation.ShowPostAgrees | index.js:1130-1205 | as written and as corrected, showing a post sends the same messages; the histories differ at most in the notice entry, which as written is an unawaited promise |
| Navigation.GoToStart | index.js:1017-1024 | start page, unblocked, both cursors cleared, every history id deleted in order, the history emptied, then the start menu |
| Navigation.GoToEditing | index.js:995-1003 | editing page, blocked, link cursor set, channel cursor cleared; the header is the first new history entry |
| Navigation.GoToPublish | index.js:1054-1063 | publishing page, blocked, both cursors kept; the channel choice is the last message |
| Navigation.GoToGpt | index.js:646-661 | assistant page, blocked, turn history emptied, cursors kept |
| Navigation.PublishNow | index.js:881-899 | without a channel the operator is asked for one; otherwise the return home is scheduled exactly when publishing succeeds |
| Navigation.ImmediatelyPost | index.js:1005-1015 | no channels: nothing; several: the publishing page for the post; one: that channel is chosen for the post and the page stays; the sender stays blocked off the start page |
| Navigation.DelayClick | index.js:722-735 | without a channel the channel choice is sent, otherwise the force-reply delay prompt |
| Navigation.Listed | index.js:816-853 | the listed items are a subsequence of the post's media, and an item is listed exactly when the media-type table names it a photo or a video (and line 804) |
| Navigation.MediaSends | index.js:800-859 | one deletable photo or video message per listed media item, in order |
| Navigation.AllListed | index.js:816-853 | when every item is a photo or a video, every item is listed |
| Navigation.EditMediaScreen | index.js:761-788 | a missing post shows nothing; no media shows exactly the empty-media notice; otherwise exactly the intro notice, one message per listed item and the closing notice, in order |
| Navigation.Consult | index.js:623-644 | the completion request carries the turns with the question appended; a shown answer or error is tracked; a refused one is recorded, nothing is tracked and the handler stops; the turns become the exchange's result (and lines 790-797) |
| Navigation.AskAssistant | index.js:623-644 | a question leaves page and flags as they were and records the exchange |
| Navigation.Rephrase | index.js:589-621 | the rephrase button records the fixed rephrase prompt as the question of an exchange |
| Dispatch.CommandOf | index.js:351-353 | `/start` is recognised before any configured button text; other texts map to their button's command |
| Dispatch.Assign | index.js:1271-1321 | saving a setting replaces exactly that setting and keeps the others and the posts |
| Dispatch.AskedSetting | index.js:242-296 | a reply is saved as a list exactly when it answers that list's own prompt, and each of the four prompts selects a different list |
| Dispatch.SaveSetting | index.js:243-297 | a saved setting is the reply split into lines: joining them gives back the reply, no line holds a newline, and a notice reports the outcome |
| Dispatch.EditDescription | index.js:298-309 | a saved edit replaces the description of the post being edited and no other post, then reopens the editing page; a failure changes nothing stored |
| Dispatch.EditOnAssistant | index.js:311-327 | the same edit from the assistant page stays on the page |
| Dispatch.Delay | index.js:273-287 | a delay reply schedules the post for the chosen channel after the delay the timer really waits, acknowledges, and schedules the return home (and line 719) |
| Dispatch.AddMedia | index.js:335-349 | an upload on the editing page appends a photo (`image/jpeg`) or video (`video/mp4`) item to the post being edited and reopens the editing page |
| Dispatch.Noted | index.js:231-233 | off the start page every incoming message is tracked in the UI history |
| Dispatch.OnReply | index.js:238-333 | a reply to a prompt never touches the turns or any post's media and keeps the safety invariant |
| Dispatch.Run | index.js:351-503 | a command on its own page keeps the invariant, reaches the assistant page only from it or through its button, and changes the turns only by clearing or a rephrase |
| Dispatch.Forward | index.js:506-515 | a message that is not an assistant-page button becomes an exchange with the assistant exactly when the chat is on the assistant page; otherwise the turns are kept |
| Dispatch.OnMessage | index.js:229-516 | every message keeps the invariant (blocked off the start page, every assistant turn answering a question) and never adds an unsent post |
| Dispatch.OnCallback | index.js:518-578 | every button press keeps the invariant and never adds an unsent post |
| Dispatch.Step | index.js:229-578 | every event, including the delayed return home, keeps the invariant |
| Dispatch.Connect | index.js:63-81 | a new chat starts with the stored data (or an empty record), the invariant holds, and the start menu is the only message |
| Dispatch.EventsKeepInvariant | index.js:229-578 | any sequence of events keeps the invariant and only shrinks the set of unsent posts |
| Dispatch.ReachableInvariant | index.js:41-81 | every state reachable from a new chat satisfies the invariant |
| Dispatch.MisplacedButtonIgnored | index.js:357-453 | a page button pressed on the wrong page only records the message: no state change and no forwarding |
| Dispatch.BackGoesUp | index.js:484-500 | back leads from editing to start and from publishing and assistant to editing, and does nothing on the start page |
| Dispatch.PlainTextOnGptPageForwarded | index.js:506-515 | plain text on the assistant page becomes an exchange with the assistant |
| Dispatch.OperatorTextStaysOffGpt | index.js:506-515 | off the assistant page no text reaches the assistant except through the rephrase button |
| Dispatch.RepliesStayLocal | index.js:238-333 | a reply never changes the turns or any post's media |
| Dispatch.UploadAppendsMedia | index.js:335-349 | an upload appends exactly one item to the post being edited and leaves every other post unchanged |
| Dispatch.DelayReplySchedules | index.js:273-287 | the reply `H:M` to the delay prompt schedules publication H·3600 + M·60 seconds later when the timer can wait that long, and after 1 ms when it cannot (and line 719) |
| Dispatch.ChosenChannelRecorded | index.js:554-558 | pressing a channel button sets the publishing cursor to exactly that channel |
| Dispatch.DeleteButtonMarksFirst | index.js:531-534 | the delete button marks deleted the first stored post with its link and changes no other post; with no such post nothing changes |
| Dispatch.DeleteButtonRetiresPost | index.js:531-534 | with unique links, the delete button marks exactly its post deleted and leaves every other post unchanged |
| Dispatch.RefusedMediaDeletionStops | index.js:536-544 | when Telegram refuses a media item's deletion, the message leaves the list, nothing is deleted and no confirmation is sent (and lines 1219-1222) |
| Delivery.Pending | index.js:95 | the pass considers exactly the posts neither sent nor deleted, in stored order |
| Delivery.SendPreview | index.js:139-226 | the preview settles exactly when every message is accepted or the refusal has code 400; nothing is recorded after a refusal |
| Delivery.SendPost | index.js:131-227 | a closed gate sends nothing and marks nothing; otherwise the post is marked sent exactly when its preview settles |
| Delivery.FastPublishAsWritten | index.js:102-114 | the fast path marks the post sent whatever the outcome, reports a failure, clears the link cursor and leaves the channel cursor set |
| Delivery.FastPublish | index.js:102-114 | the corrected fast path does the same and clears both cursors |
| Delivery.Pass | index.js:101-124 | a pass changes posts only by marking them sent, and never the page, flags, history or turns |
| Delivery.PassAsWritten | index.js:101-124 | the pass as written, with the fast path leaving the channel cursor set, changes no page, flags, history or turns |
| Delivery.PassAgrees | index.js:101-124 | the as-written and the corrected pass produce the same actions and stored data, and sessions that differ only in the channel cursor |
| Delivery.DeliveryPass | index.js:83-129 | a closed gate scans nothing; otherwise the pass runs over the pending posts |
| Delivery.PassSettles | index.js:101-124 | with unique links, the unsent links after a pass are those before minus the posts it settles: reached before any preview found the gate closed, and either fast-path or previewed with settling answers |
| Delivery.DeliverySettles | index.js:83-129 | with unique links, a loop run marks sent exactly the settled pending posts |
| Delivery.AbsoluteSourcesAllSettle | index.js:102-114 | with one own channel and only absolute-source posts, every pending post is marked sent, whether publishing succeeds or fails |
| Delivery.ClosedGateKeepsPending | index.js:133-136 | a previewed post that finds the gate closed stays pending, when no other pending post has its link |
| Delivery.SettledArePending | index.js:95 | every post a pass settles is a stored post that is not deleted |
| Delivery.DeletedPostsUntouched | index.js:95 | with unique links, a deleted post is never changed by a pass |
| Delivery.DuplicateLinkMarksDeleted | index.js:1260-1266 | with a deleted and a pending post sharing a link, settling the pending post marks the deleted one sent and leaves the pending one pending |
| Delivery.FastPassNeverPaces | index.js:102-114 | a pass over fast-path posts only adds sends and refusals: no 5-second wait |
| Delivery.PassStopsAfterClosedGate | index.js:117-123 | once a preview finds the gate closed the pass ends: the posts after it are neither previewed, published nor marked |
| Delivery.PassPaces | index.js:101-124 | the pass waits 5 seconds once after each moderated post it reaches before the one whose preview finds the gate closed; a fast-path post is never followed by the wait |
| Delivery.FullPreview | index.js:139-184 | an accepted media preview records the media group and then the buttons message among the previews |
| Delivery.PreviewDeletesWithAlbum | index.js:1224-1257 | the delete button under such a preview deletes the media group with it, and nothing else |
| Delivery.FastPathLeavesChannel | index.js:112-113 | as written, after a fast-path publication, channel changes and "post now" open the publishing page with the stale channel already chosen |
| Delivery.FastPathThenChannelAsked | index.js:112-113 | as corrected, the same sequence asks for a channel and "publish now" only offers the choice |

## Left out

- Telegram, MongoDB and OpenAI calls are not made. Their answers are inputs (`Oracle`, `Observation`), and every send is an `Action`.
- Chat sends of notices, page headers, prompts and media lists are assumed accepted. What a refusal would do depends on how the send is made:
  - Through `sendSimpleMessage` (index.js:790-797) or `sendMediaItemsForDelete` (index.js:800), the send is awaited inside `new Promise(async …)`. A refusal rejects the inner async function and leaves the returned promise unsettled forever, so the awaiting handler never resumes. These sends are:
    - the messages of `goToGPT`;
    - the delay notice (index.js:278);
    - the assistant notices (index.js:315, 321, 598-640);
    - the context reset (index.js:472);
    - the media-deleted notice (index.js:539);
    - the clear notice (index.js:586);
    - the media-list notices and items (index.js:770-782);
    - the empty-post notice (index.js:1140).
    Node then sees an unhandled rejection, and what the runtime does with it is outside the model.
  - Through an awaited `tgBot.sendMessage` in an async method, a refusal rejects the method and ends the handler at that point. These sends are:
    - the page headers of the editing, publishing and start pages (`sendEditPostMsg`, `sendPublishPostMsg`, `sendStartPageMsg`);
    - the channel choice (`sendMessageWithChoseChannel`);
    - the delay prompt of `handleDelayMessageClick` (index.js:728);
    - the publish notices (`sendSuccessfullyPublishPost`, `sendErrorPublishPost`).
  - Through a `CommandsHandler` call that is not awaited, such as the settings prompts and their notices (index.js:247-294, 359-389), a refusal ends nothing: the handler has already gone on.
- The refusals that are modelled are these: a publication's sends (`Outcomes`); a preview's sends (`Observation`); the message with the assistant's answer or error (`Oracle.replyShown`, in `Assistant.Exchange` and `Navigation.Consult`); the `deleteMessage` calls of the delete buttons (`Oracle.deleteRefusedAt`); and the empty text that `sendPostWithoutButtons` tries to send for a tag-only description (`Navigation.ShowContent`).
- In `sendPostWithoutButtons`, a refusal of any other send is swallowed by its `catch`. The model assumes those sends are accepted.
- Store writes that the code does not wrap in `try` are assumed to succeed. The settings and description writes carry their outcome in `Oracle.storeOk`.
- Timers and concurrency are left out:
  - `setTimeout` and the 5-second `delay` become the actions `Schedule` (with the delay in milliseconds as Node clamps it), `ReturnHomeLater` and `Pace`, and the event `HomeTimer`.
  - Each run of `loopPostSender` is modelled on its own (`Delivery.DeliveryPass`). The 10-second restart between runs (index.js:85-87, 119-121, 127-129) is not modelled: no action or event stands for it, and a sequence of runs is not modelled.
  - The interleaving of handlers with the delivery loop is reduced to the gate observations in `Observation`.
- The timer body of `delayPostPublish` (index.js:663-720) is left out. Only the scheduling is modelled.
- The texts and keyboards of `CommandsHandler` (index.js:1332-1563) and of `botConstants` are left out. Notices are named by purpose, and command tokens are a configuration map.
- `toHTML` is an oracle function. The `parse_mode: 'HTML'` rendering is not modelled.
- The `mediaTypes` table of the bot's constants file is not part of this model. It is the input `Config.mediaTypes`, which the media list consults; media groups keep each item's stored mime type.
- `sendedMediaItemsForDelete` is left out. It is only pushed to, never read.
- The multi-chat client list and the `chatId` filters (index.js:10-39, 230, 524) are left out. The model is one chat.
- Text.Sanitize: the blockquote, image and empty-anchor regular-expression steps are not modelled. The contract states only that characters are removed and the ends trimmed.
- DelayParse.NumberOf: unary `+` is modelled for digit strings only. The model reads a piece with a sign, a fraction, an exponent or surrounding whitespace as `NaN`, which the timer turns into 1 ms. JavaScript reads such pieces as numbers (`+" 30"` is 30, `+"1.5"` is 1.5), so it schedules a reply such as `1: 30` for its real delay.
- CallbackData.RoundTrip requires an action not ending in `:`. Every action the bot builds meets this (`CallbackData.ActionNamesRoundTrip`).
- Dispatch.Run requires that the command is not misplaced. The message handler returns before `Run` otherwise (`Dispatch.MisplacedButtonIgnored`).
- Delivery.Pass: the model's pass takes the corrected fast path (`Delivery.FastPublish`). The pass as written (`Delivery.PassAsWritten`) differs only in the channel cursor it leaves set (`Delivery.PassAgrees`).
- Navigation.GoToEditing: shows the post with the corrected `Navigation.ShowPost`. As written, an empty post's notice enters the UI history as an unawaited promise; `Navigation.ShowPostAgrees` states that this is the only difference.
- Navigation.GoToPublish: shows the post with the corrected `Navigation.ShowPost`, with the same single difference as above.
- Navigation.GoToGpt: shows the post with the corrected `Navigation.ShowPost`, with the same single difference as above.
- Dispatch.Invariant promises only that every answer follows a question (`Assistant.Answered`), not complete exchanges (`Assistant.Paired`). A refused answer leaves a question unanswered (`Assistant.RefusedAnswerUnpairs`). Complete exchanges are kept whenever the answer is shown (`Assistant.Exchange`).
- The refused deletion of the undefined id of an unawaited history entry (index.js:1244-1247) is modelled as a removal that deletes nothing. The model records no action for it.
- Posts.UniqueLinks: link uniqueness is assumed of the ingestion that stores the posts, which is not part of this model; the bot itself never checks it. Every write addresses a post by link and lands on the first match (`Posts.EditPost`).
- Dispatch.DeleteButtonRetiresPost assumes unique links. Without them the button marks the first post with the link (`Dispatch.DeleteButtonMarksFirst`).
- Delivery.PassSettles assumes unique links. With a duplicate, marking lands on the first post with the link, which can be a deleted one (`Delivery.DuplicateLinkMarksDeleted`).
- Delivery.DeliverySettles assumes unique links, for the same reason.
- Delivery.ClosedGateKeepsPending assumes no other pending post shares the link. The settled posts are a set of links, so a settled post with the same link would hide it.
- Delivery.DeletedPostsUntouched assumes unique links. `Delivery.DuplicateLinkMarksDeleted` shows a deleted post marked sent when it shares its link with a pending one.
- Message ids come from a counter. Telegram's real ids are only assumed to increase within a chat.

## Findings

| source | as written | input that shows it | evidently intended | confidence | as-written member | corrected member |
|---|---|---|---|---|---|---|
| index.js:112-113 | the fast path sets `currentEditingPostLink = null` twice and never clears `currentPublishChannel` | the operator's only channel is `a`; a post from an absolute channel is published; the operator saves two other channels and presses "post now" on a preview; the publishing page opens with `a` already chosen, and "publish now" publishes there without asking | the second line clears `currentPublishChannel` | not executed | Delivery.FastPathLeavesChannel | Delivery.FastPathThenChannelAsked |
| index.js:1140-1144 | the empty-post notice is sent without `await`, so `afterEditHistory` receives a promise, whose id is never deleted when the operator returns to the start page | a post with no media and a blank description is opened for editing, then "back" is pressed; the notice stays in the chat | the notice is awaited and tracked like every other page message | not executed | Navigation.EmptyPostNoticeLingers | Navigation.ShowPost |

=== FILE: assistant.dfy ===
/** The conversation kept with the completion service while the operator is
    on the assistant page: an ordered list of user and assistant turns. */
module Assistant {

  datatype Role = User | Bot

  /** What a turn says. `RephrasePrimer` is the fixed priming request of the
      "rephrase" button; `NoText` is a message without text (a photo), which
      the handler forwards as `undefined`. */
  datatype Utterance = Said(text: string) | RephrasePrimer | NoText

  datatype Turn = Turn(role: Role, content: Utterance)

  /** The completion service's answer to one request. */
  datatype Completion = Answer(text: string) | ServiceError

  /** A history of complete exchanges: user, assistant, user, assistant, … */
  predicate Paired(turns: seq<Turn>)
  {
    && |turns| % 2 == 0
    && forall i :: 0 <= i < |turns| ==> turns[i].role == (if i % 2 == 0 then User else Bot)
  }

  /** The history sent to the service: the previous turns plus the question. */
  function Asked(turns: seq<Turn>, question: Utterance): (r: seq<Turn>)
    ensures |r| == |turns| + 1 && r[..|turns|] == turns && r[|turns|] == Turn(User, question)
  {
    turns + [Turn(User, question)]
  }

  /** Every assistant turn answers the user turn right before it. */
  predicate Answered(turns: seq<Turn>)
  {
    forall i :: 0 <= i < |turns| && turns[i].role == Bot ==> i > 0 && turns[i - 1].role == User
  }

  /** The history after one exchange. `shown` says whether Telegram accepted
      the message carrying the answer (or the error): the question is pushed
      before the request, and a refused message leaves the handler stalled
      right there. Otherwise the answer is appended on success and a failure
      discards the whole context. */
  function Exchange(turns: seq<Turn>, question: Utterance, reply: Completion, shown: bool): (r: seq<Turn>)
    ensures !shown ==> r == Asked(turns, question)
    ensures shown && reply.ServiceError? ==> r == []
    ensures shown && reply.Answer? ==> |r| == |turns| + 2 && r[..|turns|] == turns
    ensures shown && reply.Answer? ==> r[|turns|] == Turn(User, question) && r[|turns| + 1] == Turn(Bot, Said(reply.text))
    ensures Paired(turns) && shown ==> Paired(r)
    ensures Answered(turns) ==> Answered(r)
  {
    if !shown then Asked(turns, question)
    else match reply
      case ServiceError => []
      case Answer(a) => Asked(turns, question) + [Turn(Bot, Said(a))]
  }

  /** Complete exchanges are in particular answered ones. */
  lemma PairedIsAnswered(turns: seq<Turn>)
    requires Paired(turns)
    ensures Answered(turns)
  {
    forall i | 0 <= i < |turns| && turns[i].role == Bot ensures i > 0 && turns[i - 1].role == User {
      assert i % 2 == 1;
    }
  }

  /** A refused answer breaks the pairing for good: the next exchange puts
      two user turns in a row. */
  lemma RefusedAnswerUnpairs(turns: seq<Turn>, q1: Utterance, q2: Utterance, a1: string, a2: string)
    requires Paired(turns)
    ensures var t := Exchange(Exchange(turns, q1, Answer(a1), false), q2, Answer(a2), true);
      && t == turns + [Turn(User, q1), Turn(User, q2), Turn(Bot, Said(a2))]
      && !Paired(t)
  {
  }

  /** After `n` successful exchanges from an empty context the history holds
      exactly `n` questions and `n` answers, in order. */
  lemma {:induction false} ExchangesAccumulate(questions: seq<Utterance>, answers: seq<string>)
    requires |questions| == |answers|
    ensures var h := Replay(questions, answers);
      && |h| == 2 * |questions|
      && Paired(h)
      && forall k :: 0 <= k < |questions| ==> h[2 * k] == Turn(User, questions[k]) && h[2 * k + 1] == Turn(Bot, Said(answers[k]))
    decreases |questions|
  {
    if questions != [] {
      var n := |questions| - 1;
      ExchangesAccumulate(questions[..n], answers[..n]);
      var h0 := Replay(questions[..n], answers[..n]);
      var h := Replay(questions, answers);
      assert h == Exchange(h0, questions[n], Answer(answers[n]), true);
      forall k | 0 <= k < |questions|
        ensures h[2 * k] == Turn(User, questions[k]) && h[2 * k + 1] == Turn(Bot, Said(answers[k]))
      {
        if k < n {
          assert h[2 * k] == h0[2 * k] && h[2 * k + 1] == h0[2 * k + 1];
          assert questions[..n][k] == questions[k] && answers[..n][k] == answers[k];
        }
      }
    }
  }

  /** The history built by answering each question in turn from an empty context. */
  function Replay(questions: seq<Utterance>, answers: seq<string>): seq<Turn>
    requires |questions| == |answers|
    decreases |questions|
  {
    if questions == [] then []
    else
      var n := |questions| - 1;
      Exchange(Replay(questions[..n], answers[..n]), questions[n], Answer(answers[n]), true)
  }
}

=== FILE: base.dfy ===
/** Shared vocabulary of the model: optional values and the identifiers the
    bot passes around (post links, channel names, chat message ids). */
module Base {

  /** A value that may be absent; `None` stands for JavaScript's `null` or `undefined`. */
  datatype Option<+T> = None | Some(value: T) {

    /** The value, or a default when absent. */
    function GetOr(default: T): T {
      match this
      case Some(v) => v
      case None => default
    }
  }

  /** A post's stable identifier, unique within one chat's connection record. */
  type Link = string

  /** A channel nickname, written without the leading '@'. */
  type Channel = string

  /** Telegram numbers the messages of a chat with positive integers. */
  type MsgId = n: int | n > 0 witness 1
}

=== FILE: callback.dfy ===
/** Inline-button callback data. Every button the bot builds carries
    `action::payload`; the callback handler recovers the two halves with
    `split('::')[0]` and `split('::')[1]`. */
module CallbackData {
  import opened Base

  /** The action names the bot writes into its buttons. */
  const EditPost := "edit_post"
  const DeletePost := "delete_post"
  const PostImmediately := "post_immediately_post"
  const DeleteMediaItem := "delete_media_item"
  const ChoosePublishChannel := "chose_publish_channel"
  const AddSubscribeChannel := "add_subscribe_channel"

  /** The separator `::` starts at index `k` of `s`. */
  predicate SepAt(s: string, k: int)
  {
    0 <= k && k + 1 < |s| && s[k] == ':' && s[k + 1] == ':'
  }

  /** `s` contains no `::`. */
  predicate SepFree(s: string)
  {
    forall k :: 0 <= k < |s| ==> !SepAt(s, k)
  }

  /** The first occurrence of `::` at or after `from`, as `indexOf` finds it. */
  function FindSep(s: string, from: nat): (r: Option<nat>)
    ensures r.Some? ==> from <= r.value && SepAt(s, r.value)
    ensures forall k :: from <= k && (r.None? || k < r.value) ==> !SepAt(s, k)
    decreases |s| - from
  {
    if from + 1 >= |s| then None
    else if s[from] == ':' && s[from + 1] == ':' then Some(from)
    else FindSep(s, from + 1)
  }

  /** `data.split('::')[0]`: everything before the first separator. */
  function ActionOf(data: string): (a: string)
    ensures SepFree(a)
    ensures |a| <= |data| && a == data[..|a|]
  {
    match FindSep(data, 0)
    case None => SliceSepFree(data, 0, |data|); data
    case Some(i) => SliceSepFree(data, 0, i); data[..i]
  }

  /** `data.split('::')[1]`: the piece between the first and the second
      separator, or `undefined` (`None`) when there is no separator. */
  function PayloadOf(data: string): (p: Option<string>)
    ensures p.Some? ==> SepFree(p.value)
    ensures p.None? <==> SepFree(data)
  {
    match FindSep(data, 0)
    case None => None
    case Some(i) =>
      match FindSep(data, i + 2)
      case None =>
        SliceSepFree(data, i + 2, |data|);
        assert data[i + 2..] == data[i + 2..|data|];
        Some(data[i + 2..])
      case Some(j) =>
        SliceSepFree(data, i + 2, j);
        Some(data[i + 2..j])
  }

  /** A slice with no separator starting inside it, short of its last
      character, is separator-free. */
  lemma SliceSepFree(s: string, lo: nat, hi: nat)
    requires lo <= hi <= |s|
    requires forall k :: lo <= k && k + 1 < hi ==> !SepAt(s, k)
    ensures SepFree(s[lo..hi])
  {
    forall k | 0 <= k < hi - lo ensures !SepAt(s[lo..hi], k) {
      if k + 1 < hi - lo {
        assert !SepAt(s, lo + k);
      }
    }
  }

  /** The callback data of a button: `${action}::${payload}`. */
  function Join(action: string, payload: string): string
  {
    action + "::" + payload
  }

  /** Callback data survives the round trip when neither half contains the
      separator and the action does not end with ':' (otherwise the first
      `::` starts one character early). */
  lemma {:induction false} RoundTrip(action: string, payload: string)
    requires SepFree(action) && SepFree(payload)
    requires action == [] || action[|action| - 1] != ':'
    ensures ActionOf(Join(action, payload)) == action
    ensures PayloadOf(Join(action, payload)) == Some(payload)
  {
    var s := Join(action, payload);
    var n := |action|;
    assert s[n] == ':' && s[n + 1] == ':';
    assert forall k :: 0 <= k < n ==> !SepAt(s, k) by {
      forall k | 0 <= k < n ensures !SepAt(s, k) {
        if k + 1 < n {
          assert !SepAt(action, k);
        }
      }
    }
    FindSepFirst(s, 0, n);
    assert s[..n] == action;
    assert s[n + 2..] == payload;
    assert forall k :: n + 2 <= k ==> !SepAt(s, k) by {
      forall k | n + 2 <= k ensures !SepAt(s, k) {
        if k + 1 < |s| {
          assert !SepAt(payload, k - n - 2);
        }
      }
    }
    FindSepNone(s, n + 2);
  }

  lemma {:induction false} FindSepFirst(s: string, from: nat, n: nat)
    requires from <= n && SepAt(s, n)
    requires forall k :: from <= k < n ==> !SepAt(s, k)
    ensures FindSep(s, from) == Some(n)
    decreases n - from
  {
    if from < n {
      FindSepFirst(s, from + 1, n);
    }
  }

  lemma {:induction false} FindSepNone(s: string, from: nat)
    requires forall k :: from <= k ==> !SepAt(s, k)
    ensures FindSep(s, from) == None
    decreases |s| - from
  {
    if from + 1 < |s| {
      assert !SepAt(s, from);
      FindSepNone(s, from + 1);
    }
  }

  /** The side condition on the action is needed: `x:` joined with `y`
      is read back as action `x` and payload `:y`. */
  lemma TrailingColonShiftsSplit(action: string, payload: string)
    requires action == "x:" && payload == "y"
    ensures ActionOf(Join(action, payload)) == "x"
    ensures PayloadOf(Join(action, payload)) == Some(":y")
  {
    var s := Join(action, payload);
    assert s == "x:::y";
    assert SepAt(s, 1) && !SepAt(s, 0);
    FindSepFirst(s, 0, 1);
    assert !SepAt(s, 3) && !SepAt(s, 4);
    FindSepNone(s, 3);
    assert s[3..] == ":y";
  }

  /** Every action name the bot builds meets the round-trip side condition. */
  lemma ActionNamesRoundTrip(action: string, payload: string)
    requires action in {EditPost, DeletePost, PostImmediately, DeleteMediaItem,
                        ChoosePublishChannel, AddSubscribeChannel}
    requires SepFree(payload)
    ensures ActionOf(Join(action, payload)) == action
    ensures PayloadOf(Join(action, payload)) == Some(payload)
  {
    assert forall k :: 0 <= k < |action| ==> action[k] != ':';
    RoundTrip(action, payload);
  }
}

=== FILE: delay.dfy ===
/** The reply to the "delay publication" prompt: `H:M`, turned into a number
    of seconds as `+text.split(':')[0] * 3600 + +text.split(':')[1] * 60`. */
module DelayParse {
  import opened Base
  import opened Text

  predicate IsDigit(c: char)
  {
    '0' <= c <= '9'
  }

  predicate AllDigits(s: string)
  {
    forall k :: 0 <= k < |s| ==> IsDigit(s[k])
  }

  /** The value of a string of decimal digits; the empty string is 0, as
      JavaScript's `Number('')` is. */
  function DecimalValue(s: string): nat
    requires AllDigits(s)
  {
    if s == [] then 0
    else 10 * DecimalValue(s[..|s| - 1]) + ((s[|s| - 1] as int) - ('0' as int))
  }

  function DigitChar(d: nat): (c: char)
    requires d < 10
    ensures IsDigit(c) && (c as int) - ('0' as int) == d
  {
    (('0' as int) + d) as char
  }

  /** The decimal numeral of `n`, without leading zeros. */
  function Numeral(n: nat): (s: string)
    ensures |s| >= 1 && AllDigits(s)
  {
    if n < 10 then [DigitChar(n)] else Numeral(n / 10) + [DigitChar(n % 10)]
  }

  lemma {:induction false} NumeralValue(n: nat)
    ensures DecimalValue(Numeral(n)) == n
  {
    if n >= 10 {
      var s := Numeral(n);
      assert s[..|s| - 1] == Numeral(n / 10);
      NumeralValue(n / 10);
    }
  }

  /** JavaScript's unary `+` on one piece of the reply, for the inputs the
      model covers: a run of decimal digits. Anything else (a sign, spaces,
      a fraction, an exponent, a missing piece) is `None`. */
  function NumberOf(piece: string): (r: Option<nat>)
    ensures r.Some? <==> AllDigits(piece)
  {
    if AllDigits(piece) then Some(DecimalValue(piece)) else None
  }

  /** The delay in seconds the reply `text` asks for; text after a second
      ':' is ignored, as `split(':')` only reads the first two pieces. */
  function DelaySeconds(text: string): (r: Option<nat>)
    ensures r.Some? ==> r.value % 60 == 0
    ensures r.Some? ==> ':' in text
  {
    var parts := SplitOn(text, ':');
    if |parts| < 2 then
      JoinSplit(text, ':');
      None
    else
      JoinSplit(text, ':');
      assert text == parts[0] + [':'] + JoinWith(parts[1..], ':');
      assert text[|parts[0]|] == ':';
      match (NumberOf(parts[0]), NumberOf(parts[1]))
      case (Some(h), Some(m)) => Some(h * 3600 + m * 60)
      case _ => None
  }

  /** How an operator writes a delay of `h` hours and `m` minutes. */
  function FormatDelay(h: nat, m: nat): string
  {
    Numeral(h) + ":" + Numeral(m)
  }

  lemma NumeralHasNoColon(n: nat)
    ensures ':' !in Numeral(n)
  {
  }

  /** Reading a well-formed `H:M` reply gives back its hours and minutes. */
  lemma {:induction false} DelayRoundTrip(h: nat, m: nat)
    ensures DelaySeconds(FormatDelay(h, m)) == Some(h * 3600 + m * 60)
  {
    var parts := [Numeral(h), Numeral(m)];
    NumeralHasNoColon(h);
    NumeralHasNoColon(m);
    assert JoinWith(parts, ':') == FormatDelay(h, m) by {
      assert parts[1..] == [Numeral(m)];
    }
    SplitJoin(parts, ':');
    NumeralValue(h);
    NumeralValue(m);
  }

  /** Every whole number of minutes can be written as a reply that yields it. */
  lemma SecondsRoundTrip(seconds: nat)
    requires seconds % 60 == 0
    ensures DelaySeconds(FormatDelay(seconds / 3600, seconds % 3600 / 60)) == Some(seconds)
  {
    DelayRoundTrip(seconds / 3600, seconds % 3600 / 60);
  }

  /** A reply without ':' has no minutes piece: `split(':')[1]` is undefined. */
  lemma NoColonNoDelay(text: string)
    requires ':' !in text
    ensures DelaySeconds(text) == None
  {
  }

  // ---------------------------------------------------------------------------
  // the timer
  // ---------------------------------------------------------------------------

  /** The largest delay Node's `setTimeout` honours, 2^31 - 1 milliseconds. */
  const TimeoutMax: nat := 0x7FFF_FFFF

  /** The delay `setTimeout(f, 1000 * seconds)` actually waits: Node replaces
      a delay above TimeoutMax, below 1 or NaN (a reply that is not a
      number) by 1 millisecond. */
  function TimerDelay(seconds: Option<nat>): (ms: nat)
    ensures 1 <= ms <= TimeoutMax
    ensures seconds.Some? && 1 <= 1000 * seconds.value <= TimeoutMax <==> seconds.Some? && ms == 1000 * seconds.value
    ensures seconds.None? || !(1 <= 1000 * seconds.value <= TimeoutMax) ==> ms == 1
  {
    match seconds
    case Some(s) => if 1 <= 1000 * s <= TimeoutMax then 1000 * s else 1
    case None => 1
  }

  /** A reply within the timer's range waits exactly the hours and minutes
      it names. */
  lemma DelayHonoured(h: nat, m: nat)
    requires 1 <= 1000 * (h * 3600 + m * 60) <= TimeoutMax
    ensures TimerDelay(DelaySeconds(FormatDelay(h, m))) == 1000 * (h * 3600 + m * 60)
  {
    DelayRoundTrip(h, m);
  }

  /** The longest delay the timer honours is 596 hours 31 minutes; a minute
      more, or anything longer such as 597 hours, fires at once. */
  lemma LongDelayFiresAtOnce()
    ensures TimerDelay(DelaySeconds(FormatDelay(596, 31))) == 2_147_460_000
    ensures TimerDelay(DelaySeconds(FormatDelay(596, 32))) == 1
    ensures TimerDelay(DelaySeconds(FormatDelay(597, 0))) == 1
  {
    DelayRoundTrip(596, 31);
    DelayRoundTrip(596, 32);
    DelayRoundTrip(597, 0);
  }
}

=== FILE: delivery.dfy ===
/** One pass of the delivery loop (loopPostSender with sendPost). The pass
    reads the pending posts once; a post from one of the absolute channels
    is published straight away when the operator has exactly one channel of
    their own, every other post is previewed in the operator's chat with the
    edit / delete / post-now buttons, 5 seconds apart. The operator's
    handlers run while the pass waits, so whether the loop is still switched
    on and unblocked is observed, not computed: each pending post comes with
    an `Observation` of the gate and of Telegram's answers. */
module Delivery {
  import opened Base
  import opened Seqs
  import opened Posts
  import opened Outbound
  import opened UiHistory
  import opened Publish
  import opened Navigation

  /** What the pass sees for one pending post: whether the gate was open
      when sendPost looked, Telegram's answers to its sends, and whether the
      gate was still open after them. */
  datatype Observation = Observation(openAtSend: bool, outcomes: Outcomes, openAfter: bool)

  /** The loop runs: switched on and not blocked by the operator. */
  predicate Open(s: Session)
  {
    s.active && !s.senderBlocked
  }

  /** `posts.filter(post => !post.sended && !post.deleted)`. */
  function Pending(posts: seq<Post>): (r: seq<Post>)
    ensures IsSubseq(r, posts)
    ensures forall k :: 0 <= k < |r| ==> !r[k].sended && !r[k].deleted
    ensures forall p: Post :: !p.sended && !p.deleted ==> Count(r, p) == Count(posts, p)
  {
    if posts == [] then []
    else
      var rest := Pending(posts[1..]);
      assert posts == [posts[0]] + posts[1..];
      if posts[0].sended || posts[0].deleted then
        SubseqSkip(posts[0], rest, posts[1..]);
        rest
      else
        SubseqCons(posts[0], rest, posts[1..]);
        [posts[0]] + rest
  }

  /** The post skips moderation: the operator has exactly one channel and
      the post comes from an absolute channel. */
  predicate Fast(my: seq<Channel>, absolute: seq<Channel>, p: Post)
  {
    |my| == 1 && p.channelNickname in absolute
  }

  // ---------------------------------------------------------------------------
  // The preview (sendPost)
  // ---------------------------------------------------------------------------

  /** Sends `m` to the chat and records the reply among the previews. */
  function Deliver(w: World, m: Send): (r: World)
    ensures r.st == w.st && r.s == w.s.(delivered := r.s.delivered, nextId := r.s.nextId)
    ensures r.acts == w.acts + [Sent(m, Fresh(w.s, MessageCount(m)))]
    ensures r.s.delivered == w.s.delivered + [EntryFor(m, Fresh(w.s, MessageCount(m)))]
    ensures r.s.nextId == w.s.nextId + MessageCount(m)
  {
    var r := Say(w, m);
    r.(s := r.s.(delivered := r.s.delivered + [EntryFor(m, Fresh(w.s, MessageCount(m)))]))
  }

  /** Which answers settle a post: every preview message accepted, or the
      refused one refused with code 400, a request Telegram will never
      accept (an empty text, say). Any other failure leaves the post
      pending for the next pass. */
  predicate Settles(n: nat, out: Outcomes)
  {
    match out.first
    case Rejected(c) => c == Some(400)
    case Accepted => n == 1 || out.second.Accepted? || out.second == Rejected(Some(400))
  }

  datatype Attempt = Attempt(w: World, settled: bool)

  /** Sends the preview plan against Telegram's answers; the first refusal
      throws, so nothing after it is sent. */
  function SendPreview(w: World, plan: seq<Send>, out: Outcomes): (a: Attempt)
    requires 1 <= |plan| <= 2
    ensures a.w.st == w.st && a.w.s == w.s.(delivered := a.w.s.delivered, nextId := a.w.s.nextId)
    ensures a.settled <==> Settles(|plan|, out)
    ensures w.s.delivered <= a.w.s.delivered && w.acts <= a.w.acts && w.s.nextId <= a.w.s.nextId
    ensures out.first.Rejected? ==> a.w.s.delivered == w.s.delivered
    ensures |a.w.s.delivered| == |w.s.delivered| + (if out.first.Rejected? then 0 else if |plan| == 1 || out.second.Rejected? then 1 else 2)
  {
    match out.first
    case Rejected(c) => Attempt(w.(acts := w.acts + [Refused(plan[0], c)]), c == Some(400))
    case Accepted =>
      var w1 := Deliver(w, plan[0]);
      if |plan| == 1 then Attempt(w1, true)
      else match out.second
        case Rejected(c) => Attempt(w1.(acts := w1.acts + [Refused(plan[1], c)]), c == Some(400))
        case Accepted => Attempt(Deliver(w1, plan[1]), true)
  }

  /** sendPost: nothing when the gate has closed; otherwise the preview,
      and the post is marked sent once it is settled. */
  function SendPost(w: World, p: Post, o: Observation): (r: World)
    ensures !o.openAtSend ==> r == w
    ensures r.st.posts == (if o.openAtSend && Settles(|PreviewPlan(p)|, o.outcomes)
                           then EditPost(w.st.posts, Some(p.link), MarkSended) else w.st.posts)
    ensures r.st == w.st.(posts := r.st.posts)
    ensures r.s == w.s.(delivered := r.s.delivered, nextId := r.s.nextId)
    ensures w.s.delivered <= r.s.delivered && w.acts <= r.acts
  {
    if !o.openAtSend then w
    else
      var a := SendPreview(w, PreviewPlan(p), o.outcomes);
      if a.settled then a.w.(st := a.w.st.(posts := EditPost(a.w.st.posts, Some(p.link), MarkSended)))
      else a.w
  }

  // ---------------------------------------------------------------------------
  // The fast path
  // ---------------------------------------------------------------------------

  /** The fast path as written: the post is published in the operator's
      only channel through the two cursors, a failure is reported, the post
      is marked sent either way, and then the post cursor is cleared —
      twice, while the channel cursor keeps the channel. */
  function FastPublishAsWritten(w: World, p: Post, out: Outcomes): (r: World)
    requires |w.st.myChannels| == 1
    ensures r.st == w.st.(posts := EditPost(w.st.posts, Some(p.link), MarkSended))
    ensures r.s == w.s.(editingLink := None, publishChannel := Some(w.st.myChannels[0]), nextId := r.s.nextId)
    ensures var d := PublishPost(w.st, Some(p.link), w.st.myChannels[0], out);
      && |r.acts| == |w.acts| + |d.actions| + (if d.ok then 0 else 1)
      && r.acts[..|w.acts| + |d.actions|] == w.acts + d.actions
    ensures w.acts <= r.acts && forall k :: |w.acts| <= k < |r.acts| ==> r.acts[k].Sent? || r.acts[k].Refused?
  {
    var ch := w.st.myChannels[0];
    var w1 := w.(s := w.s.(editingLink := Some(p.link), publishChannel := Some(ch)));
    var d := PublishPost(w1.st, w1.s.editingLink, ch, out);
    var w2 := w1.(acts := w1.acts + d.actions);
    var w3 := if d.ok then w2 else Say(w2, Note(PublishFailed, NoKeyboard));
    w3.(st := w3.st.(posts := EditPost(w3.st.posts, Some(p.link), MarkSended)),
        s := w3.s.(editingLink := None))
  }

  /** The fast path as intended: both cursors are cleared afterwards. */
  function FastPublish(w: World, p: Post, out: Outcomes): (r: World)
    requires |w.st.myChannels| == 1
    ensures r.st == w.st.(posts := EditPost(w.st.posts, Some(p.link), MarkSended))
    ensures r.s == w.s.(editingLink := None, publishChannel := None, nextId := r.s.nextId)
    ensures var d := PublishPost(w.st, Some(p.link), w.st.myChannels[0], out);
      && |r.acts| == |w.acts| + |d.actions| + (if d.ok then 0 else 1)
      && r.acts[..|w.acts| + |d.actions|] == w.acts + d.actions
    ensures w.acts <= r.acts && forall k :: |w.acts| <= k < |r.acts| ==> r.acts[k].Sent? || r.acts[k].Refused?
  {
    var r := FastPublishAsWritten(w, p, out);
    r.(s := r.s.(publishChannel := None))
  }

  // ---------------------------------------------------------------------------
  // The pass
  // ---------------------------------------------------------------------------

  /** The pass over `todo`, the pending posts not yet handled. After a
      preview the pass stops when the gate has closed, and otherwise waits
      5 seconds. */
  function Pass(w: World, todo: seq<Post>, obs: seq<Observation>): (r: World)
    requires |todo| == |obs|
    ensures r.st == w.st.(posts := r.st.posts)
    ensures |r.st.posts| == |w.st.posts|
    ensures forall k :: 0 <= k < |w.st.posts| ==>
      r.st.posts[k] == w.st.posts[k] || r.st.posts[k] == w.st.posts[k].(sended := true)
    ensures r.s.page == w.s.page && r.s.active == w.s.active && r.s.senderBlocked == w.s.senderBlocked
    ensures r.s.history == w.s.history && r.s.turns == w.s.turns && w.s.delivered <= r.s.delivered
    ensures w.acts <= r.acts
    decreases |todo|
  {
    if todo == [] then w
    else if Fast(w.st.myChannels, w.st.absoluteChannels, todo[0]) then
      Pass(FastPublish(w, todo[0], obs[0].outcomes), todo[1..], obs[1..])
    else
      var w1 := SendPost(w, todo[0], obs[0]);
      if obs[0].openAfter then Pass(w1.(acts := w1.acts + [Pace]), todo[1..], obs[1..])
      else w1
  }

  /** The pass as written, taking the fast path through
      FastPublishAsWritten, which leaves the channel cursor set. */
  function PassAsWritten(w: World, todo: seq<Post>, obs: seq<Observation>): (r: World)
    requires |todo| == |obs|
    ensures r.st == w.st.(posts := r.st.posts) && |r.st.posts| == |w.st.posts|
    ensures r.s.page == w.s.page && r.s.active == w.s.active && r.s.senderBlocked == w.s.senderBlocked
    ensures r.s.history == w.s.history && r.s.turns == w.s.turns && w.acts <= r.acts
    decreases |todo|
  {
    if todo == [] then w
    else if Fast(w.st.myChannels, w.st.absoluteChannels, todo[0]) then
      PassAsWritten(FastPublishAsWritten(w, todo[0], obs[0].outcomes), todo[1..], obs[1..])
    else
      var w1 := SendPost(w, todo[0], obs[0]);
      if obs[0].openAfter then PassAsWritten(w1.(acts := w1.acts + [Pace]), todo[1..], obs[1..])
      else w1
  }

  /** Two worlds that differ at most in the channel cursor. */
  predicate SameButChannel(a: World, b: World)
  {
    a.acts == b.acts && a.st == b.st && a.s.(publishChannel := None) == b.s.(publishChannel := None)
  }

  /** The two passes send, mark and track the same: they differ only in
      the channel cursor left behind. */
  lemma {:induction false} PassAgrees(a: World, b: World, todo: seq<Post>, obs: seq<Observation>)
    requires |todo| == |obs| && SameButChannel(a, b)
    ensures SameButChannel(PassAsWritten(a, todo, obs), Pass(b, todo, obs))
    decreases |todo|
  {
    if todo != [] {
      if Fast(a.st.myChannels, a.st.absoluteChannels, todo[0]) {
        FastPublishAgrees(a, b, todo[0], obs[0].outcomes);
        PassAgrees(FastPublishAsWritten(a, todo[0], obs[0].outcomes), FastPublish(b, todo[0], obs[0].outcomes), todo[1..], obs[1..]);
      } else {
        SendPostAgrees(a, b, todo[0], obs[0]);
        var a1, b1 := SendPost(a, todo[0], obs[0]), SendPost(b, todo[0], obs[0]);
        if obs[0].openAfter {
          PassAgrees(a1.(acts := a1.acts + [Pace]), b1.(acts := b1.acts + [Pace]), todo[1..], obs[1..]);
        }
      }
    }
  }

  lemma FastPublishAgrees(a: World, b: World, p: Post, out: Outcomes)
    requires SameButChannel(a, b) && |a.st.myChannels| == 1
    ensures SameButChannel(FastPublishAsWritten(a, p, out), FastPublish(b, p, out))
  {
    var ch := a.st.myChannels[0];
    assert a.s.(editingLink := Some(p.link), publishChannel := Some(ch)) == b.s.(editingLink := Some(p.link), publishChannel := Some(ch));
  }

  lemma SendPostAgrees(a: World, b: World, p: Post, o: Observation)
    requires SameButChannel(a, b)
    ensures SameButChannel(SendPost(a, p, o), SendPost(b, p, o))
  {
    if o.openAtSend {
      SendPreviewAgrees(a, b, PreviewPlan(p), o.outcomes);
    }
  }

  lemma SendPreviewAgrees(a: World, b: World, plan: seq<Send>, out: Outcomes)
    requires SameButChannel(a, b) && 1 <= |plan| <= 2
    ensures SendPreview(a, plan, out).settled == SendPreview(b, plan, out).settled
    ensures SameButChannel(SendPreview(a, plan, out).w, SendPreview(b, plan, out).w)
  {
    if out.first.Accepted? {
      DeliverAgrees(a, b, plan[0]);
      if |plan| == 2 {
        DeliverAgrees(Deliver(a, plan[0]), Deliver(b, plan[0]), plan[1]);
      }
    }
  }

  lemma DeliverAgrees(a: World, b: World, m: Send)
    requires SameButChannel(a, b)
    ensures SameButChannel(Deliver(a, m), Deliver(b, m))
  {
    assert a.s.nextId == b.s.nextId && a.s.delivered == b.s.delivered;
    assert Fresh(a.s, MessageCount(m)) == Fresh(b.s, MessageCount(m));
  }

  /** The actions from index `from` on are sends and refusals only. */
  predicate OnlySends(acts: seq<Action>, from: nat)
  {
    forall k :: from <= k < |acts| ==> acts[k].Sent? || acts[k].Refused?
  }

  lemma OnlySendsJoin(a: seq<Action>, b: seq<Action>, from: nat)
    requires a <= b && from <= |a| && OnlySends(a, from) && OnlySends(b, |a|)
    ensures OnlySends(b, from)
  {
    forall k | from <= k < |b| ensures b[k].Sent? || b[k].Refused? {
      if k < |a| {
        assert b[k] == a[k];
      }
    }
  }

  /** Published posts are not paced: a pass over posts that all take the
      fast path adds only sends and refusals, never the 5-second wait. */
  lemma {:induction false} FastPassNeverPaces(w: World, todo: seq<Post>, obs: seq<Observation>)
    requires |todo| == |obs|
    requires forall k :: 0 <= k < |todo| ==> Fast(w.st.myChannels, w.st.absoluteChannels, todo[k])
    ensures OnlySends(Pass(w, todo, obs).acts, |w.acts|)
    decreases |todo|
  {
    if todo != [] {
      var w1 := FastPublish(w, todo[0], obs[0].outcomes);
      assert OnlySends(w1.acts, |w.acts|);
      forall k | 0 <= k < |todo[1..]| ensures Fast(w1.st.myChannels, w1.st.absoluteChannels, todo[1..][k]) {
        assert todo[1..][k] == todo[k + 1];
      }
      FastPassNeverPaces(w1, todo[1..], obs[1..]);
      assert Pass(w, todo, obs) == Pass(w1, todo[1..], obs[1..]);
      OnlySendsJoin(w1.acts, Pass(w1, todo[1..], obs[1..]).acts, |w.acts|);
    }
  }

  /** A pass ends with the first preview after which the gate is found
      closed: the posts after it are neither sent, previewed nor marked. */
  lemma {:induction false} PassStopsAfterClosedGate(w: World, todo: seq<Post>, obs: seq<Observation>, k: nat)
    requires |todo| == |obs| && k < |todo|
    requires !Fast(w.st.myChannels, w.st.absoluteChannels, todo[k]) && !obs[k].openAfter
    ensures Pass(w, todo, obs) == Pass(w, todo[..k + 1], obs[..k + 1])
    decreases k
  {
    if k > 0 && (Fast(w.st.myChannels, w.st.absoluteChannels, todo[0]) || obs[0].openAfter) {
      var w1 := Onward(w, todo[0], obs[0]);
      PassGoesOn(w, todo, obs);
      PrefixGoesOn(w, todo, obs, k);
      assert todo[1..][k - 1] == todo[k] && obs[1..][k - 1] == obs[k];
      PassStopsAfterClosedGate(w1, todo[1..], obs[1..], k - 1);
    } else {
      StopsAtFirst(w, todo, obs, todo[..k + 1], obs[..k + 1]);
    }
  }

  /** A pass that stops after its first post does the same on any
      sequence that starts with that post. */
  lemma StopsAtFirst(w: World, todo: seq<Post>, obs: seq<Observation>, t: seq<Post>, o: seq<Observation>)
    requires |todo| == |obs| && todo != [] && |t| == |o| && t != [] && t[0] == todo[0] && o[0] == obs[0]
    requires !Fast(w.st.myChannels, w.st.absoluteChannels, todo[0]) && !obs[0].openAfter
    ensures Pass(w, todo, obs) == Pass(w, t, o)
  {
    PassStopsHere(w, todo, obs);
    PassStopsHere(w, t, o);
  }

  /** The world the pass goes on from after a post it does not stop at. */
  function Onward(w: World, p: Post, o: Observation): World
    requires Fast(w.st.myChannels, w.st.absoluteChannels, p) || o.openAfter
  {
    if Fast(w.st.myChannels, w.st.absoluteChannels, p) then FastPublish(w, p, o.outcomes)
    else var w1 := SendPost(w, p, o); w1.(acts := w1.acts + [Pace])
  }

  lemma PassGoesOn(w: World, todo: seq<Post>, obs: seq<Observation>)
    requires |todo| == |obs| && todo != []
    requires Fast(w.st.myChannels, w.st.absoluteChannels, todo[0]) || obs[0].openAfter
    ensures var w1 := Onward(w, todo[0], obs[0]);
      && w1.st.myChannels == w.st.myChannels && w1.st.absoluteChannels == w.st.absoluteChannels
      && Pass(w, todo, obs) == Pass(w1, todo[1..], obs[1..])
  {
  }

  lemma PrefixGoesOn(w: World, todo: seq<Post>, obs: seq<Observation>, k: nat)
    requires |todo| == |obs| && 1 <= k < |todo|
    requires Fast(w.st.myChannels, w.st.absoluteChannels, todo[0]) || obs[0].openAfter
    ensures Pass(w, todo[..k + 1], obs[..k + 1]) == Pass(Onward(w, todo[0], obs[0]), todo[1..][..k], obs[1..][..k])
  {
    var t, o := todo[..k + 1], obs[..k + 1];
    assert t[0] == todo[0] && o[0] == obs[0];
    assert t[1..] == todo[1..][..k] && o[1..] == obs[1..][..k];
    PassGoesOn(w, t, o);
  }

  lemma PassStopsHere(w: World, todo: seq<Post>, obs: seq<Observation>)
    requires |todo| == |obs| && todo != []
    requires !Fast(w.st.myChannels, w.st.absoluteChannels, todo[0]) && !obs[0].openAfter
    ensures Pass(w, todo, obs) == SendPost(w, todo[0], obs[0])
  {
  }

  /** The number of posts in `todo` that go through moderation. */
  function Moderated(my: seq<Channel>, absolute: seq<Channel>, todo: seq<Post>): nat
  {
    if todo == [] then 0 else (if Fast(my, absolute, todo[0]) then 0 else 1) + Moderated(my, absolute, todo[1..])
  }

  /** Sends and refusals add no wait. */
  lemma {:induction false} OnlySendsNoPace(a: seq<Action>, b: seq<Action>)
    requires a <= b && OnlySends(b, |a|)
    ensures Count(b, Pace) == Count(a, Pace)
    decreases |b| - |a|
  {
    if |b| > |a| {
      var b0 := b[..|b| - 1];
      assert b == b0 + [b[|b| - 1]];
      CountAppend(b0, [b[|b| - 1]], Pace);
      assert b[|b| - 1] != Pace;
      assert Count([b[|b| - 1]], Pace) == 0 by {
        assert [b[|b| - 1]][1..] == [];
      }
      assert a <= b0 && OnlySends(b0, |a|) by {
        assert forall k :: 0 <= k < |b0| ==> b0[k] == b[k];
      }
      OnlySendsNoPace(a, b0);
    } else {
      assert b == a;
    }
  }

  /** A preview adds only sends and refusals. */
  lemma SendPostOnlySends(w: World, p: Post, o: Observation)
    ensures OnlySends(SendPost(w, p, o).acts, |w.acts|)
  {
    if o.openAtSend {
      SendPreviewOnlySends(w, PreviewPlan(p), o.outcomes);
    }
  }

  lemma SendPreviewOnlySends(w: World, plan: seq<Send>, out: Outcomes)
    requires 1 <= |plan| <= 2
    ensures OnlySends(SendPreview(w, plan, out).w.acts, |w.acts|)
  {
    if out.first.Accepted? {
      var w1 := Deliver(w, plan[0]);
      if |plan| == 2 && out.second.Accepted? {
        OnlySendsJoin(w1.acts, Deliver(w1, plan[1]).acts, |w.acts|);
      }
    }
  }

  /** The 5-second wait follows exactly the moderated posts before the
      one after which the gate is found closed (or all of them, when the
      gate stays open): `k` is that post, or the end of the pass. A
      fast-path post is never followed by a wait. */
  lemma {:induction false} PassPaces(w: World, todo: seq<Post>, obs: seq<Observation>, k: nat)
    requires k <= |todo| == |obs| && Reached(w.st.myChannels, w.st.absoluteChannels, todo, obs, k)
    requires k == |todo| || (!Fast(w.st.myChannels, w.st.absoluteChannels, todo[k]) && !obs[k].openAfter)
    ensures Count(Pass(w, todo, obs).acts, Pace)
      == Count(w.acts, Pace) + Moderated(w.st.myChannels, w.st.absoluteChannels, todo[..k])
    decreases |todo|
  {
    var my, ab := w.st.myChannels, w.st.absoluteChannels;
    if todo == [] {
      assert todo[..k] == [];
    } else {
      var p := todo[0];
      if k > 0 {
        ReachedShift(my, ab, todo, obs, k);
        assert todo[..k][1..] == todo[1..][..k - 1];
        assert k - 1 < |todo| - 1 ==> todo[1..][k - 1] == todo[k] && obs[1..][k - 1] == obs[k];
      }
      if Fast(my, ab, p) {
        var w1 := FastPublish(w, p, obs[0].outcomes);
        OnlySendsNoPace(w.acts, w1.acts);
        PassPaces(w1, todo[1..], obs[1..], k - 1);
      } else {
        var w1 := SendPost(w, p, obs[0]);
        SendPostOnlySends(w, p, obs[0]);
        OnlySendsNoPace(w.acts, w1.acts);
        if k == 0 {
          assert todo[..k] == [];
        } else {
          CountAppend(w1.acts, [Pace], Pace);
          PassPaces(w1.(acts := w1.acts + [Pace]), todo[1..], obs[1..], k - 1);
        }
      }
    }
  }

  /** One run of loopPostSender: nothing while the gate is closed,
      otherwise a pass over the pending posts. */
  function DeliveryPass(w: World, obs: seq<Observation>): (r: World)
    requires |obs| == |Pending(w.st.posts)|
    ensures !Open(w.s) ==> r == w
    ensures r.st == w.st.(posts := r.st.posts) && |r.st.posts| == |w.st.posts|
    ensures forall k :: 0 <= k < |w.st.posts| ==>
      r.st.posts[k] == w.st.posts[k] || r.st.posts[k] == w.st.posts[k].(sended := true)
    ensures r.s.page == w.s.page && r.s.history == w.s.history && r.s.turns == w.s.turns
  {
    if !Open(w.s) then w else Pass(w, Pending(w.st.posts), obs)
  }

  // ---------------------------------------------------------------------------
  // Which posts a pass settles
  // ---------------------------------------------------------------------------

  /** The pass gets to the k-th pending post: every preview before it found
      the gate open afterwards. */
  predicate Reached(my: seq<Channel>, absolute: seq<Channel>, todo: seq<Post>, obs: seq<Observation>, k: nat)
    requires k <= |todo| == |obs|
  {
    forall j :: 0 <= j < k ==> Fast(my, absolute, todo[j]) || obs[j].openAfter
  }

  /** The k-th pending post ends the pass marked sent: it is reached, and
      it is either published directly (whatever the outcome) or previewed
      with answers that settle it. */
  predicate SettledAt(my: seq<Channel>, absolute: seq<Channel>, todo: seq<Post>, obs: seq<Observation>, k: nat)
    requires k < |todo| == |obs|
  {
    && Reached(my, absolute, todo, obs, k)
    && (Fast(my, absolute, todo[k]) || (obs[k].openAtSend && Settles(|PreviewPlan(todo[k])|, obs[k].outcomes)))
  }

  function Settled(my: seq<Channel>, absolute: seq<Channel>, todo: seq<Post>, obs: seq<Observation>): set<Link>
    requires |todo| == |obs|
  {
    set k | 0 <= k < |todo| && SettledAt(my, absolute, todo, obs, k) :: todo[k].link
  }

  lemma ReachedShift(my: seq<Channel>, absolute: seq<Channel>, todo: seq<Post>, obs: seq<Observation>, k: nat)
    requires 1 <= k <= |todo| == |obs|
    ensures Reached(my, absolute, todo, obs, k) <==>
      (Fast(my, absolute, todo[0]) || obs[0].openAfter) && Reached(my, absolute, todo[1..], obs[1..], k - 1)
  {
    if (Fast(my, absolute, todo[0]) || obs[0].openAfter) && Reached(my, absolute, todo[1..], obs[1..], k - 1) {
      forall j | 1 <= j < k ensures Fast(my, absolute, todo[j]) || obs[j].openAfter {
        assert todo[1..][j - 1] == todo[j] && obs[1..][j - 1] == obs[j];
      }
    }
    if Reached(my, absolute, todo, obs, k) {
      forall j | 0 <= j < k - 1 ensures Fast(my, absolute, todo[1..][j]) || obs[1..][j].openAfter {
        assert todo[1..][j] == todo[j + 1] && obs[1..][j] == obs[j + 1];
      }
    }
  }

  /** The settled set splits into the first post and the rest of the pass,
      which only happens when the pass goes on after the first post. */
  lemma SettledUnfold(my: seq<Channel>, absolute: seq<Channel>, todo: seq<Post>, obs: seq<Observation>)
    requires |todo| == |obs| && todo != []
    ensures Settled(my, absolute, todo, obs) ==
      (if SettledAt(my, absolute, todo, obs, 0) then {todo[0].link} else {})
      + (if Fast(my, absolute, todo[0]) || obs[0].openAfter then Settled(my, absolute, todo[1..], obs[1..]) else {})
  {
    SettledShift(my, absolute, todo, obs);
    SettledIntoParts(my, absolute, todo, obs);
    SettledFromParts(my, absolute, todo, obs);
  }

  lemma SettledIntoParts(my: seq<Channel>, absolute: seq<Channel>, todo: seq<Post>, obs: seq<Observation>)
    requires |todo| == |obs| && todo != []
    requires forall k :: 1 <= k < |todo| ==>
      (SettledAt(my, absolute, todo, obs, k) <==>
        (Fast(my, absolute, todo[0]) || obs[0].openAfter) && SettledAt(my, absolute, todo[1..], obs[1..], k - 1))
    ensures Settled(my, absolute, todo, obs) <=
      (if SettledAt(my, absolute, todo, obs, 0) then {todo[0].link} else {})
      + (if Fast(my, absolute, todo[0]) || obs[0].openAfter then Settled(my, absolute, todo[1..], obs[1..]) else {})
  {
    forall l | l in Settled(my, absolute, todo, obs)
      ensures l in (if SettledAt(my, absolute, todo, obs, 0) then {todo[0].link} else {})
        + (if Fast(my, absolute, todo[0]) || obs[0].openAfter then Settled(my, absolute, todo[1..], obs[1..]) else {})
    {
      var k :| 0 <= k < |todo| && SettledAt(my, absolute, todo, obs, k) && todo[k].link == l;
      if k > 0 {
        assert todo[1..][k - 1].link == l;
      }
    }
  }

  lemma SettledFromParts(my: seq<Channel>, absolute: seq<Channel>, todo: seq<Post>, obs: seq<Observation>)
    requires |todo| == |obs| && todo != []
    requires forall k :: 1 <= k < |todo| ==>
      (SettledAt(my, absolute, todo, obs, k) <==>
        (Fast(my, absolute, todo[0]) || obs[0].openAfter) && SettledAt(my, absolute, todo[1..], obs[1..], k - 1))
    ensures (if SettledAt(my, absolute, todo, obs, 0) then {todo[0].link} else {})
      + (if Fast(my, absolute, todo[0]) || obs[0].openAfter then Settled(my, absolute, todo[1..], obs[1..]) else {})
      <= Settled(my, absolute, todo, obs)
  {
    if Fast(my, absolute, todo[0]) || obs[0].openAfter {
      forall l | l in Settled(my, absolute, todo[1..], obs[1..]) ensures l in Settled(my, absolute, todo, obs) {
        var k :| 0 <= k < |todo| - 1 && SettledAt(my, absolute, todo[1..], obs[1..], k) && todo[1..][k].link == l;
        assert SettledAt(my, absolute, todo, obs, k + 1);
      }
    }
  }

  /** A later post is settled exactly when the pass goes on after the first
      and the post is settled in the rest of the pass. */
  lemma SettledShift(my: seq<Channel>, absolute: seq<Channel>, todo: seq<Post>, obs: seq<Observation>)
    requires |todo| == |obs| && todo != []
    ensures forall k :: 1 <= k < |todo| ==>
      (SettledAt(my, absolute, todo, obs, k) <==>
        (Fast(my, absolute, todo[0]) || obs[0].openAfter) && SettledAt(my, absolute, todo[1..], obs[1..], k - 1))
  {
    forall k | 1 <= k < |todo|
      ensures SettledAt(my, absolute, todo, obs, k) <==>
        (Fast(my, absolute, todo[0]) || obs[0].openAfter) && SettledAt(my, absolute, todo[1..], obs[1..], k - 1)
    {
      ReachedShift(my, absolute, todo, obs, k);
      assert todo[1..][k - 1] == todo[k] && obs[1..][k - 1] == obs[k];
    }
  }

  /** With unique links, a pass takes out of the unsent set exactly the
      links of the posts it settles. */
  lemma {:induction false} PassSettles(w: World, todo: seq<Post>, obs: seq<Observation>)
    requires |todo| == |obs| && UniqueLinks(w.st.posts)
    ensures UnsentLinks(Pass(w, todo, obs).st.posts)
      == UnsentLinks(w.st.posts) - Settled(w.st.myChannels, w.st.absoluteChannels, todo, obs)
    decreases |todo|
  {
    var my, ab := w.st.myChannels, w.st.absoluteChannels;
    if todo == [] {
      assert Settled(my, ab, todo, obs) == {};
    } else {
      var p := todo[0];
      var fast := Fast(my, ab, p);
      var w1 := if fast then FastPublish(w, p, obs[0].outcomes) else SendPost(w, p, obs[0]);
      FirstPostSettles(w, todo, obs);
      SettledUnfold(my, ab, todo, obs);
      if fast {
        PassSettles(w1, todo[1..], obs[1..]);
      } else if obs[0].openAfter {
        PassSettles(w1.(acts := w1.acts + [Pace]), todo[1..], obs[1..]);
      }
    }
  }

  /** The first post of a pass leaves the unsent set without its link
      exactly when it is settled, and keeps the links unique. */
  lemma FirstPostSettles(w: World, todo: seq<Post>, obs: seq<Observation>)
    requires |todo| == |obs| && todo != [] && UniqueLinks(w.st.posts)
    ensures var my, ab := w.st.myChannels, w.st.absoluteChannels;
      var w1 := if Fast(my, ab, todo[0]) then FastPublish(w, todo[0], obs[0].outcomes) else SendPost(w, todo[0], obs[0]);
      && UniqueLinks(w1.st.posts)
      && UnsentLinks(w1.st.posts) == UnsentLinks(w.st.posts) - (if SettledAt(my, ab, todo, obs, 0) then {todo[0].link} else {})
  {
    var my, ab := w.st.myChannels, w.st.absoluteChannels;
    var p := todo[0];
    var fast := Fast(my, ab, p);
    var w1 := if fast then FastPublish(w, p, obs[0].outcomes) else SendPost(w, p, obs[0]);
    var settles := SettledAt(my, ab, todo, obs, 0);
    assert settles <==> fast || (obs[0].openAtSend && Settles(|PreviewPlan(p)|, obs[0].outcomes));
    if settles {
      MarkSendedRemovesLink(w.st.posts, p.link);
    }
    assert forall k :: 0 <= k < |w1.st.posts| ==> w1.st.posts[k].link == w.st.posts[k].link;
  }

  /** A run of the loop: the posts it marks sent are exactly the settled
      pending ones. */
  lemma DeliverySettles(w: World, obs: seq<Observation>)
    requires |obs| == |Pending(w.st.posts)| && UniqueLinks(w.st.posts) && Open(w.s)
    ensures UnsentLinks(DeliveryPass(w, obs).st.posts)
      == UnsentLinks(w.st.posts) - Settled(w.st.myChannels, w.st.absoluteChannels, Pending(w.st.posts), obs)
  {
    PassSettles(w, Pending(w.st.posts), obs);
  }

  /** When the operator has one channel and every pending post comes from
      an absolute channel, a run settles every pending post, whatever
      Telegram answers and whatever the operator does meanwhile. */
  lemma AbsoluteSourcesAllSettle(my: seq<Channel>, absolute: seq<Channel>, todo: seq<Post>, obs: seq<Observation>)
    requires |todo| == |obs| && |my| == 1
    requires forall k :: 0 <= k < |todo| ==> todo[k].channelNickname in absolute
    ensures Settled(my, absolute, todo, obs) == set k | 0 <= k < |todo| :: todo[k].link
  {
    forall k | 0 <= k < |todo| ensures SettledAt(my, absolute, todo, obs, k) {
      assert Fast(my, absolute, todo[k]);
    }
  }

  /** A preview the pass never reached, or whose gate had closed, stays
      pending. */
  lemma ClosedGateKeepsPending(my: seq<Channel>, absolute: seq<Channel>, todo: seq<Post>, obs: seq<Observation>, k: nat)
    requires |todo| == |obs| && k < |todo| && !Fast(my, absolute, todo[k]) && !obs[k].openAtSend
    requires forall j :: 0 <= j < |todo| && j != k ==> todo[j].link != todo[k].link
    ensures todo[k].link !in Settled(my, absolute, todo, obs)
  {
  }

  /** Every settled link belongs to a post that is not deleted. */
  lemma SettledArePending(my: seq<Channel>, absolute: seq<Channel>, posts: seq<Post>, obs: seq<Observation>)
    requires |obs| == |Pending(posts)|
    ensures forall l :: l in Settled(my, absolute, Pending(posts), obs) ==>
      exists j :: 0 <= j < |posts| && posts[j].link == l && !posts[j].deleted
  {
    var todo := Pending(posts);
    SubseqElements(todo, posts);
    forall l | l in Settled(my, absolute, todo, obs)
      ensures exists j :: 0 <= j < |posts| && posts[j].link == l && !posts[j].deleted
    {
      var k :| 0 <= k < |todo| && SettledAt(my, absolute, todo, obs, k) && todo[k].link == l;
      assert todo[k] in todo;
      var j :| 0 <= j < |posts| && posts[j] == todo[k];
    }
  }

  /** A post marked deleted is left alone by a run, when links are unique. */
  lemma DeletedPostsUntouched(w: World, obs: seq<Observation>, i: nat)
    requires |obs| == |Pending(w.st.posts)| && UniqueLinks(w.st.posts)
    requires i < |w.st.posts| && w.st.posts[i].deleted
    ensures DeliveryPass(w, obs).st.posts[i] == w.st.posts[i]
  {
    var posts := w.st.posts;
    var r := DeliveryPass(w, obs);
    if Open(w.s) && !posts[i].sended {
      var l := posts[i].link;
      SettledArePending(w.st.myChannels, w.st.absoluteChannels, posts, obs);
      assert l !in Settled(w.st.myChannels, w.st.absoluteChannels, Pending(posts), obs);
      DeliverySettles(w, obs);
      assert l in UnsentLinks(r.st.posts);
      var j :| 0 <= j < |r.st.posts| && !r.st.posts[j].sended && r.st.posts[j].link == l;
      assert r.st.posts[j].link == posts[j].link;
      assert j == i;
    }
  }

  /** Why the lemmas above need unique links: the pass marks sent by link,
      and the update lands on the first post with it. With a deleted post
      and a pending one sharing a link, a settled preview of the pending
      post marks the deleted one sent, and the pending one stays pending. */
  lemma DuplicateLinkMarksDeleted(w: World, gone: Post, p: Post)
    requires w.st.posts == [gone, p] && gone.link == p.link && Open(w.s) && |w.st.myChannels| != 1
    requires gone.deleted && !gone.sended && !p.deleted && !p.sended
    ensures Pending(w.st.posts) == [p]
    ensures DeliveryPass(w, [Observation(true, Outcomes(Accepted, Accepted), true)]).st.posts
      == [gone.(sended := true), p]
  {
    assert w.st.posts[1..] == [p];
    assert Pending([p]) == [p] by {
      assert [p][1..] == [];
    }
    var o := Observation(true, Outcomes(Accepted, Accepted), true);
    var w1 := SendPost(w, p, o);
    assert FindPost(w.st.posts, Some(p.link)) == Some(0);
    assert w1.st.posts == [gone.(sended := true), p];
    PassGoesOn(w, [p], [o]);
    assert [p][1..] == [] && [o][1..] == [];
    assert Onward(w, p, o).st.posts == w1.st.posts;
  }

  // ---------------------------------------------------------------------------
  // The preview and its delete button
  // ---------------------------------------------------------------------------

  /** No tracked preview mentions an id from `next` on: Telegram's ids only grow. */
  predicate IdsBelow(delivered: seq<Tracked>, next: MsgId)
  {
    forall k :: 0 <= k < |delivered| ==> forall x :: x in IdsOf(delivered[k]) ==> x < next
  }

  /** A preview of a media group and a text with the post buttons, both
      accepted, adds one entry for each. */
  lemma TwoAccepted(w: World, plan: seq<Send>, n: nat)
    requires |plan| == 2 && plan[0].Album? && |plan[0].items| == n && plan[1].Text? && plan[1].keyboard.PostButtons?
    ensures var a := SendPreview(w, plan, Outcomes(Accepted, Accepted));
      && a.w.s.nextId == w.s.nextId + n + 1
      && a.w.s.delivered == w.s.delivered + [Group(Fresh(w.s, n)), Single((w.s.nextId + n) as MsgId, true)]
  {
    var w1 := Deliver(w, plan[0]);
    assert w1.s.delivered == w.s.delivered + [Group(Fresh(w.s, |plan[0].items|))];
    var w2 := Deliver(w1, plan[1]);
    assert Fresh(w1.s, 1)[0] == w1.s.nextId;
    assert EntryFor(plan[1], Fresh(w1.s, 1)) == Single(w1.s.nextId, true);
    assert SendPreview(w, plan, Outcomes(Accepted, Accepted)) == Attempt(w2, true);
  }

  /** A media post previewed in full adds the media group and then the
      text with the post buttons to the previews. */
  lemma FullPreview(w: World, p: Post, o: Observation)
    requires o.openAtSend && o.outcomes == Outcomes(Accepted, Accepted) && p.media != []
    ensures var r := SendPost(w, p, o);
      && r.s.nextId == w.s.nextId + |p.media| + 1
      && r.s.delivered == w.s.delivered + [Group(Fresh(w.s, |p.media|)), Single((w.s.nextId + |p.media|) as MsgId, true)]
  {
    PreviewAccepted(w, p);
    SendPostShowsPreview(w, p, o, PreviewPlan(p));
  }

  /** Both sends of a media post's preview accepted: its media group and
      its button message join the previews. */
  lemma PreviewAccepted(w: World, p: Post)
    requires p.media != []
    ensures var a := SendPreview(w, PreviewPlan(p), Outcomes(Accepted, Accepted));
      && a.w.s.nextId == w.s.nextId + |p.media| + 1
      && a.w.s.delivered == w.s.delivered + [Group(Fresh(w.s, |p.media|)), Single((w.s.nextId + |p.media|) as MsgId, true)]
  {
    var plan := [Album(Chat, AlbumOf(p.media)), Text(Chat, Free(Caption(p)), PostButtons(p.link), false)];
    assert PreviewPlan(p) == plan;
    TwoAccepted(w, plan, |p.media|);
  }

  lemma SendPostShowsPreview(w: World, p: Post, o: Observation, plan: seq<Send>)
    requires o.openAtSend && plan == PreviewPlan(p)
    ensures SendPost(w, p, o).s.delivered == SendPreview(w, plan, o.outcomes).w.s.delivered
    ensures SendPost(w, p, o).s.nextId == SendPreview(w, plan, o.outcomes).w.s.nextId
  {
  }

  /** A media preview as FullPreview leaves it — an untracked button
      message right after its media group — can be taken back by its
      delete button: the message goes together with the media group above
      it, and nothing else. */
  lemma PreviewDeletesWithAlbum(d: seq<Tracked>, next: MsgId, album: seq<MsgId>, textId: MsgId)
    requires IdsBelow(d, next) && next <= textId
    ensures DeleteMessageFromChat(d + [Group(album), Single(textId, true)], textId).retracted == album + [textId]
  {
    NewIdUntracked(d, next, textId);
    DeletePreviewWithAlbum(d, album, textId, []);
    assert d + [Group(album), Single(textId, true)] + [] == d + [Group(album), Single(textId, true)];
  }

  lemma NewIdUntracked(d: seq<Tracked>, next: MsgId, x: MsgId)
    requires IdsBelow(d, next) && next <= x
    ensures forall k :: 0 <= k < |d| ==> !IsMessage(d[k], x)
  {
    forall k | 0 <= k < |d| ensures !IsMessage(d[k], x) {
      if d[k].Single? {
        assert d[k].id in IdsOf(d[k]);
      }
    }
  }

  // ---------------------------------------------------------------------------
  // The publish-channel cursor after the fast path
  // ---------------------------------------------------------------------------

  /** As written, the channel of a fast-path publication outlives it: if
      the operator then lists other channels and presses "post now" on a
      preview, the publishing page opens with the old channel already
      chosen, and "publish now" goes there without asking. */
  lemma FastPathLeavesChannel(w: World, p: Post, out: Outcomes, others: seq<Channel>, link: Option<Link>, out2: Outcomes)
    requires |w.st.myChannels| == 1 && w.st.myChannels[0] != [] && |others| > 1 && w.st.myChannels[0] !in others
    ensures var r := FastPublishAsWritten(w, p, out);
      var w3 := ImmediatelyPost(r.(st := r.st.(myChannels := others)), link, out2);
      && w3.s.page == PublishScreen
      && w3.s.publishChannel == Some(w.st.myChannels[0])
      && w3.s.publishChannel.value !in w3.st.myChannels
      && !Falsy(w3.s.publishChannel)
  {
  }

  /** As corrected, the same sequence asks the operator for a channel. */
  lemma FastPathThenChannelAsked(w: World, p: Post, out: Outcomes, others: seq<Channel>, link: Option<Link>, out2: Outcomes, out3: Outcomes)
    requires |w.st.myChannels| == 1 && |others| > 1
    ensures var r := FastPublish(w, p, out);
      var w3 := ImmediatelyPost(r.(st := r.st.(myChannels := others)), link, out2);
      && w3.s.page == PublishScreen
      && w3.s.publishChannel.None?
      && Navigation.PublishNow(w3, out3) == Track(w3, ChannelChoice(w3.st))
  {
  }
}

=== FILE: dispatch.dfy ===
/** The bot's two event handlers (createEvents): the operator's messages —
    replies to the bot's prompts, uploads and reply-keyboard buttons — and
    the inline-button callbacks. Everything the handlers learn from outside
    (whether a store write succeeded, the completion service's answer,
    Telegram's answers to a publication, the random media id and the HTML
    rendering of a text) arrives in an `Oracle`. */
module Dispatch {
  import opened Base
  import opened Text
  import opened Seqs
  import opened Posts
  import opened Outbound
  import opened UiHistory
  import opened Assistant
  import opened DelayParse
  import opened Navigation
  import CallbackData

  /** The reply-keyboard buttons, named as in the bot's command table, and
      the `/start` command. */
  datatype Command =
    | Restart
    | UpdateSubscribedChannels | ShowSubscribedChannels | UpdateAbsoluteChannels | UpdateSign
    | UpdateMyChannels | ShowMyChannels | ShowAbsoluteChannels
    | StartWatcher | StopWatcher | ClearDatabase
    | EditText | AddSubscribe | PublishPost | EditMedia | GoToGpt
    | PublishNow | DelayPublish | ChangePublishChannel
    | EditOnGptPage | UpdateContext | RephraseBot
    | Back

  /** The button texts of the command table, and the media-type table that
      maps a stored MIME type to Telegram's kind ("photo", "video"). */
  datatype Config = Config(buttons: map<string, Command>, mediaTypes: map<string, string>)

  /** The command a message text selects: `/start` first, then the buttons. */
  function CommandOf(cfg: Config, text: Option<string>): (c: Option<Command>)
    ensures text == Some("/start") ==> c == Some(Restart)
    ensures text.None? ==> c.None?
    ensures text.Some? && text.value != "/start" ==>
      c == (if text.value in cfg.buttons then Some(cfg.buttons[text.value]) else None)
  {
    match text
    case None => None
    case Some(t) =>
      if t == "/start" then Some(Restart)
      else if t in cfg.buttons then Some(cfg.buttons[t])
      else None
  }

  /** The page a button belongs to; it is ignored anywhere else. `/start`,
      "rephrase" and "back" work on every page. */
  function HomePage(c: Command): Option<Page>
  {
    match c
    case UpdateSubscribedChannels | ShowSubscribedChannels | UpdateAbsoluteChannels | UpdateSign
       | UpdateMyChannels | ShowMyChannels | ShowAbsoluteChannels
       | StartWatcher | StopWatcher | ClearDatabase => Some(StartPage)
    case EditText | AddSubscribe | PublishPost | EditMedia | GoToGpt => Some(EditPostPage)
    case PublishNow | DelayPublish | ChangePublishChannel => Some(PublishScreen)
    case EditOnGptPage | UpdateContext => Some(GptPage)
    case Restart | RephraseBot | Back => None
  }

  /** A button pressed away from its page. */
  predicate Misplaced(c: Command, page: Page)
  {
    HomePage(c).Some? && HomePage(c).value != page
  }

  /** The buttons whose text is not passed on to the assistant. */
  predicate Unforwarded(c: Command)
  {
    c == Back || c == EditOnGptPage || c == GoToGpt || c == UpdateContext || c == RephraseBot
  }

  /** A photo (its first size) or a video sent by the operator. */
  datatype Upload = Upload(photo: bool, fileId: string, size: int)

  /** The message a reply answers: one of the bot's fixed texts, or anything else. */
  datatype ReplyTarget = ToNotice(notice: Notice) | ToOther

  /** An operator's message. `html` is the text rendered to HTML with its
      formatting entities. */
  datatype Inbound = Inbound(
    id: MsgId,
    text: Option<string>,
    html: string,
    upload: Option<Upload>,
    replyTo: Option<ReplyTarget>)

  /** The answers of the outside world to one event. */
  datatype Oracle = Oracle(
    storeOk: bool,              // the guarded store write succeeded
    uuid: string,               // the random id of a new media item
    reply: Completion,          // the completion service
    publish: Outcomes,          // Telegram, for a publication in a channel
    replyShown: bool,           // Telegram accepted the message with the assistant's answer or error
    deleteRefusedAt: Option<nat>, // the first deleteMessage of the event Telegram refuses, counted from 0
    toHtml: string -> string)   // the HTML rendering of an unformatted text

  datatype Event =
    | Message(m: Inbound)
    | Button(msgId: MsgId, data: string)   // a callback from the inline button under message `msgId`
    | HomeTimer                            // the 2-second return to the start page fires

  /** What every handler keeps: delivery blocked exactly off the start page,
      and a conversation in which every answer follows a question. The
      exchanges are not always complete: a refused answer leaves its
      question unanswered (RefusedAnswerUnpairs). */
  predicate Invariant(s: Session)
  {
    BlockedOffStart(s) && Answered(s.turns)
  }

  /** A step is safe: it keeps the invariant and never brings a sent post
      back into the delivery queue. */
  predicate Safe(w: World, r: World)
  {
    (Invariant(w.s) ==> Invariant(r.s)) && UnsentLinks(r.st.posts) <= UnsentLinks(w.st.posts)
  }

  // ---------------------------------------------------------------------------
  // Store writes
  // ---------------------------------------------------------------------------

  /** The four lists the operator maintains by replying to a prompt. */
  datatype Setting = Subscribed | Absolute | Signature | Mine

  function Assign(st: Store, which: Setting, lines: seq<string>): (r: Store)
    ensures r.posts == st.posts && Current(r, which) == lines
    ensures forall other: Setting :: other != which ==> Current(r, other) == Current(st, other)
  {
    match which
    case Subscribed => st.(subscribedChannels := lines)
    case Absolute => st.(absoluteChannels := lines)
    case Signature => st.(sign := lines)
    case Mine => st.(myChannels := lines)
  }

  function Current(st: Store, which: Setting): seq<string>
  {
    match which
    case Subscribed => st.subscribedChannels
    case Absolute => st.absoluteChannels
    case Signature => st.sign
    case Mine => st.myChannels
  }

  /** The prompt that asks the operator for a list. */
  function PromptFor(which: Setting): Notice
  {
    match which
    case Subscribed => SubscribedPrompt
    case Absolute => AbsolutePrompt
    case Signature => SignPrompt
    case Mine => MyChannelsPrompt
  }

  /** The list a reply to prompt `n` replaces, if `n` asks for one. */
  function AskedSetting(n: Notice): (r: Option<Setting>)
    ensures r.Some? ==> PromptFor(r.value) == n
    ensures forall which: Setting :: PromptFor(which) == n ==> r == Some(which)
  {
    if n == SubscribedPrompt then Some(Subscribed)
    else if n == AbsolutePrompt then Some(Absolute)
    else if n == SignPrompt then Some(Signature)
    else if n == MyChannelsPrompt then Some(Mine)
    else None
  }

  /** The confirmation of a save; the absolute list reuses the subscribed one's. */
  function Saved(which: Setting, ok: bool): Notice
  {
    match which
    case Subscribed | Absolute => if ok then SubscribedSaved else SubscribedSaveFailed
    case Signature => if ok then SignSaved else SignSaveFailed
    case Mine => if ok then MyChannelsSaved else MyChannelsSaveFailed
  }

  /** The reply to a list prompt: one entry per line. A message without
      text makes `split` throw and the handler stops. */
  function SaveSetting(w: World, text: Option<string>, ok: bool, which: Setting): (r: World)
    ensures text.None? ==> r == w
    ensures text.Some? && ok ==> (
      var lines := Current(r.st, which);
      && |lines| >= 1 && JoinWith(lines, '\n') == text.value
      && forall k :: 0 <= k < |lines| ==> '\n' !in lines[k])
    ensures forall other: Setting :: other != which || !ok || text.None? ==> Current(r.st, other) == Current(w.st, other)
    ensures r.st.posts == w.st.posts && r.s == w.s.(nextId := r.s.nextId)
    ensures text.Some? ==> |r.acts| == |w.acts| + 1 && r.acts[|w.acts|].Sent? && r.acts[|w.acts|].send == Note(Saved(which, ok), NoKeyboard)
  {
    match text
    case None => w
    case Some(t) =>
      var lines := SplitOn(t, '\n');
      JoinSplit(t, '\n');
      var st := if ok then Assign(w.st, which, lines) else w.st;
      Say(w.(st := st), Note(Saved(which, ok), NoKeyboard))
  }

  /** handleEditText on the post being edited, then the confirmation and
      the editing page again; on failure only the error notice. */
  function EditDescription(w: World, html: string, ok: bool): (r: World)
    ensures Safe(w, r)
    ensures |r.st.posts| == |w.st.posts|
    ensures forall k :: 0 <= k < |w.st.posts| ==>
      r.st.posts[k] == (if ok && FindPost(w.st.posts, w.s.editingLink) == Some(k)
                        then w.st.posts[k].(description := html) else w.st.posts[k])
    ensures ok ==> r.s.page == EditPostPage && r.s.editingLink == w.s.editingLink
    ensures !ok ==> r.s.page == w.s.page && r.s.editingLink == w.s.editingLink
    ensures r.s.turns == w.s.turns
  {
    if ok then
      var w1 := w.(st := w.st.(posts := EditPost(w.st.posts, w.s.editingLink, SetDescription(html))));
      EditNeverUnsends(w.st.posts, w.s.editingLink, SetDescription(html));
      GoToEditing(Track(w1, Note(TextEdited, NoKeyboard)), w.s.editingLink)
    else
      Track(w, Note(TextEditFailed, NoKeyboard))
  }

  /** The same write from the assistant page: the page stays. */
  function EditOnAssistant(w: World, html: string, ok: bool): (r: World)
    ensures Safe(w, r)
    ensures r.s.page == w.s.page && r.s.turns == w.s.turns
    ensures |r.st.posts| == |w.st.posts|
    ensures forall k :: 0 <= k < |w.st.posts| ==>
      r.st.posts[k] == (if ok && FindPost(w.st.posts, w.s.editingLink) == Some(k)
                        then w.st.posts[k].(description := html) else w.st.posts[k])
  {
    if ok then
      EditNeverUnsends(w.st.posts, w.s.editingLink, SetDescription(html));
      var w1 := w.(st := w.st.(posts := EditPost(w.st.posts, w.s.editingLink, SetDescription(html))));
      Track(w1, Note(AssistantTextEdited, Reply(ChatGptMarkup)))
    else
      Track(w, Note(AssistantTextEditFailed, Reply(ChatGptMarkup)))
  }

  /** The reply to the delay prompt: the post being edited is scheduled for
      the chosen channel after the delay the timer really waits (see
      TimerDelay), and the start page follows 2 seconds later. */
  function Delay(w: World, text: Option<string>): (r: World)
    ensures text.None? ==> r == w
    ensures text.Some? ==> (
      && |r.acts| == |w.acts| + 3
      && r.acts[|w.acts|] == Schedule(TimerDelay(DelaySeconds(text.value)), w.s.editingLink, w.s.publishChannel)
      && r.acts[|r.acts| - 1] == ReturnHomeLater)
    ensures r.st == w.st && r.s == w.s.(history := r.s.history, nextId := r.s.nextId)
  {
    match text
    case None => w
    case Some(t) =>
      var w1 := w.(acts := w.acts + [Schedule(TimerDelay(DelaySeconds(t)), w.s.editingLink, w.s.publishChannel)]);
      var w2 := Track(w1, Note(DelayAccepted, Reply(PublishPostMarkup)));
      w2.(acts := w2.acts + [ReturnHomeLater])
  }

  /** A photo or video sent on the editing page joins the post's media
      under a fresh id; the editing page is shown again. */
  function AddMedia(w: World, up: Upload, uuid: string): (r: World)
    ensures Safe(w, r)
    ensures r.s.page == EditPostPage && r.s.editingLink == w.s.editingLink && r.s.turns == w.s.turns
    ensures r.st.posts == EditPost(w.st.posts, w.s.editingLink,
      PushMedia(MediaItem(uuid, up.fileId, if up.photo then "image/jpeg" else "video/mp4", up.size)))
  {
    var item := MediaItem(uuid, up.fileId, if up.photo then "image/jpeg" else "video/mp4", up.size);
    EditNeverUnsends(w.st.posts, w.s.editingLink, PushMedia(item));
    GoToEditing(w.(st := w.st.(posts := EditPost(w.st.posts, w.s.editingLink, PushMedia(item)))), w.s.editingLink)
  }

  // ---------------------------------------------------------------------------
  // Messages
  // ---------------------------------------------------------------------------

  /** Off the start page, every message of the operator is tracked. */
  function Noted(w: World, m: Inbound): (r: World)
    ensures r.s.history == (if w.s.page == StartPage then w.s.history else w.s.history + [Single(m.id, false)])
    ensures r.s == w.s.(history := r.s.history) && r.st == w.st && r.acts == w.acts
  {
    if w.s.page == StartPage then w
    else w.(s := w.s.(history := w.s.history + [Single(m.id, false)]))
  }

  /** A reply to one of the bot's prompts. */
  function OnReply(w: World, m: Inbound, target: ReplyTarget, o: Oracle): (r: World)
    ensures Safe(w, r)
    ensures r.s.turns == w.s.turns
    ensures |r.st.posts| == |w.st.posts| && forall k :: 0 <= k < |w.st.posts| ==> r.st.posts[k].media == w.st.posts[k].media
  {
    match target
    case ToOther => w
    case ToNotice(n) => OnPrompt(w, m, n, o)
  }

  /** A reply to prompt `n`: a list, the delay, or a new description. */
  function OnPrompt(w: World, m: Inbound, n: Notice, o: Oracle): (r: World)
    ensures Safe(w, r)
    ensures r.s.turns == w.s.turns
    ensures |r.st.posts| == |w.st.posts| && forall k :: 0 <= k < |w.st.posts| ==> r.st.posts[k].media == w.st.posts[k].media
  {
    match AskedSetting(n)
    case Some(which) => SaveSetting(w, m.text, o.storeOk, which)
    case None => if n == DelayPrompt then Delay(w, m.text) else OnEditPrompt(w, m, n, o)
  }

  /** A reply to one of the two prompts for a new description. */
  function OnEditPrompt(w: World, m: Inbound, n: Notice, o: Oracle): (r: World)
    ensures Safe(w, r)
    ensures r.s.turns == w.s.turns
    ensures |r.st.posts| == |w.st.posts| && forall k :: 0 <= k < |w.st.posts| ==> r.st.posts[k].media == w.st.posts[k].media
  {
    if n == EditTextPrompt then EditDescription(w, m.html, o.storeOk)
    else if n == AssistantEditPrompt then EditOnAssistant(w, m.html, o.storeOk)
    else w
  }

  /** The effect of a button pressed on its page. */
  function Run(cfg: Config, w: World, c: Command, o: Oracle): (r: World)
    requires !Misplaced(c, w.s.page)
    ensures Safe(w, r)
    ensures r.s.page == GptPage ==> w.s.page == GptPage || c == GoToGpt
    ensures r.s.turns == w.s.turns || r.s.turns == [] || r.s.turns == Exchange(w.s.turns, RephrasePrimer, o.reply, o.replyShown)
  {
    match c
    case Restart => GoToStart(w)
    case RephraseBot => Navigation.Rephrase(w, o.reply, o.replyShown)
    case Back =>
      (match w.s.page
       case StartPage => w
       case EditPostPage => GoToStart(w)
       case PublishScreen => GoToEditing(w, w.s.editingLink)
       case GptPage => GoToEditing(w, w.s.editingLink))
    case UpdateSubscribedChannels | ShowSubscribedChannels | UpdateAbsoluteChannels | UpdateSign
       | UpdateMyChannels | ShowMyChannels | ShowAbsoluteChannels
       | StartWatcher | StopWatcher | ClearDatabase => RunOnStart(w, c)
    case EditText | AddSubscribe | PublishPost | EditMedia | GoToGpt => RunOnEditing(cfg, w, c)
    case PublishNow | DelayPublish | ChangePublishChannel => RunOnPublish(w, c, o)
    case EditOnGptPage | UpdateContext => RunOnGpt(w, c)
  }

  /** The start page's buttons: the settings and the delivery switch. */
  function RunOnStart(w: World, c: Command): (r: World)
    requires HomePage(c) == Some(StartPage)
    ensures Safe(w, r) && r.s.page == w.s.page && r.s.turns == w.s.turns
  {
    match c
    case UpdateSubscribedChannels => Say(w, Note(PromptFor(Subscribed), ForceReply))
    case ShowSubscribedChannels => Say(w, Note(SubscribedList(w.st.subscribedChannels), NoKeyboard))
    case UpdateAbsoluteChannels => Say(w, Note(PromptFor(Absolute), ForceReply))
    case UpdateSign => Say(w, Note(PromptFor(Signature), ForceReply))
    case UpdateMyChannels => Say(w, Note(PromptFor(Mine), ForceReply))
    case ShowMyChannels => Say(w, Note(MyChannelsList(w.st.myChannels), NoKeyboard))
    case ShowAbsoluteChannels => Say(w, Note(AbsoluteList(w.st.absoluteChannels), NoKeyboard))
    case StartWatcher => Say(w.(s := w.s.(active := true)), Note(WatcherStarted, NoKeyboard))
    case StopWatcher => Say(w.(s := w.s.(active := false)), Note(WatcherStopped, NoKeyboard))
    case ClearDatabase =>
      ClearKeepsUnsent(w.st.posts);
      Say(w.(st := w.st.(posts := ClearSent(w.st.posts))), Note(SentPostsCleared, Reply(StartMarkup)))
  }

  /** The editing page's buttons. */
  function RunOnEditing(cfg: Config, w: World, c: Command): (r: World)
    requires HomePage(c) == Some(EditPostPage)
    ensures Safe(w, r)
    ensures r.s.page == GptPage ==> w.s.page == GptPage || c == GoToGpt
    ensures r.s.turns == w.s.turns || r.s.turns == []
  {
    match c
    case EditText => Track(w, Note(EditTextPrompt, ForceReply))
    case AddSubscribe =>
      Track(w, Note(ChooseSubscribeChannel, ChannelButtons(CallbackData.AddSubscribeChannel, w.st.myChannels)))
    case PublishPost => GoToPublish(w)
    case EditMedia => EditMediaScreen(w, cfg.mediaTypes)
    case GoToGpt => Navigation.GoToGpt(w)
  }

  /** The publishing page's buttons. */
  function RunOnPublish(w: World, c: Command, o: Oracle): (r: World)
    requires HomePage(c) == Some(PublishScreen)
    ensures Safe(w, r) && r.s.page == w.s.page && r.s.turns == w.s.turns
  {
    match c
    case PublishNow => Navigation.PublishNow(w, o.publish)
    case DelayPublish => DelayClick(w)
    case ChangePublishChannel => Track(w, ChannelChoice(w.st))
  }

  /** The assistant page's buttons. */
  function RunOnGpt(w: World, c: Command): (r: World)
    requires HomePage(c) == Some(GptPage)
    ensures Safe(w, r) && r.s.page == w.s.page
    ensures r.s.turns == w.s.turns || r.s.turns == []
  {
    match c
    case EditOnGptPage => Track(w, Note(AssistantEditPrompt, ForceReply))
    case UpdateContext => Track(w.(s := w.s.(turns := [])), Note(ContextReset, Reply(ChatGptMarkup)))
  }

  /** What a message without a text the assistant should not see becomes. */
  function UtteranceOf(text: Option<string>): Utterance
  {
    match text
    case None => NoText
    case Some(t) => Said(t)
  }

  /** After the button (if any), a message is passed on to the assistant
      when the chat is now on the assistant page. */
  function Forward(w: World, eligible: bool, text: Option<string>, reply: Completion, shown: bool): (r: World)
    ensures Safe(w, r)
    ensures r.s.turns == (if eligible && w.s.page == GptPage then Exchange(w.s.turns, UtteranceOf(text), reply, shown) else w.s.turns)
  {
    if eligible && w.s.page == GptPage then AskAssistant(w, UtteranceOf(text), reply, shown) else w
  }

  /** The message handler. */
  function OnMessage(cfg: Config, w: World, m: Inbound, o: Oracle): (r: World)
    ensures Safe(w, r)
  {
    var w1 := Noted(w, m);
    if m.replyTo.Some? then OnReply(w1, m, m.replyTo.value, o)
    else if m.upload.Some? && w.s.page == EditPostPage then AddMedia(w1, m.upload.value, o.uuid)
    else match CommandOf(cfg, m.text)
      case Some(c) =>
        if Misplaced(c, w.s.page) then w1
        else Forward(Run(cfg, w1, c, o), !Unforwarded(c), m.text, o.reply, o.replyShown)
      case None => Forward(w1, true, m.text, o.reply, o.replyShown)
  }

  // ---------------------------------------------------------------------------
  // Inline buttons
  // ---------------------------------------------------------------------------

  /** The refused deletion of `at`, if any, as an action. */
  function RefusalOf(at: Attempted): (r: seq<Action>)
    ensures r == (if at.refusedId.Some? then [RetractRefused(at.refusedId.value)] else [])
  {
    match at.refusedId
    case Some(id) => [RetractRefused(id)]
    case None => []
  }

  /** The callback handler: `action::payload` from the button under message `msgId`. */
  function OnCallback(w: World, msgId: MsgId, data: string, o: Oracle): (r: World)
    ensures Safe(w, r)
  {
    var action := CallbackData.ActionOf(data);
    var payload := CallbackData.PayloadOf(data);
    if action == CallbackData.DeletePost then
      EditNeverUnsends(w.st.posts, payload, MarkDeleted);
      var at := DeleteMessageFromChatWith(w.s.delivered, msgId, o.deleteRefusedAt);
      World(w.s.(delivered := at.removal.rest), w.st.(posts := EditPost(w.st.posts, payload, MarkDeleted)),
            w.acts + Retracts(at.removal.retracted) + RefusalOf(at))
    else if action == CallbackData.DeleteMediaItem then
      // `$pull {uuid: undefined}` matches no item
      var posts := if payload.Some? then
          EditNeverUnsends(w.st.posts, w.s.editingLink, PullMedia(payload.value));
          EditPost(w.st.posts, w.s.editingLink, PullMedia(payload.value))
        else w.st.posts;
      var at := DeleteMediaItemFromChatWith(w.s.delivered, msgId, o.deleteRefusedAt);
      var w1 := World(w.s.(delivered := at.removal.rest), w.st.(posts := posts),
                      w.acts + Retracts(at.removal.retracted) + RefusalOf(at));
      // a refused deletion ends the handler before the confirmation
      if at.refusedId.Some? then w1 else Track(w1, Note(MediaItemDeleted, Reply(EditPostMarkup)))
    else if action == CallbackData.EditPost then GoToEditing(w, payload)
    else if action == CallbackData.PostImmediately then ImmediatelyPost(w, payload, o.publish)
    else if action == CallbackData.ChoosePublishChannel then
      Track(w.(s := w.s.(publishChannel := payload)), Note(ChannelChosen, NoKeyboard))
    else if action == CallbackData.AddSubscribeChannel then
      // the post being edited must exist: reading its description throws otherwise
      match FindPost(w.st.posts, w.s.editingLink)
      case None => w
      case Some(i) =>
        EditDescription(w, o.toHtml(w.st.posts[i].description + "\n\n@" + payload.GetOr("undefined")), o.storeOk)
    else w
  }

  /** One event of the chat. */
  function Step(cfg: Config, w: World, e: Event, o: Oracle): (r: World)
    ensures Safe(w, r)
  {
    match e
    case Message(m) => OnMessage(cfg, w, m, o)
    case Button(id, data) => OnCallback(w, id, data, o)
    case HomeTimer => GoToStart(w)
  }

  /** A new chat (build): the connection record is created empty when
      there is none, and the start menu is sent. */
  function Connect(existing: Option<Store>): (w: World)
    ensures Invariant(w.s) && w.s.page == StartPage && w.s.history == [] && w.s.delivered == []
    ensures existing.None? ==> w.st == Store([], [], [], [], [])
    ensures existing.Some? ==> w.st == existing.value
    ensures w.acts == [Sent(Note(StartMenu, Reply(StartMarkup)), [1 as MsgId])]
  {
    var st := existing.GetOr(Store([], [], [], [], []));
    assert Fresh(Initial(), 1) == [1 as MsgId];
    Say(World(Initial(), st, []), Note(StartMenu, Reply(StartMarkup)))
  }

  /** The chat after the events `events`, the i-th answered by `oracles[i]`. */
  function AfterEvents(cfg: Config, w: World, events: seq<Event>, oracles: seq<Oracle>): World
    requires |events| == |oracles|
    decreases |events|
  {
    if events == [] then w
    else AfterEvents(cfg, Step(cfg, w, events[0], oracles[0]), events[1..], oracles[1..])
  }

  // ---------------------------------------------------------------------------
  // Properties
  // ---------------------------------------------------------------------------

  /** Whatever the operator does, delivery stays blocked exactly while the
      chat is off the start page, every answer in the assistant's context
      follows a question, and no sent post is queued again. */
  lemma {:induction false} EventsKeepInvariant(cfg: Config, w: World, events: seq<Event>, oracles: seq<Oracle>)
    requires |events| == |oracles| && Invariant(w.s)
    ensures Invariant(AfterEvents(cfg, w, events, oracles).s)
    ensures UnsentLinks(AfterEvents(cfg, w, events, oracles).st.posts) <= UnsentLinks(w.st.posts)
    decreases |events|
  {
    if events != [] {
      var w1 := Step(cfg, w, events[0], oracles[0]);
      EventsKeepInvariant(cfg, w1, events[1..], oracles[1..]);
    }
  }

  /** In particular from a new chat. */
  lemma ReachableInvariant(cfg: Config, existing: Option<Store>, events: seq<Event>, oracles: seq<Oracle>)
    requires |events| == |oracles|
    ensures Invariant(AfterEvents(cfg, Connect(existing), events, oracles).s)
  {
    EventsKeepInvariant(cfg, Connect(existing), events, oracles);
  }

  /** A plain message whose text is a button of another page does nothing
      but join the UI history. */
  lemma MisplacedButtonIgnored(cfg: Config, w: World, m: Inbound, o: Oracle, c: Command)
    requires m.replyTo.None? && !(m.upload.Some? && w.s.page == EditPostPage)
    requires CommandOf(cfg, m.text) == Some(c) && Misplaced(c, w.s.page)
    ensures OnMessage(cfg, w, m, o) == Noted(w, m)
  {
  }

  /** "Back" goes from the publishing and assistant pages to the editing
      page, from the editing page to the start page, and nowhere from the
      start page; it is never passed on to the assistant. */
  lemma BackGoesUp(cfg: Config, w: World, m: Inbound, o: Oracle)
    requires m.replyTo.None? && !(m.upload.Some? && w.s.page == EditPostPage)
    requires CommandOf(cfg, m.text) == Some(Back)
    ensures var r := OnMessage(cfg, w, m, o);
      && r.s.page == (match w.s.page
                      case StartPage => StartPage
                      case EditPostPage => StartPage
                      case PublishScreen => EditPostPage
                      case GptPage => EditPostPage)
      && r.s.turns == w.s.turns
      && (w.s.page == StartPage ==> r == w)
  {
  }

  /** On the assistant page, a message that is neither a reply nor a button
      is asked of the assistant, with its text as the question. */
  lemma PlainTextOnGptPageForwarded(cfg: Config, w: World, m: Inbound, o: Oracle)
    requires w.s.page == GptPage && m.replyTo.None? && CommandOf(cfg, m.text).None?
    ensures OnMessage(cfg, w, m, o).s.turns == Exchange(w.s.turns, UtteranceOf(m.text), o.reply, o.replyShown)
  {
  }

  /** Off the assistant page, nothing the operator types reaches the
      assistant: the context is kept, cleared, or extended only by the fixed
      rephrasing request. */
  lemma OperatorTextStaysOffGpt(cfg: Config, w: World, m: Inbound, o: Oracle)
    requires w.s.page != GptPage
    ensures var t := OnMessage(cfg, w, m, o).s.turns;
      t == w.s.turns || t == [] || t == Exchange(w.s.turns, RephrasePrimer, o.reply, o.replyShown)
  {
    var w1 := Noted(w, m);
    if m.replyTo.None? && !(m.upload.Some? && w.s.page == EditPostPage) && CommandOf(cfg, m.text).Some? {
      var c := CommandOf(cfg, m.text).value;
      if !Misplaced(c, w.s.page) {
        var r1 := Run(cfg, w1, c, o);
        assert r1.s.page == GptPage ==> c == GoToGpt;
      }
    }
  }

  /** A reply to a prompt never reaches the assistant and never changes a
      post's media. */
  lemma RepliesStayLocal(cfg: Config, w: World, m: Inbound, o: Oracle)
    requires m.replyTo.Some?
    ensures var r := OnMessage(cfg, w, m, o);
      && r.s.turns == w.s.turns
      && |r.st.posts| == |w.st.posts|
      && forall k :: 0 <= k < |w.st.posts| ==> r.st.posts[k].media == w.st.posts[k].media
  {
  }

  /** A photo or video sent on the editing page is appended to the media of
      the post being edited, after the existing items. */
  lemma UploadAppendsMedia(cfg: Config, w: World, m: Inbound, o: Oracle)
    requires m.replyTo.None? && m.upload.Some? && w.s.page == EditPostPage
    requires FindPost(w.st.posts, w.s.editingLink).Some?
    ensures var r := OnMessage(cfg, w, m, o);
      var i := FindPost(w.st.posts, w.s.editingLink).value;
      && |r.st.posts| == |w.st.posts|
      && r.st.posts[i].media == w.st.posts[i].media
           + [MediaItem(o.uuid, m.upload.value.fileId, if m.upload.value.photo then "image/jpeg" else "video/mp4", m.upload.value.size)]
      && forall k :: 0 <= k < |w.st.posts| && k != i ==> r.st.posts[k] == w.st.posts[k]
  {
  }

  /** A well-formed delay reply `H:M` schedules the post being edited for
      the chosen channel H hours and M minutes later, as far as the timer
      can wait that long (TimerDelay). */
  lemma DelayReplySchedules(cfg: Config, w: World, m: Inbound, o: Oracle, h: nat, mins: nat)
    requires m.replyTo == Some(ToNotice(DelayPrompt)) && m.text == Some(FormatDelay(h, mins))
    ensures var r := OnMessage(cfg, w, m, o);
      |r.acts| > |w.acts| && r.acts[|w.acts|] == Schedule(TimerDelay(Some(h * 3600 + mins * 60)), w.s.editingLink, w.s.publishChannel)
    ensures var r := OnMessage(cfg, w, m, o);
      1 <= 1000 * (h * 3600 + mins * 60) <= TimeoutMax ==> r.acts[|w.acts|].ms == 1000 * (h * 3600 + mins * 60)
    ensures var r := OnMessage(cfg, w, m, o);
      1000 * (h * 3600 + mins * 60) > TimeoutMax ==> r.acts[|w.acts|].ms == 1
  {
    DelayReplyRouted(cfg, w, m, o);
    DelaySchedulesFirst(Noted(w, m), h, mins);
  }

  lemma DelaySchedulesFirst(w: World, h: nat, mins: nat)
    ensures var r := Delay(w, Some(FormatDelay(h, mins)));
      |r.acts| > |w.acts| && r.acts[|w.acts|] == Schedule(TimerDelay(Some(h * 3600 + mins * 60)), w.s.editingLink, w.s.publishChannel)
  {
    DelayRoundTrip(h, mins);
  }

  lemma DelayReplyRouted(cfg: Config, w: World, m: Inbound, o: Oracle)
    requires m.replyTo == Some(ToNotice(DelayPrompt)) && m.text.Some?
    ensures OnMessage(cfg, w, m, o) == Delay(Noted(w, m), m.text)
  {
    var w1 := Noted(w, m);
    assert OnMessage(cfg, w, m, o) == OnReply(w1, m, ToNotice(DelayPrompt), o);
    assert AskedSetting(DelayPrompt) == None;
    assert OnPrompt(w1, m, DelayPrompt, o) == Delay(w1, m.text);
  }

  /** The channel button built for channel `ch` sets the publishing cursor
      to exactly `ch`. */
  lemma ChosenChannelRecorded(w: World, msgId: MsgId, ch: Channel, o: Oracle)
    requires CallbackData.SepFree(ch)
    ensures OnCallback(w, msgId, CallbackData.Join(CallbackData.ChoosePublishChannel, ch), o).s.publishChannel == Some(ch)
  {
    CallbackData.ActionNamesRoundTrip(CallbackData.ChoosePublishChannel, ch);
  }

  /** A media item's delete button whose deletion Telegram refuses ends the
      handler there: the message is dropped from the previews list, but
      nothing is deleted and no confirmation is sent. */
  lemma RefusedMediaDeletionStops(w: World, msgId: MsgId, uuid: string, o: Oracle)
    requires o.deleteRefusedAt == Some(0) && CallbackData.SepFree(uuid)
    ensures var r := OnCallback(w, msgId, CallbackData.Join(CallbackData.DeleteMediaItem, uuid), o);
      && r.acts == w.acts + [RetractRefused(msgId)]
      && r.s.history == w.s.history && r.s.nextId == w.s.nextId
      && r.s.delivered == DeleteMediaItemFromChat(w.s.delivered, msgId).rest
  {
    CallbackData.ActionNamesRoundTrip(CallbackData.DeleteMediaItem, uuid);
    assert Retracts([]) == [];
  }

  /** The delete button marks deleted the first post carrying its link,
      and no other; with no such post nothing changes. */
  lemma DeleteButtonMarksFirst(w: World, msgId: MsgId, link: Link, o: Oracle)
    requires CallbackData.SepFree(link)
    ensures var r := OnCallback(w, msgId, CallbackData.Join(CallbackData.DeletePost, link), o);
      var f := FindPost(w.st.posts, Some(link));
      && |r.st.posts| == |w.st.posts|
      && (f.None? ==> r.st.posts == w.st.posts)
      && (f.Some? ==> r.st.posts[f.value] == w.st.posts[f.value].(deleted := true))
      && forall k :: 0 <= k < |w.st.posts| && f != Some(k) ==> r.st.posts[k] == w.st.posts[k]
  {
    CallbackData.ActionNamesRoundTrip(CallbackData.DeletePost, link);
  }

  /** With unique links, the delete button of a post's preview marks that
      post deleted and changes no other post. */
  lemma DeleteButtonRetiresPost(w: World, msgId: MsgId, i: nat, o: Oracle)
    requires UniqueLinks(w.st.posts) && i < |w.st.posts| && CallbackData.SepFree(w.st.posts[i].link)
    ensures var r := OnCallback(w, msgId, CallbackData.Join(CallbackData.DeletePost, w.st.posts[i].link), o);
      && |r.st.posts| == |w.st.posts|
      && r.st.posts[i] == w.st.posts[i].(deleted := true)
      && forall k :: 0 <= k < |w.st.posts| && k != i ==> r.st.posts[k] == w.st.posts[k]
  {
    DeleteButtonMarksFirst(w, msgId, w.st.posts[i].link, o);
    FindUnique(w.st.posts, i);
  }
}

=== FILE: history.dfy ===
/** The two lists of sent messages the bot keeps per chat:
    the UI history (`afterEditHistory`), which is deleted in bulk when the
    operator returns to the start page, and the post previews
    (`sendedPostMessages`), from which one preview is deleted when its post
    is deleted. */
module UiHistory {
  import opened Base
  import opened Seqs

  /** One entry: a message (and whether it has an inline keyboard), the
      array of messages a media group produced, or a promise that was
      stored without being awaited. */
  datatype Tracked = Single(id: MsgId, inline: bool) | Group(ids: seq<MsgId>) | Unawaited

  /** The ids an entry stands for. */
  function IdsOf(e: Tracked): seq<MsgId>
  {
    match e
    case Single(id, _) => [id]
    case Group(ids) => ids
    case Unawaited => []
  }

  /** The ids a list of entries stands for, in order. */
  function Ids(h: seq<Tracked>): seq<MsgId>
  {
    if h == [] then [] else IdsOf(h[0]) + Ids(h[1..])
  }

  lemma {:induction false} IdsAppend(a: seq<Tracked>, b: seq<Tracked>)
    ensures Ids(a + b) == Ids(a) + Ids(b)
    decreases |a|
  {
    if a == [] {
      assert a + b == b;
    } else {
      assert (a + b)[0] == a[0] && (a + b)[1..] == a[1..] + b;
      IdsAppend(a[1..], b);
    }
  }

  // ---------------------------------------------------------------------------
  // Retracting the UI history
  // ---------------------------------------------------------------------------

  /** handleDeleteHistoryFromEditing: walks the history and deletes every
      message, one by one; an entry without `message_id` is iterated as the
      array of a media group. For a stored promise the iteration throws, the
      error is caught and the entry is skipped. */
  method RetractHistory(h: seq<Tracked>) returns (deleted: seq<MsgId>)
    ensures deleted == Ids(h)
  {
    deleted := [];
    var i := 0;
    while i < |h|
      invariant 0 <= i <= |h|
      invariant deleted == Ids(h[..i])
    {
      IdsStep(h, i);
      match h[i] {
        case Single(id, _) =>
          deleted := deleted + [id];
        case Group(ids) =>
          deleted := DeleteEach(deleted, ids);
        case Unawaited =>
      }
      i := i + 1;
    }
    assert h[..i] == h;
  }

  lemma IdsStep(h: seq<Tracked>, i: nat)
    requires i < |h|
    ensures Ids(h[..i + 1]) == Ids(h[..i]) + IdsOf(h[i])
  {
    assert h[..i + 1] == h[..i] + [h[i]];
    IdsAppend(h[..i], [h[i]]);
    assert Ids([h[i]]) == IdsOf(h[i]) + Ids([]);
  }

  /** The loop over a media group's ids, deleting them in order. */
  method DeleteEach(deleted: seq<MsgId>, ids: seq<MsgId>) returns (r: seq<MsgId>)
    ensures r == deleted + ids
  {
    r := deleted;
    var j := 0;
    while j < |ids|
      invariant 0 <= j <= |ids|
      invariant r == deleted + ids[..j]
    {
      assert ids[..j + 1] == ids[..j] + [ids[j]];
      r := r + [ids[j]];
      j := j + 1;
    }
    assert ids[..j] == ids;
  }

  /** Every message the history stands for is deleted, and nothing else. */
  lemma {:induction false} RetractCovers(h: seq<Tracked>, x: MsgId)
    ensures x in Ids(h) <==> exists k :: 0 <= k < |h| && x in IdsOf(h[k])
    decreases |h|
  {
    if h != [] {
      RetractCovers(h[1..], x);
      if x in Ids(h[1..]) {
        var k :| 0 <= k < |h[1..]| && x in IdsOf(h[1..][k]);
        assert x in IdsOf(h[k + 1]);
      }
      if exists k :: 0 <= k < |h| && x in IdsOf(h[k]) {
        var k :| 0 <= k < |h| && x in IdsOf(h[k]);
        if k > 0 {
          assert x in IdsOf(h[1..][k - 1]);
        }
      }
    }
  }

  /** An entry stored without awaiting contributes nothing to the deletion:
      the message behind it stays in the chat. */
  lemma UnawaitedIsSkipped(before: seq<Tracked>, after: seq<Tracked>)
    ensures Ids(before + [Unawaited] + after) == Ids(before) + Ids(after)
  {
    var u: seq<Tracked> := [Unawaited];
    assert u[1..] == [];
    assert Ids(u) == [];
    IdsAppend(before + u, after);
    IdsAppend(before, u);
  }

  // ---------------------------------------------------------------------------
  // Deleting one post preview
  // ---------------------------------------------------------------------------

  /** The entry is the message `id` (`msg.message_id == msgId`; an array or
      a promise has no `message_id`). */
  predicate IsMessage(e: Tracked, id: MsgId)
  {
    e.Single? && e.id == id
  }

  /** The index `find` reports for message `id`. */
  function FirstMessage(s: seq<Tracked>, id: MsgId): (r: Option<nat>)
    ensures r.Some? ==> r.value < |s| && IsMessage(s[r.value], id)
    ensures r.Some? ==> forall k :: 0 <= k < r.value ==> !IsMessage(s[k], id)
    ensures r.None? ==> forall k :: 0 <= k < |s| ==> !IsMessage(s[k], id)
  {
    if s == [] then None
    else if IsMessage(s[0], id) then Some(0)
    else match FirstMessage(s[1..], id)
      case None => None
      case Some(i) => Some(i + 1)
  }

  /** `filter(msg => msg.message_id !== id)`. */
  function DropMessage(s: seq<Tracked>, id: MsgId): (r: seq<Tracked>)
    ensures IsSubseq(r, s)
    ensures forall k :: 0 <= k < |r| ==> !IsMessage(r[k], id)
    ensures forall e: Tracked :: !IsMessage(e, id) ==> Count(r, e) == Count(s, e)
  {
    if s == [] then []
    else
      var rest := DropMessage(s[1..], id);
      assert s == [s[0]] + s[1..];
      if IsMessage(s[0], id) then
        SubseqSkip(s[0], rest, s[1..]);
        rest
      else
        SubseqCons(s[0], rest, s[1..]);
        [s[0]] + rest
  }

  /** `filter((_, index) => index !== i)`. */
  function RemoveAt(s: seq<Tracked>, i: nat): (r: seq<Tracked>)
    requires i < |s|
    ensures IsSubseq(r, s)
    ensures forall e: Tracked :: Count(r, e) == Count(s, e) - (if s[i] == e then 1 else 0)
  {
    RemoveAtSubseq(s, i);
    assert s == s[..i] + [s[i]] + s[i + 1..];
    forall e: Tracked ensures Count(s[..i] + s[i + 1..], e) == Count(s, e) - (if s[i] == e then 1 else 0) {
      CountAppend(s[..i], s[i + 1..], e);
      CountAppend(s[..i] + [s[i]], s[i + 1..], e);
      CountAppend(s[..i], [s[i]], e);
    }
    s[..i] + s[i + 1..]
  }

  lemma {:induction false} RemoveAtSubseq<T>(s: seq<T>, i: nat)
    requires i < |s|
    ensures IsSubseq(s[..i] + s[i + 1..], s)
    decreases i
  {
    assert s == [s[0]] + s[1..];
    if i == 0 {
      assert s[..0] + s[1..] == s[1..];
      SubseqRefl(s[1..]);
      SubseqSkip(s[0], s[1..], s[1..]);
    } else {
      RemoveAtSubseq(s[1..], i - 1);
      assert s[..i] + s[i + 1..] == [s[0]] + (s[1..][..i - 1] + s[1..][i..]);
      SubseqCons(s[0], s[1..][..i - 1] + s[1..][i..], s[1..]);
    }
  }

  /** The outcome of deleting one preview: the ids deleted from the chat,
      in order, and the list that remains. */
  datatype Removal = Removal(retracted: seq<MsgId>, rest: seq<Tracked>)

  /** deleteMessageFromChat: when the message is found at an index other
      than 0 (`if (msgIndex)` is false for 0), the entry before it goes too
      if it is a media group or a message without an inline keyboard; then
      every entry of the message is filtered out and the message is deleted.
      Were the entry before it a stored promise, deleting its (undefined)
      id would throw and nothing else would happen. */
  function DeleteMessageFromChat(delivered: seq<Tracked>, msgId: MsgId): (r: Removal)
    ensures IsSubseq(r.rest, delivered)
    ensures r.retracted == [] ==> r.rest == delivered
    ensures r.retracted != [] ==> r.retracted[|r.retracted| - 1] == msgId
    ensures r.retracted != [] ==> forall k :: 0 <= k < |r.rest| ==> !IsMessage(r.rest[k], msgId)
    ensures forall e: Tracked :: e.Single? && e.inline && e.id != msgId ==> Count(r.rest, e) == Count(delivered, e)
  {
    match FirstMessage(delivered, msgId)
    case Some(i) =>
      if i == 0 then
        Removal([msgId], DropMessage(delivered, msgId))
      else
        var prev := delivered[i - 1];
        if prev.Unawaited? then
          SubseqRefl(delivered);
          Removal([], delivered)
        else if prev.Single? && prev.inline then
          Removal([msgId], DropMessage(delivered, msgId))
        else
          var shorter := RemoveAt(delivered, i - 1);
          var rest := DropMessage(shorter, msgId);
          SubseqTrans(rest, shorter, delivered);
          Removal(IdsOf(prev) + [msgId], rest)
    case None =>
      Removal([msgId], DropMessage(delivered, msgId))
  }

  /** Deleting the text of a media post's preview (a media group followed
      by the text with the post buttons) deletes the media group with it. */
  lemma DeletePreviewWithAlbum(before: seq<Tracked>, album: seq<MsgId>, textId: MsgId, after: seq<Tracked>)
    requires forall k :: 0 <= k < |before| ==> !IsMessage(before[k], textId)
    ensures var r := DeleteMessageFromChat(before + [Group(album), Single(textId, true)] + after, textId);
      && r.retracted == album + [textId]
      && r.rest == DropMessage(before + after, textId)
  {
    var s := before + [Group(album), Single(textId, true)] + after;
    var i := |before| + 1;
    assert IsMessage(s[i], textId);
    assert forall k :: 0 <= k < i ==> !IsMessage(s[k], textId);
    FirstIsFirst(s, textId, i);
    assert s[..i - 1] + s[i..] == before + [Single(textId, true)] + after;
    DropSingle(before, Single(textId, true), after, textId);
  }

  /** Deleting the text of a text-only preview that follows another preview
      deletes only that message. */
  lemma DeletePreviewAfterPreview(before: seq<Tracked>, prevId: MsgId, textId: MsgId, after: seq<Tracked>)
    requires forall k :: 0 <= k < |before| ==> !IsMessage(before[k], textId)
    requires prevId != textId
    ensures var r := DeleteMessageFromChat(before + [Single(prevId, true), Single(textId, true)] + after, textId);
      && r.retracted == [textId]
      && Count(r.rest, Single(prevId, true)) == Count(before + after, Single(prevId, true)) + 1
  {
    var s := before + [Single(prevId, true), Single(textId, true)] + after;
    var i := |before| + 1;
    assert IsMessage(s[i], textId);
    assert forall k :: 0 <= k < i ==> !IsMessage(s[k], textId);
    FirstIsFirst(s, textId, i);
    var e := Single(prevId, true);
    assert s == (before + [e]) + ([Single(textId, true)] + after);
    CountAppend(before + [e], [Single(textId, true)] + after, e);
    CountAppend(before, [e], e);
    CountAppend([Single(textId, true)], after, e);
    CountAppend(before, after, e);
  }

  lemma FirstIsFirst(s: seq<Tracked>, id: MsgId, i: nat)
    requires i < |s| && IsMessage(s[i], id)
    requires forall k :: 0 <= k < i ==> !IsMessage(s[k], id)
    ensures FirstMessage(s, id) == Some(i)
  {
  }

  lemma {:induction false} DropSingle(before: seq<Tracked>, e: Tracked, after: seq<Tracked>, id: MsgId)
    requires IsMessage(e, id)
    ensures DropMessage(before + [e] + after, id) == DropMessage(before + after, id)
    decreases |before|
  {
    if before == [] {
      assert before + [e] + after == [e] + after;
      assert ([e] + after)[0] == e && ([e] + after)[1..] == after;
      assert before + after == after;
    } else {
      assert (before + [e] + after)[1..] == before[1..] + [e] + after;
      assert (before + after)[1..] == before[1..] + after;
      DropSingle(before[1..], e, after, id);
    }
  }

  /** deleteMediaItemFromChat: drops the message from the previews and
      deletes it, with no sibling rule. */
  function DeleteMediaItemFromChat(delivered: seq<Tracked>, msgId: MsgId): (r: Removal)
    ensures r.retracted == [msgId]
    ensures IsSubseq(r.rest, delivered)
    ensures forall k :: 0 <= k < |r.rest| ==> !IsMessage(r.rest[k], msgId)
    ensures forall e: Tracked :: !IsMessage(e, msgId) ==> Count(r.rest, e) == Count(delivered, e)
  {
    Removal([msgId], DropMessage(delivered, msgId))
  }

  // ---------------------------------------------------------------------------
  // Refused deletions
  // ---------------------------------------------------------------------------

  /** The deletions one button actually achieved, and the id whose deletion
      Telegram refused, if any. A refusal rejects the awaiting handler:
      nothing after it runs. */
  datatype Attempted = Attempted(removal: Removal, refusedId: Option<MsgId>)

  /** The deletions `full.retracted`, whose last one follows the filtering
      of the list down to `full.rest`, cut short where Telegram refuses the
      deletion with index `refusedAt`: the earlier ones happened, and the
      list was filtered only if the refused one is the last. */
  function Interrupted(delivered: seq<Tracked>, full: Removal, refusedAt: Option<nat>): (r: Attempted)
    requires IsSubseq(full.rest, delivered)
    ensures IsSubseq(r.removal.rest, delivered)
    ensures r.refusedId.None? <==> refusedAt.None? || refusedAt.value >= |full.retracted|
    ensures r.refusedId.None? ==> r.removal == full
    ensures r.refusedId.Some? ==> |r.removal.retracted| == refusedAt.value
    ensures r.refusedId.Some? ==> r.removal.retracted + [r.refusedId.value] == full.retracted[..refusedAt.value + 1]
    ensures r.refusedId.Some? && refusedAt.value + 1 < |full.retracted| ==> r.removal.rest == delivered
    ensures r.refusedId.Some? && refusedAt.value + 1 == |full.retracted| ==> r.removal.rest == full.rest
  {
    match refusedAt
    case Some(k) =>
      if k < |full.retracted| then
        SubseqRefl(delivered);
        assert full.retracted[..k + 1] == full.retracted[..k] + [full.retracted[k]];
        Attempted(Removal(full.retracted[..k], if k + 1 == |full.retracted| then full.rest else delivered),
                  Some(full.retracted[k]))
      else Attempted(full, None)
    case None => Attempted(full, None)
  }

  /** deleteMessageFromChat when Telegram may refuse one of its deletions. */
  function DeleteMessageFromChatWith(delivered: seq<Tracked>, msgId: MsgId, refusedAt: Option<nat>): (r: Attempted)
    ensures IsSubseq(r.removal.rest, delivered)
    ensures r.refusedId.None? ==> r.removal == DeleteMessageFromChat(delivered, msgId)
    ensures r.refusedId.Some? ==> r.removal.retracted + [r.refusedId.value] <= DeleteMessageFromChat(delivered, msgId).retracted
  {
    Interrupted(delivered, DeleteMessageFromChat(delivered, msgId), refusedAt)
  }

  /** deleteMediaItemFromChat when Telegram may refuse the deletion: the
      list is filtered first, so a refused message leaves the list anyway. */
  function DeleteMediaItemFromChatWith(delivered: seq<Tracked>, msgId: MsgId, refusedAt: Option<nat>): (r: Attempted)
    ensures r.removal.rest == DeleteMediaItemFromChat(delivered, msgId).rest
    ensures r.refusedId.Some? <==> refusedAt == Some(0)
    ensures r.refusedId.Some? ==> r.removal.retracted == [] && r.refusedId == Some(msgId)
    ensures r.refusedId.None? ==> r.removal == DeleteMediaItemFromChat(delivered, msgId)
  {
    Interrupted(delivered, DeleteMediaItemFromChat(delivered, msgId), refusedAt)
  }

  /** A refused deletion in a media post's preview: refused within the media
      group, the whole preview stays listed; refused on the text, the media
      group is gone but the text stays on screen, no longer listed. */
  lemma RefusedPreviewDeletion(before: seq<Tracked>, album: seq<MsgId>, textId: MsgId, after: seq<Tracked>, k: nat)
    requires forall j :: 0 <= j < |before| ==> !IsMessage(before[j], textId)
    requires k <= |album|
    ensures var delivered := before + [Group(album), Single(textId, true)] + after;
      var r := DeleteMessageFromChatWith(delivered, textId, Some(k));
      && r.removal.retracted == album[..k]
      && r.refusedId == Some(if k < |album| then album[k] else textId)
      && r.removal.rest == (if k < |album| then delivered else DropMessage(before + after, textId))
  {
    var delivered := before + [Group(album), Single(textId, true)] + after;
    DeletePreviewWithAlbum(before, album, textId, after);
    var full := DeleteMessageFromChat(delivered, textId);
    assert full.retracted == album + [textId];
    assert full.retracted[..k] == album[..k];
  }
}

=== FILE: navigation.dfy ===
/** The per-chat state of the bot and its page transitions
    (goToStartScreen, goToEditingScreen, goToPublishScreen, goToGPT,
    immediatelyPost and the handlers they share). A transition takes the
    `World` — session, persisted record and the actions so far — and
    returns it with its own actions appended. Messages sent to the
    operator's chat are taken to be accepted; their ids come from a
    counter, as Telegram numbers a chat's messages in increasing order. */
module Navigation {
  import opened Base
  import opened Posts
  import opened Outbound
  import opened UiHistory
  import opened Assistant
  import opened Publish
  import opened Text
  import opened Seqs
  import opened CallbackData

  datatype Page = StartPage | EditPostPage | PublishScreen | GptPage

  datatype Session = Session(
    page: Page,
    active: bool,                   // the delivery loop is switched on
    senderBlocked: bool,            // the delivery loop pauses while the operator edits
    editingLink: Option<Link>,      // currentEditingPostLink
    publishChannel: Option<Channel>, // currentPublishChannel
    history: seq<Tracked>,          // afterEditHistory
    delivered: seq<Tracked>,        // sendedPostMessages
    turns: seq<Turn>,               // gptMessages
    nextId: MsgId)                  // the id Telegram gives the next chat message

  /** A new chat: the start page, delivery on, nothing tracked. */
  function Initial(): (s: Session)
    ensures s.page == StartPage && s.active && !s.senderBlocked
  {
    Session(StartPage, true, false, None, None, [], [], [], 1)
  }

  datatype World = World(s: Session, st: Store, acts: seq<Action>)

  /** The delivery loop is blocked exactly while the operator is off the
      start page: every transition that leaves the start page blocks it and
      the only one that returns unblocks it. */
  predicate BlockedOffStart(s: Session)
  {
    s.senderBlocked <==> s.page != StartPage
  }

  /** The parts of the world a transition of the UI leaves alone. */
  predicate SameData(w: World, r: World)
  {
    r.st == w.st && r.s.active == w.s.active && r.s.delivered == w.s.delivered
  }

  /** `r` extends `w`: actions and UI history only grow, ids only advance. */
  predicate Extends(w: World, r: World)
  {
    && w.acts <= r.acts
    && w.s.history <= r.s.history
    && w.s.nextId <= r.s.nextId
  }

  // ---------------------------------------------------------------------------
  // Sending to the operator's chat
  // ---------------------------------------------------------------------------

  /** The ids Telegram gives the next `n` messages. */
  function Fresh(s: Session, n: nat): (ids: seq<MsgId>)
    ensures |ids| == n && forall k :: 0 <= k < n ==> ids[k] == s.nextId + k
  {
    if n == 0 then [] else Fresh(s, n - 1) + [(s.nextId + n - 1) as MsgId]
  }

  /** The list entry that stands for the reply to send `m`. */
  function EntryFor(m: Send, ids: seq<MsgId>): Tracked
  {
    if m.Album? || ids == [] then Group(ids) else Single(ids[0], HasInlineKeyboard(m))
  }

  /** Sends `m` to the chat without keeping a reference to it. */
  function Say(w: World, m: Send): (r: World)
    ensures r.s == w.s.(nextId := r.s.nextId) && r.st == w.st
    ensures r.acts == w.acts + [Sent(m, Fresh(w.s, MessageCount(m)))]
    ensures r.s.nextId == w.s.nextId + MessageCount(m)
  {
    var ids := Fresh(w.s, MessageCount(m));
    World(w.s.(nextId := w.s.nextId + MessageCount(m)), w.st, w.acts + [Sent(m, ids)])
  }

  /** Sends `m` and pushes the reply onto the UI history. */
  function Track(w: World, m: Send): (r: World)
    ensures r.s == w.s.(nextId := r.s.nextId, history := r.s.history) && r.st == w.st
    ensures r.acts == w.acts + [Sent(m, Fresh(w.s, MessageCount(m)))]
    ensures r.s.history == w.s.history + [EntryFor(m, Fresh(w.s, MessageCount(m)))]
    ensures r.s.nextId == w.s.nextId + MessageCount(m) && Extends(w, r)
  {
    var ids := Fresh(w.s, MessageCount(m));
    var r := Say(w, m);
    r.(s := r.s.(history := r.s.history + [EntryFor(m, ids)]))
  }

  /** The actions after those of `w` are the accepted sends of `plan`, in order. */
  predicate SentInOrder(w: World, r: World, plan: seq<Send>)
  {
    && |r.acts| == |w.acts| + |plan|
    && forall i :: |w.acts| <= i < |r.acts| ==> r.acts[i].Sent? && r.acts[i].send == plan[i - |w.acts|]
  }

  /** Sends each of `plan` in order, tracking every reply. */
  function TrackAll(w: World, plan: seq<Send>): (r: World)
    ensures r.s == w.s.(history := r.s.history, nextId := r.s.nextId)
    ensures r.st == w.st && Extends(w, r)
    ensures |r.s.history| == |w.s.history| + |plan|
    ensures SentInOrder(w, r, plan)
    decreases |plan|
  {
    if plan == [] then w
    else
      var w1 := Track(w, plan[0]);
      var r := TrackAll(w1, plan[1..]);
      SentInOrderCons(w, w1, r, plan, Fresh(w.s, MessageCount(plan[0])));
      r
  }

  /** Sending the head of a plan, then the rest in order, sends the plan in order. */
  lemma SentInOrderCons(w: World, w1: World, r: World, plan: seq<Send>, ids: seq<MsgId>)
    requires plan != [] && w1.acts == w.acts + [Sent(plan[0], ids)]
    requires SentInOrder(w1, r, plan[1..]) && w1.acts <= r.acts
    ensures SentInOrder(w, r, plan)
  {
    forall i | |w.acts| <= i < |r.acts|
      ensures r.acts[i].Sent? && r.acts[i].send == plan[i - |w.acts|]
    {
      if i == |w.acts| {
        assert r.acts[i] == w1.acts[i] == Sent(plan[0], ids);
      } else {
        assert plan[i - |w.acts|] == plan[1..][i - |w1.acts|];
      }
    }
  }

  /** One `Retract` per id, in order. */
  function Retracts(ids: seq<MsgId>): (r: seq<Action>)
    ensures |r| == |ids| && forall k :: 0 <= k < |ids| ==> r[k] == Retract(ids[k])
  {
    seq(|ids|, k requires 0 <= k < |ids| => Retract(ids[k]))
  }

  /** An unset cursor or an empty channel name: `!this.currentPublishChannel`. */
  predicate Falsy(c: Option<Channel>)
  {
    c.None? || c.value == []
  }

  /** The inline keyboard offering the operator's channels for publishing. */
  function ChannelChoice(st: Store): Send
  {
    Note(ChooseChannel, ChannelButtons(ChoosePublishChannel, st.myChannels))
  }

  // ---------------------------------------------------------------------------
  // Showing a post on a page
  // ---------------------------------------------------------------------------

  /** sendPostWithoutButtons: shows the post `link` with the page's reply
      keyboard. A post that cannot be found throws inside the handler's
      `try` and nothing is shown; an empty post gets the empty-post notice. */
  function ShowPost(w: World, link: Option<Link>, markup: Markup): (r: World)
    ensures r.s == w.s.(history := r.s.history, nextId := r.s.nextId)
    ensures r.st == w.st && Extends(w, r)
    ensures forall k :: |w.s.history| <= k < |r.s.history| ==> !r.s.history[k].Unawaited?
    ensures FindPost(w.st.posts, link).None? ==> r == w
    ensures FindPost(w.st.posts, link).Some? ==> var p := w.st.posts[FindPost(w.st.posts, link).value];
      && (IsEmptyPost(p) ==> r == Track(w, Note(EmptyPost, Reply(markup))))
      && (!IsEmptyPost(p) && ShowsNoText(p) ==>
            r.s == w.s && r.acts == w.acts + [Refused(Text(Chat, Free([]), Reply(markup), false), None)])
      && (!IsEmptyPost(p) && !ShowsNoText(p) ==>
            SentInOrder(w, r, ViewPlan(p, markup)) && |r.s.history| == |w.s.history| + |ViewPlan(p, markup)|)
  {
    match FindPost(w.st.posts, link)
    case None => w
    case Some(i) =>
      var p := w.st.posts[i];
      if IsEmptyPost(p) then Track(w, Note(EmptyPost, Reply(markup)))
      else ShowContent(w, p, markup)
  }

  /** The messages of a post that is not blank. An empty text is refused
      by Telegram and the handler's `catch` swallows the refusal, so nothing
      is tracked. */
  function ShowContent(w: World, p: Post, markup: Markup): (r: World)
    ensures r.s == w.s.(history := r.s.history, nextId := r.s.nextId)
    ensures r.st == w.st && Extends(w, r)
    ensures forall k :: |w.s.history| <= k < |r.s.history| ==> !r.s.history[k].Unawaited?
    ensures ShowsNoText(p) ==> r.s == w.s && r.acts == w.acts + [Refused(Text(Chat, Free([]), Reply(markup), false), None)]
    ensures !ShowsNoText(p) ==>
      SentInOrder(w, r, ViewPlan(p, markup)) && |r.s.history| == |w.s.history| + |ViewPlan(p, markup)|
  {
    if ShowsNoText(p) then w.(acts := w.acts + [Refused(ViewPlan(p, markup)[0], None)])
    else TrackAllSettled(w, ViewPlan(p, markup))
  }

  /** A text-only post whose description is just a break tag passes the
      blank test on the raw description, but its sanitized text is empty:
      Telegram refuses it and the page shows nothing of the post. */
  lemma TagOnlyPostShowsNothing(w: World, link: Option<Link>, markup: Markup)
    requires FindPost(w.st.posts, link).Some?
    requires w.st.posts[FindPost(w.st.posts, link).value].media == []
    requires w.st.posts[FindPost(w.st.posts, link).value].description == "<br/>"
    ensures ShowPost(w, link, markup).s == w.s
    ensures ShowPost(w, link, markup).acts == w.acts + [Refused(Text(Chat, Free([]), Reply(markup), false), None)]
  {
    SanitizeTagOnly();
    TrimTag();
  }

  /** TrackAll, with the fact that it only adds entries of sent messages. */
  function TrackAllSettled(w: World, plan: seq<Send>): (r: World)
    ensures r == TrackAll(w, plan)
    ensures forall k :: |w.s.history| <= k < |r.s.history| ==> !r.s.history[k].Unawaited?
    decreases |plan|
  {
    if plan == [] then w
    else
      var w1 := Track(w, plan[0]);
      var r := TrackAllSettled(w1, plan[1..]);
      assert forall k :: |w1.s.history| <= k < |r.s.history| ==> !r.s.history[k].Unawaited?;
      r
  }

  /** sendPostWithoutButtons as written: the empty-post notice is sent
      without `await`, so the UI history receives the pending promise
      rather than the message. */
  function ShowPostAsWritten(w: World, link: Option<Link>, markup: Markup): (r: World)
    ensures r.st == w.st && Extends(w, r)
  {
    match FindPost(w.st.posts, link)
    case None => w
    case Some(i) =>
      var p := w.st.posts[i];
      if IsEmptyPost(p) then SayUnawaited(w, Note(EmptyPost, Reply(markup)))
      else ShowContent(w, p, markup)
  }

  /** Sends `m` without `await`: the UI history receives the pending
      promise, which no deletion can use, instead of the message. */
  function SayUnawaited(w: World, m: Send): (r: World)
    ensures r.st == w.st && r.s.nextId == w.s.nextId + MessageCount(m)
    ensures r.acts == w.acts + [Sent(m, Fresh(w.s, MessageCount(m)))]
    ensures r.s == w.s.(nextId := r.s.nextId, history := w.s.history + [Unawaited])
  {
    var r := Say(w, m);
    r.(s := r.s.(history := r.s.history + [Unawaited]))
  }

  /** The two versions send the same messages and differ in one history
      entry at most: the empty-post notice, which as written is Unawaited. */
  lemma ShowPostAgrees(w: World, link: Option<Link>, markup: Markup)
    ensures var a, c := ShowPostAsWritten(w, link, markup), ShowPost(w, link, markup);
      && a.acts == c.acts && a.st == c.st && a.s.(history := c.s.history) == c.s
      && (a.s.history == c.s.history
          || (|c.s.history| >= 1 && a.s.history == c.s.history[..|c.s.history| - 1] + [Unawaited]))
  {
    var a, c := ShowPostAsWritten(w, link, markup), ShowPost(w, link, markup);
    if FindPost(w.st.posts, link).Some? && IsEmptyPost(w.st.posts[FindPost(w.st.posts, link).value]) {
      assert c.s.history[..|c.s.history| - 1] == w.s.history;
    }
  }

  /** As written, the notice about an empty post is sent but is not among
      the ids deleted on the way back to the start page; as corrected it is. */
  lemma EmptyPostNoticeLingers(w: World, link: Option<Link>, markup: Markup)
    requires FindPost(w.st.posts, link).Some?
    requires IsEmptyPost(w.st.posts[FindPost(w.st.posts, link).value])
    ensures var noticeId := w.s.nextId;
      && ShowPostAsWritten(w, link, markup).acts == w.acts + [Sent(Note(EmptyPost, Reply(markup)), [noticeId])]
      && Ids(ShowPostAsWritten(w, link, markup).s.history) == Ids(w.s.history)
      && Ids(ShowPost(w, link, markup).s.history) == Ids(w.s.history) + [noticeId]
  {
    var h := w.s.history;
    var asWritten := AsWrittenEntries(w, link, markup);
    UnawaitedIsSkipped(h, []);
    assert h + [Unawaited] + [] == h + [Unawaited];
    assert Ids([]) == [];
    assert ShowPost(w, link, markup) == Track(w, Note(EmptyPost, Reply(markup)));
    NoticeEntry(w, markup);
    IdsAppend(h, [Single(w.s.nextId, false)]);
    IdsSingleton(Single(w.s.nextId, false));
  }

  lemma AsWrittenEntries(w: World, link: Option<Link>, markup: Markup) returns (r: World)
    requires FindPost(w.st.posts, link).Some?
    requires IsEmptyPost(w.st.posts[FindPost(w.st.posts, link).value])
    ensures r == ShowPostAsWritten(w, link, markup)
    ensures r.acts == w.acts + [Sent(Note(EmptyPost, Reply(markup)), [w.s.nextId])]
    ensures r.s.history == w.s.history + [Unawaited]
  {
    r := SayUnawaited(w, Note(EmptyPost, Reply(markup)));
    assert r == ShowPostAsWritten(w, link, markup);
    assert Fresh(w.s, 1) == [w.s.nextId];
  }

  lemma NoticeEntry(w: World, markup: Markup)
    ensures Track(w, Note(EmptyPost, Reply(markup))).s.history == w.s.history + [Single(w.s.nextId, false)]
  {
    var m := Note(EmptyPost, Reply(markup));
    var ids := Fresh(w.s, 1);
    assert ids[0] == w.s.nextId;
    assert EntryFor(m, ids) == Single(w.s.nextId, false);
  }

  lemma IdsSingleton(e: Tracked)
    ensures Ids([e]) == IdsOf(e)
  {
    assert [e][1..] == [];
  }

  // ---------------------------------------------------------------------------
  // Page transitions
  // ---------------------------------------------------------------------------

  /** goToStartScreen: the start page, delivery unblocked, both cursors
      cleared, every message of the UI history deleted and the history
      emptied, then the start menu. */
  function GoToStart(w: World): (r: World)
    ensures r.s.page == StartPage && !r.s.senderBlocked
    ensures r.s.editingLink.None? && r.s.publishChannel.None? && r.s.history == []
    ensures SameData(w, r) && r.s.turns == w.s.turns
    ensures |r.acts| == |w.acts| + |Ids(w.s.history)| + 1 && r.acts[..|w.acts|] == w.acts
    ensures r.acts[|w.acts|..|w.acts| + |Ids(w.s.history)|] == Retracts(Ids(w.s.history))
    ensures r.acts[|r.acts| - 1].Sent? && r.acts[|r.acts| - 1].send == Note(StartMenu, Reply(StartMarkup))
  {
    var s := w.s.(page := StartPage, senderBlocked := false, editingLink := None,
                  publishChannel := None, history := []);
    Say(World(s, w.st, w.acts + Retracts(Ids(w.s.history))), Note(StartMenu, Reply(StartMarkup)))
  }

  /** The page header `m`, a single message, sent and tracked on entering
      the page with session `s`. */
  function Header(w: World, s: Session, m: Send): (r: World)
    requires m.Text?
    ensures r.st == w.st && r.acts == w.acts + [Sent(m, [s.nextId])]
    ensures r.s == s.(nextId := s.nextId + 1, history := s.history + [Single(s.nextId, HasInlineKeyboard(m))])
  {
    assert Fresh(s, 1) == [s.nextId];
    Track(World(s, w.st, w.acts), m)
  }

  /** goToEditingScreen: the editing page for post `link`; delivery blocked,
      the channel cursor cleared; the header and the post are shown. */
  function GoToEditing(w: World, link: Option<Link>): (r: World)
    ensures r.s.page == EditPostPage && r.s.senderBlocked
    ensures r.s.editingLink == link && r.s.publishChannel.None?
    ensures SameData(w, r) && r.s.turns == w.s.turns && Extends(w, r)
    ensures |r.s.history| > |w.s.history| && r.s.history[|w.s.history|] == Single(w.s.nextId, false)
  {
    var s := w.s.(page := EditPostPage, senderBlocked := true, editingLink := link, publishChannel := None);
    ShowPost(Header(w, s, Note(EditingHeader, NoKeyboard)), link, EditPostMarkup)
  }

  /** goToPublishScreen: the publishing page for the post being edited;
      delivery blocked; the header, the post and the channel choice. */
  function GoToPublish(w: World): (r: World)
    ensures r.s.page == PublishScreen && r.s.senderBlocked
    ensures r.s.editingLink == w.s.editingLink && r.s.publishChannel == w.s.publishChannel
    ensures SameData(w, r) && r.s.turns == w.s.turns && Extends(w, r)
    ensures |r.acts| > |w.acts| && r.acts[|r.acts| - 1].Sent? && r.acts[|r.acts| - 1].send == ChannelChoice(w.st)
  {
    var s := w.s.(page := PublishScreen, senderBlocked := true);
    var w1 := Track(World(s, w.st, w.acts), Note(PublishingHeader, Reply(PublishPostMarkup)));
    var w2 := ShowPost(w1, w.s.editingLink, PublishPostMarkup);
    Track(w2, ChannelChoice(w.st))
  }

  /** goToGPT: the assistant page; the conversation starts afresh; delivery
      blocked; the header, the post and a tip. */
  function GoToGpt(w: World): (r: World)
    ensures r.s.page == GptPage && r.s.senderBlocked && r.s.turns == []
    ensures r.s.editingLink == w.s.editingLink && r.s.publishChannel == w.s.publishChannel
    ensures SameData(w, r) && Extends(w, r)
  {
    var s := w.s.(page := GptPage, turns := [], senderBlocked := true);
    var w1 := Track(World(s, w.st, w.acts), Note(AssistantHeader, Reply(ChatGptMarkup)));
    var w2 := ShowPost(w1, w.s.editingLink, ChatGptMarkup);
    Track(w2, Note(AssistantTip, Reply(ChatGptMarkup)))
  }

  // ---------------------------------------------------------------------------
  // Publishing
  // ---------------------------------------------------------------------------

  /** handlePublishNow: without a chosen channel the operator is asked for
      one; otherwise the post being edited is published there and the
      outcome reported, with a return to the start page 2 seconds after a
      success. */
  function PublishNow(w: World, out: Outcomes): (r: World)
    ensures r.s == w.s.(history := r.s.history, nextId := r.s.nextId)
    ensures r.st == w.st && Extends(w, r)
    ensures Falsy(w.s.publishChannel) ==> r == Track(w, ChannelChoice(w.st))
    ensures |r.acts| > |w.acts|
    ensures r.acts[|r.acts| - 1] == ReturnHomeLater <==>
      !Falsy(w.s.publishChannel) && PublishPost(w.st, w.s.editingLink, w.s.publishChannel.value, out).ok
  {
    if Falsy(w.s.publishChannel) then Track(w, ChannelChoice(w.st))
    else
      var d := PublishPost(w.st, w.s.editingLink, w.s.publishChannel.value, out);
      var w1 := w.(acts := w.acts + d.actions);
      if d.ok then
        var w2 := Track(w1, Note(Published, Reply(PublishPostMarkup)));
        w2.(acts := w2.acts + [ReturnHomeLater])
      else
        Track(w1, Note(PublishFailed, Reply(PublishPostMarkup)))
  }

  /** immediatelyPost: the "post now" button. With several channels of
      their own the operator goes to the publishing page for that post;
      with exactly one it is published there at once; with none nothing
      happens. */
  function ImmediatelyPost(w: World, link: Option<Link>, out: Outcomes): (r: World)
    ensures |w.st.myChannels| == 0 ==> r == w
    ensures |w.st.myChannels| > 1 ==> r.s.page == PublishScreen && r.s.editingLink == link
    ensures |w.st.myChannels| == 1 ==>
      r.s.page == w.s.page && r.s.editingLink == link && r.s.publishChannel == Some(w.st.myChannels[0])
    ensures SameData(w, r) && r.s.turns == w.s.turns && Extends(w, r)
    ensures BlockedOffStart(w.s) ==> BlockedOffStart(r.s)
  {
    var n := |w.st.myChannels|;
    if n > 1 then GoToPublish(w.(s := w.s.(editingLink := link)))
    else if n == 1 then PublishNow(w.(s := w.s.(editingLink := link, publishChannel := Some(w.st.myChannels[0]))), out)
    else w
  }

  /** handleDelayMessageClick: asks for a channel first, otherwise asks for
      the delay. */
  function DelayClick(w: World): (r: World)
    ensures r.s == w.s.(history := r.s.history, nextId := r.s.nextId)
    ensures r.st == w.st && Extends(w, r) && |r.acts| == |w.acts| + 1
    ensures r.acts[|w.acts|].Sent? && r.acts[|w.acts|].send ==
      (if Falsy(w.s.publishChannel) then ChannelChoice(w.st) else Note(DelayPrompt, ForceReply))
  {
    if Falsy(w.s.publishChannel) then Track(w, ChannelChoice(w.st)) else Track(w, Note(DelayPrompt, ForceReply))
  }

  // ---------------------------------------------------------------------------
  // The media screen
  // ---------------------------------------------------------------------------

  /** Whether the bot's media-type table, `kinds`, names the item a photo
      or a video; the list shows nothing for any other item. */
  predicate Listable(item: MediaItem, kinds: map<string, string>)
  {
    item.mime in kinds && (kinds[item.mime] == "photo" || kinds[item.mime] == "video")
  }

  /** The items the media list shows, in order. */
  function Listed(media: seq<MediaItem>, kinds: map<string, string>): (r: seq<MediaItem>)
    ensures IsSubseq(r, media)
    ensures forall x :: x in r <==> x in media && Listable(x, kinds)
  {
    if media == [] then []
    else
      var rest := Listed(media[1..], kinds);
      assert media == [media[0]] + media[1..];
      if Listable(media[0], kinds) then
        SubseqCons(media[0], rest, media[1..]);
        [media[0]] + rest
      else
        SubseqSkip(media[0], rest, media[1..]);
        rest
  }

  /** sendMediaItemsForDelete: one photo or video per listable item, each
      with its delete button. */
  function MediaSends(media: seq<MediaItem>, kinds: map<string, string>): (r: seq<Send>)
    ensures |r| == |Listed(media, kinds)|
    ensures forall k :: 0 <= k < |r| ==> r[k] == MediaToDelete(Listed(media, kinds)[k])
  {
    var items := Listed(media, kinds);
    seq(|items|, k requires 0 <= k < |items| => MediaToDelete(items[k]))
  }

  /** When every item is a photo or a video, each gets its message. */
  lemma {:induction false} AllListed(media: seq<MediaItem>, kinds: map<string, string>)
    requires forall k :: 0 <= k < |media| ==> Listable(media[k], kinds)
    ensures Listed(media, kinds) == media
  {
    if media != [] {
      var rest := media[1..];
      assert forall k :: 0 <= k < |rest| ==> rest[k] == media[k + 1];
      AllListed(rest, kinds);
      assert Listable(media[0], kinds);
      assert Listed(media, kinds) == [media[0]] + rest;
      assert media == [media[0]] + rest;
    }
  }

  /** handleEditMediaButtonClick: lists the media of the post being edited,
      each with a delete button, between two notices; a post without media
      gets one notice. A post that cannot be found throws and ends the
      handler. */
  function EditMediaScreen(w: World, kinds: map<string, string>): (r: World)
    ensures r.s == w.s.(history := r.s.history, nextId := r.s.nextId)
    ensures r.st == w.st && Extends(w, r)
    ensures FindPost(w.st.posts, w.s.editingLink).None? ==> r == w
    ensures FindPost(w.st.posts, w.s.editingLink).Some? ==>
      var media := w.st.posts[FindPost(w.st.posts, w.s.editingLink).value].media;
      SentInOrder(w, r, if media == [] then [Note(NoMedia, Reply(EditPostMarkup))]
                        else [Note(YourMedia, Reply(EditPostMarkup))] + MediaSends(media, kinds)
                             + [Note(MediaListEnd, Reply(EditPostMarkup))])
  {
    match FindPost(w.st.posts, w.s.editingLink)
    case None => w
    case Some(i) =>
      var media := w.st.posts[i].media;
      if media == [] then TrackAll(w, [Note(NoMedia, Reply(EditPostMarkup))])
      else TrackAll(w, [Note(YourMedia, Reply(EditPostMarkup))] + MediaSends(media, kinds)
                       + [Note(MediaListEnd, Reply(EditPostMarkup))])
  }

  // ---------------------------------------------------------------------------
  // The assistant
  // ---------------------------------------------------------------------------

  /** The message showing the service's answer, or its error. */
  function AnswerSend(reply: Completion): Send
  {
    match reply
    case Answer(a) => Text(Chat, Free(a), Reply(ChatGptMarkup), false)
    case ServiceError => Note(AssistantFailed, Reply(ChatGptMarkup))
  }

  /** One request to the completion service with `question` appended to the
      conversation; the answer (or the error) is shown and the conversation
      updated as Exchange says. When Telegram refuses that message (`shown`
      false) the handler never resumes: nothing is tracked and the question
      stays unanswered in the conversation. */
  function Consult(w: World, question: Utterance, reply: Completion, shown: bool): (r: World)
    ensures r.s == w.s.(history := r.s.history, nextId := r.s.nextId, turns := Exchange(w.s.turns, question, reply, shown))
    ensures r.st == w.st && Extends(w, r) && |r.acts| == |w.acts| + 2
    ensures r.acts[|w.acts|] == Outbound.Consult(Asked(w.s.turns, question))
    ensures shown ==> (r.acts[|w.acts| + 1] == Sent(AnswerSend(reply), [w.s.nextId])
                       && r.s.history == w.s.history + [Single(w.s.nextId, false)])
    ensures !shown ==> (r.acts[|w.acts| + 1] == Refused(AnswerSend(reply), None)
                        && r.s.history == w.s.history && r.s.nextId == w.s.nextId)
  {
    var w1 := w.(acts := w.acts + [Outbound.Consult(Asked(w.s.turns, question))]);
    var m := AnswerSend(reply);
    assert Fresh(w.s, 1) == [w.s.nextId];
    var w2 := if shown then Track(w1, m) else w1.(acts := w1.acts + [Refused(m, None)]);
    w2.(s := w2.s.(turns := Exchange(w.s.turns, question, reply, shown)))
  }

  /** handleMessageToGPT: a waiting notice, then the operator's text goes
      to the service. */
  function AskAssistant(w: World, question: Utterance, reply: Completion, shown: bool): (r: World)
    ensures r.s.turns == Exchange(w.s.turns, question, reply, shown)
    ensures r.s.page == w.s.page && r.s.senderBlocked == w.s.senderBlocked
    ensures SameData(w, r) && Extends(w, r)
  {
    Consult(Track(w, Note(WaitForAssistant, Reply(ChatGptMarkup))), question, reply, shown)
  }

  /** handleSendBindMessageToGpt: the rephrase button sends its fixed
      request, shows it, and goes to the service like a typed question. */
  function Rephrase(w: World, reply: Completion, shown: bool): (r: World)
    ensures r.s.turns == Exchange(w.s.turns, RephrasePrimer, reply, shown)
    ensures r.s.page == w.s.page && r.s.senderBlocked == w.s.senderBlocked
    ensures SameData(w, r) && Extends(w, r)
  {
    Consult(Track(w, Note(RephraseRequest, Reply(ChatGptMarkup))), RephrasePrimer, reply, shown)
  }
}

=== FILE: outbound.dfy ===
/** What the bot does to the outside world, as data: the messages it sends
    (to the operator's chat or to a channel), the messages it deletes, the
    requests it makes to the completion service and the timers it arms.
    Telegram's replies come back as `SendResult`s supplied by the caller. */
module Outbound {
  import opened Base
  import opened Posts
  import opened Assistant

  /** The operator's chat, or a channel addressed as `@name`. */
  datatype Target = Chat | ChannelAt(name: Channel)

  /** The reply keyboards of the four pages. */
  datatype Markup = StartMarkup | EditPostMarkup | PublishPostMarkup | ChatGptMarkup

  /** What is attached below a text message. Only the last three are
      inline keyboards; their buttons carry `action::payload` data. */
  datatype Keyboard =
    | NoKeyboard
    | Reply(markup: Markup)
    | ForceReply
    | PostButtons(link: Link)                           // edit / delete / post now
    | ChannelButtons(action: string, channels: seq<Channel>)
    | DeleteButton(uuid: string)                        // under one media item

  /** The bot's fixed texts. The prompts are the texts a reply is matched
      against; the lists carry the channels they print. */
  datatype Notice =
    | StartMenu | EditingHeader | PublishingHeader | AssistantHeader | AssistantTip
    | EmptyPost | ChooseChannel | ChooseSubscribeChannel | ChannelChosen
    | SubscribedPrompt | AbsolutePrompt | SignPrompt | MyChannelsPrompt
    | DelayPrompt | EditTextPrompt | AssistantEditPrompt
    | SubscribedSaved | SubscribedSaveFailed | SignSaved | SignSaveFailed
    | MyChannelsSaved | MyChannelsSaveFailed
    | TextEdited | TextEditFailed | AssistantTextEdited | AssistantTextEditFailed
    | WatcherStarted | WatcherStopped | SentPostsCleared
    | YourMedia | MediaListEnd | NoMedia | MediaItemDeleted
    | Published | PublishFailed | DelayAccepted
    | ContextReset | RephraseRequest | WaitForAssistant | AssistantFailed
    | SubscribedList(channels: seq<Channel>) | AbsoluteList(channels: seq<Channel>)
    | MyChannelsList(channels: seq<Channel>)

  /** The text of a message: a fixed text, or text computed from data. */
  datatype Body = Fixed(notice: Notice) | Free(text: string)

  /** One entry of a media group; `caption` is set on at most the first. */
  datatype AlbumItem = AlbumItem(mime: string, url: string, caption: Option<string>)

  datatype Send =
    | Text(to: Target, body: Body, keyboard: Keyboard, noPreview: bool)
    | Album(to: Target, items: seq<AlbumItem>)
    | MediaToDelete(item: MediaItem)   // a photo or video of the post, with a delete button

  /** A fixed text to the operator's chat. */
  function Note(n: Notice, k: Keyboard): Send
  {
    Text(Chat, Fixed(n), k, false)
  }

  /** Whether the message carries an inline keyboard (`reply_markup.inline_keyboard`). */
  predicate HasInlineKeyboard(m: Send)
  {
    match m
    case Text(_, _, k, _) => k.PostButtons? || k.ChannelButtons? || k.DeleteButton?
    case Album(_, _) => false
    case MediaToDelete(_) => true
  }

  /** How many messages Telegram creates for a send: one per album item. */
  function MessageCount(m: Send): nat
  {
    if m.Album? then |m.items| else 1
  }

  /** Telegram's answer to a send; `code` is `error.response.body.error_code`. */
  datatype SendResult = Accepted | Rejected(code: Option<int>)

  /** The answers to the (at most two) sends of one plan, in order. */
  datatype Outcomes = Outcomes(first: SendResult, second: SendResult)

  datatype Action =
    | Sent(send: Send, ids: seq<MsgId>)          // accepted; the chat message ids it got
    | Refused(send: Send, code: Option<int>)     // rejected by Telegram
    | Retract(id: MsgId)                         // deleteMessage in the operator's chat
    | RetractRefused(id: MsgId)                  // deleteMessage refused by Telegram
    | Consult(history: seq<Turn>)                // a completion request with this history
    | Schedule(ms: nat, link: Option<Link>, channel: Option<Channel>)  // publish after `ms` milliseconds
    | ReturnHomeLater                            // go back to the start page in 2 seconds
    | Pace                                       // wait 5 seconds
}

=== FILE: posts.dfy ===
/** The persisted part of a chat: its connection record with the embedded
    post list, and the writes the bot performs on that list. Each write is
    a MongoDB update addressed by `posts.link`, which changes the FIRST post
    whose link matches and leaves the record alone when none does. */
module Posts {
  import opened Base
  import opened Seqs

  datatype MediaItem = MediaItem(uuid: string, url: string, mime: string, size: int)

  datatype Post = Post(
    link: Link,
    channelNickname: Channel,   // the source channel the ingestion found it in
    description: string,        // HTML-subset markup
    media: seq<MediaItem>,
    sended: bool,
    deleted: bool)

  /** One chat's connection record; `sign` is `[]` until a signature is set. */
  datatype Store = Store(
    posts: seq<Post>,
    myChannels: seq<Channel>,
    absoluteChannels: seq<Channel>,
    subscribedChannels: seq<Channel>,
    sign: seq<string>)

  /** No two posts of a chat share a link. The bot never checks this: it
      is assumed of the ingestion that stores the posts, and the lemmas
      that need it say so. */
  predicate UniqueLinks(posts: seq<Post>)
  {
    forall i, j :: 0 <= i < |posts| && 0 <= j < |posts| && posts[i].link == posts[j].link ==> i == j
  }

  /** `posts.find(p => p.link == link)`, as an index. A missing link
      (`null`/`undefined`) finds nothing. */
  function FindPost(posts: seq<Post>, link: Option<Link>): (r: Option<nat>)
    ensures r.Some? ==> r.value < |posts| && link == Some(posts[r.value].link)
    ensures r.Some? ==> forall k :: 0 <= k < r.value ==> posts[k].link != link.value
    ensures r.None? ==> link.None? || forall k :: 0 <= k < |posts| ==> posts[k].link != link.value
  {
    if link.None? || posts == [] then None
    else if posts[0].link == link.value then Some(0)
    else match FindPost(posts[1..], link)
      case None => None
      case Some(i) => Some(i + 1)
  }

  /** With unique links, the post found is the one carrying the link. */
  lemma FindUnique(posts: seq<Post>, i: nat)
    requires UniqueLinks(posts) && i < |posts|
    ensures FindPost(posts, Some(posts[i].link)) == Some(i)
  {
  }

  /** The field-level updates the bot issues on one post. */
  datatype PostEdit =
    | MarkDeleted                 // $set posts.$.deleted = true
    | MarkSended                  // $set posts.$.sended = true
    | SetDescription(text: string)
    | PushMedia(item: MediaItem)  // $push posts.$.media
    | PullMedia(uuid: string)     // $pull posts.$.media {uuid}

  /** `$pull` by uuid: drops every item carrying `uuid`. */
  function WithoutUuid(media: seq<MediaItem>, uuid: string): (r: seq<MediaItem>)
    ensures IsSubseq(r, media)
    ensures forall k :: 0 <= k < |r| ==> r[k].uuid != uuid
    ensures forall m: MediaItem :: m.uuid != uuid ==> Count(r, m) == Count(media, m)
  {
    if media == [] then []
    else
      var rest := WithoutUuid(media[1..], uuid);
      assert media == [media[0]] + media[1..];
      if media[0].uuid == uuid then
        SubseqSkip(media[0], rest, media[1..]);
        rest
      else
        SubseqCons(media[0], rest, media[1..]);
        [media[0]] + rest
  }

  function ApplyEdit(p: Post, e: PostEdit): (q: Post)
    ensures q.link == p.link && q.channelNickname == p.channelNickname
    ensures q.sended == (p.sended || e == MarkSended)
    ensures q.deleted == (p.deleted || e == MarkDeleted)
    ensures q.description == (if e.SetDescription? then e.text else p.description)
    ensures !e.PushMedia? && !e.PullMedia? ==> q.media == p.media
  {
    match e
    case MarkDeleted => p.(deleted := true)
    case MarkSended => p.(sended := true)
    case SetDescription(t) => p.(description := t)
    case PushMedia(m) => p.(media := p.media + [m])
    case PullMedia(u) => p.(media := WithoutUuid(p.media, u))
  }

  /** Pushing appends the item after the existing ones. */
  lemma PushAppends(p: Post, m: MediaItem)
    ensures |ApplyEdit(p, PushMedia(m)).media| == |p.media| + 1
    ensures ApplyEdit(p, PushMedia(m)).media[..|p.media|] == p.media
    ensures ApplyEdit(p, PushMedia(m)).media[|p.media|] == m
  {
  }

  /** `findOneAndUpdate({'posts.link': link}, {… 'posts.$' …})`: the edit
      lands on the first post with that link; nothing happens without one. */
  function EditPost(posts: seq<Post>, link: Option<Link>, e: PostEdit): (r: seq<Post>)
    ensures |r| == |posts|
    ensures forall k :: 0 <= k < |r| ==> r[k].link == posts[k].link
    ensures forall k :: 0 <= k < |r| ==> r[k] == posts[k] || (FindPost(posts, link) == Some(k) && r[k] == ApplyEdit(posts[k], e))
    ensures FindPost(posts, link).Some? ==> r[FindPost(posts, link).value] == ApplyEdit(posts[FindPost(posts, link).value], e)
  {
    match FindPost(posts, link)
    case None => posts
    case Some(i) => posts[i := ApplyEdit(posts[i], e)]
  }

  /** An edit keeps every link in place, so later lookups find the same posts. */
  lemma EditKeepsLookups(posts: seq<Post>, link: Option<Link>, e: PostEdit, other: Option<Link>)
    ensures FindPost(EditPost(posts, link, e), other) == FindPost(posts, other)
  {
    var r := EditPost(posts, link, e);
    assert forall k :: 0 <= k < |r| ==> r[k].link == posts[k].link;
  }

  /** `$pull: {posts: {sended: true}}`: bulk removal of the sent posts. */
  function ClearSent(posts: seq<Post>): (r: seq<Post>)
    ensures IsSubseq(r, posts)
    ensures forall k :: 0 <= k < |r| ==> !r[k].sended
    ensures forall p: Post :: !p.sended ==> Count(r, p) == Count(posts, p)
  {
    if posts == [] then []
    else
      var rest := ClearSent(posts[1..]);
      assert posts == [posts[0]] + posts[1..];
      if posts[0].sended then
        SubseqSkip(posts[0], rest, posts[1..]);
        rest
      else
        SubseqCons(posts[0], rest, posts[1..]);
        [posts[0]] + rest
  }

  /** The links of the posts not yet marked sent. */
  function UnsentLinks(posts: seq<Post>): set<Link>
  {
    set i | 0 <= i < |posts| && !posts[i].sended :: posts[i].link
  }

  /** `sended` is only ever written as `true`: no edit brings a sent post
      back into the unsent set. */
  lemma EditNeverUnsends(posts: seq<Post>, link: Option<Link>, e: PostEdit)
    ensures UnsentLinks(EditPost(posts, link, e)) <= UnsentLinks(posts)
  {
    var r := EditPost(posts, link, e);
    forall l | l in UnsentLinks(r) ensures l in UnsentLinks(posts) {
      var i :| 0 <= i < |r| && !r[i].sended && r[i].link == l;
      assert !posts[i].sended && posts[i].link == l;
    }
  }

  /** Marking a post sent takes exactly its link out of the unsent set,
      when links are unique. */
  lemma MarkSendedRemovesLink(posts: seq<Post>, link: Link)
    requires UniqueLinks(posts)
    ensures UnsentLinks(EditPost(posts, Some(link), MarkSended)) == UnsentLinks(posts) - {link}
  {
    var r := EditPost(posts, Some(link), MarkSended);
    forall l | l in UnsentLinks(posts) && l != link ensures l in UnsentLinks(r) {
      var i :| 0 <= i < |posts| && !posts[i].sended && posts[i].link == l;
      assert r[i] == posts[i];
    }
    forall l | l in UnsentLinks(r) ensures l in UnsentLinks(posts) && l != link {
      var i :| 0 <= i < |r| && !r[i].sended && r[i].link == l;
      assert !posts[i].sended;
    }
  }

  /** Clearing the sent posts keeps every unsent one. */
  lemma ClearKeepsUnsent(posts: seq<Post>)
    ensures UnsentLinks(ClearSent(posts)) == UnsentLinks(posts)
  {
    var r := ClearSent(posts);
    SubseqElements(r, posts);
    forall l | l in UnsentLinks(posts) ensures l in UnsentLinks(r) {
      var i :| 0 <= i < |posts| && !posts[i].sended && posts[i].link == l;
      CountPositive(posts, i);
      assert Count(r, posts[i]) > 0;
      var j := CountedIndex(r, posts[i]);
    }
    forall l | l in UnsentLinks(r) ensures l in UnsentLinks(posts) {
      var j :| 0 <= j < |r| && !r[j].sended && r[j].link == l;
      assert r[j] in posts;
    }
  }

  lemma {:induction false} CountPositive<T>(s: seq<T>, i: nat)
    requires i < |s|
    ensures Count(s, s[i]) > 0
  {
    if i > 0 {
      CountPositive(s[1..], i - 1);
    }
  }

  lemma {:induction false} CountedIndex<T>(s: seq<T>, x: T) returns (j: nat)
    requires Count(s, x) > 0
    ensures j < |s| && s[j] == x
  {
    if s[0] == x {
      j := 0;
    } else {
      j := CountedIndex(s[1..], x);
      j := j + 1;
    }
  }
}

=== FILE: publish.dfy ===
/** How a post is turned into messages: the plan that publishes it in one
    of the operator's channels (publishPostInMyChannel), the preview with
    the post buttons the delivery loop sends (sendPost), and the plain view
    shown on the editing, publishing and assistant pages
    (sendPostWithoutButtons). */
module Publish {
  import opened Base
  import opened Text
  import opened Posts
  import opened Outbound

  /** The text shown instead of an empty description under a media group. */
  const ChooseAction: string := "Выберите действие:"

  /** The media group of a post: one uncaptioned item per media entry, in order. */
  function AlbumOf(media: seq<MediaItem>): (items: seq<AlbumItem>)
    ensures |items| == |media|
    ensures forall k :: 0 <= k < |media| ==> items[k] == AlbumItem(media[k].mime, media[k].url, None)
  {
    seq(|media|, k requires 0 <= k < |media| => AlbumItem(media[k].mime, media[k].url, None))
  }

  /** `${sign[i]}`: a missing entry prints as "undefined". */
  function SignPart(sign: seq<string>, i: nat): string
  {
    if i < |sign| then sign[i] else "undefined"
  }

  /** What is appended to a published description: the channel tag when no
      signature is set, otherwise the signature link. */
  function Suffix(sign: seq<string>, channel: Channel): string
  {
    if |sign| == 0 then "\n\n@" + channel
    else "\n\n<a href=\"" + SignPart(sign, 0) + "\">" + SignPart(sign, 1) + "</a>"
  }

  /** Exactly one of the two forms is appended: right after the blank line
      comes the tag's '@' without a signature and the link's '<' with one. */
  lemma SuffixForm(sign: seq<string>, channel: Channel)
    ensures |Suffix(sign, channel)| > 2 && Suffix(sign, channel)[..2] == "\n\n"
    ensures Suffix(sign, channel)[2] == (if |sign| == 0 then '@' else '<')
    ensures |sign| == 0 ==> Suffix(sign, channel)[3..] == channel
  {
  }

  /** The caption goes on the media group when the description is not empty
      and shorter than 1024 UTF-16 units. */
  predicate FitsCaption(d: string)
  {
    d != [] && Utf16Length(d) < 1024
  }

  /** The caption of the first message of a plan, if it is a captioned media group. */
  function CaptionOf(plan: seq<Send>): Option<string>
  {
    if plan != [] && plan[0].Album? && plan[0].items != [] then plan[0].items[0].caption else None
  }

  /** Every send of the plan goes to `to`. */
  predicate AllTo(plan: seq<Send>, to: Target)
  {
    forall k :: 0 <= k < |plan| ==> !plan[k].MediaToDelete? && plan[k].to == to
  }

  /** publishPostInMyChannel, for the sanitized description `d`. */
  function PublishPlan(d: string, media: seq<MediaItem>, sign: seq<string>, channel: Channel): (plan: seq<Send>)
    ensures 1 <= |plan| <= 2 && AllTo(plan, ChannelAt(channel))
    ensures plan[0].Album? <==> media != []
    ensures plan[0].Album? ==> |plan[0].items| == |media|
    ensures plan[0].Album? ==> forall k :: 0 <= k < |media| ==>
      plan[0].items[k].url == media[k].url && plan[0].items[k].mime == media[k].mime
    ensures plan[0].Album? ==> forall k :: 1 <= k < |media| ==> plan[0].items[k].caption == None
    ensures CaptionOf(plan) == (if media != [] && FitsCaption(d) then Some(d + Suffix(sign, channel)) else None)
    ensures |plan| == 2 <==> media != [] && d != [] && !FitsCaption(d)
    ensures plan[|plan| - 1].Text? <==> media == [] || (d != [] && !FitsCaption(d))
    ensures plan[|plan| - 1].Text? ==> plan[|plan| - 1] == Text(ChannelAt(channel), Free(d + Suffix(sign, channel)), NoKeyboard, true)
  {
    var to := ChannelAt(channel);
    var signed := d + Suffix(sign, channel);
    if media != [] then
      var items := AlbumOf(media);
      if FitsCaption(d) then [Album(to, items[0 := items[0].(caption := Some(signed))])]
      else if d != [] then [Album(to, items), Text(to, Free(signed), NoKeyboard, true)]
      else [Album(to, items)]
    else [Text(to, Free(signed), NoKeyboard, true)]
  }

  /** The 1024 boundary: with media, a 1023-unit description is a caption
      and a 1024-unit one is a separate message. */
  lemma CaptionBoundary(d: string, media: seq<MediaItem>, sign: seq<string>, channel: Channel)
    requires media != [] && d != []
    requires forall k :: 0 <= k < |d| ==> d[k] < '\U{10000}'
    ensures |d| <= 1023 ==> |PublishPlan(d, media, sign, channel)| == 1 && CaptionOf(PublishPlan(d, media, sign, channel)).Some?
    ensures |d| >= 1024 ==> |PublishPlan(d, media, sign, channel)| == 2 && CaptionOf(PublishPlan(d, media, sign, channel)).None?
  {
  }

  /** A post without media is always published as one text carrying the
      suffix, even when its description is empty. */
  lemma TextOnlyAlwaysSuffixed(d: string, sign: seq<string>, channel: Channel)
    ensures PublishPlan(d, [], sign, channel) == [Text(ChannelAt(channel), Free(d + Suffix(sign, channel)), NoKeyboard, true)]
  {
  }

  /** The description reaches the channel at most once: never both as a
      caption and as a message. */
  lemma DescriptionOnce(d: string, media: seq<MediaItem>, sign: seq<string>, channel: Channel)
    ensures var plan := PublishPlan(d, media, sign, channel);
      CaptionOf(plan).Some? ==> forall k :: 0 <= k < |plan| ==> !plan[k].Text?
  {
  }

  /** The sends of a plan that were attempted and whether all succeeded. */
  datatype Delivery = Delivery(actions: seq<Action>, ok: bool)

  /** Runs a plan of at most two sends against Telegram's answers; the first
      refusal throws, so nothing after it is sent. */
  function Execute(plan: seq<Send>, out: Outcomes): (r: Delivery)
    requires 1 <= |plan| <= 2
    ensures r.ok <==> out.first.Accepted? && (|plan| == 1 || out.second.Accepted?)
    ensures |r.actions| == (if out.first.Accepted? then |plan| else 1)
    ensures forall k :: 0 <= k < |r.actions| ==> (r.actions[k].Sent? && r.actions[k].ids == []) || r.actions[k].Refused?
    ensures forall k :: 0 <= k < |r.actions| ==> (r.actions[k].Sent? || r.actions[k].Refused?) && r.actions[k].send == plan[k]
    ensures forall k :: 0 <= k < |r.actions| - 1 ==> r.actions[k].Sent?
  {
    match out.first
    case Rejected(c) => Delivery([Refused(plan[0], c)], false)
    case Accepted =>
      if |plan| == 1 then Delivery([Sent(plan[0], [])], true)
      else match out.second
        case Rejected(c) => Delivery([Sent(plan[0], []), Refused(plan[1], c)], false)
        case Accepted => Delivery([Sent(plan[0], []), Sent(plan[1], [])], true)
  }

  /** publishPostInMyChannel for the post with link `link`: a post that
      cannot be found makes reading its media throw, which is reported as
      a failed publication with nothing sent. */
  function PublishPost(st: Store, link: Option<Link>, channel: Channel, out: Outcomes): (r: Delivery)
    ensures FindPost(st.posts, link).None? ==> r == Delivery([], false)
    ensures FindPost(st.posts, link).Some? ==>
      var p := st.posts[FindPost(st.posts, link).value];
      r == Execute(PublishPlan(Sanitize(p.description), p.media, st.sign, channel), out)
    ensures r.ok ==> r.actions != [] && forall k :: 0 <= k < |r.actions| ==> r.actions[k].Sent?
    ensures forall k :: 0 <= k < |r.actions| ==> r.actions[k].Sent? || r.actions[k].Refused?
  {
    match FindPost(st.posts, link)
    case None => Delivery([], false)
    case Some(i) =>
      var p := st.posts[i];
      Execute(PublishPlan(Sanitize(p.description), p.media, st.sign, channel), out)
  }

  /** The text under a post's media group, or the post's only message:
      the sanitized description, or the placeholder under media when the
      description is empty. */
  function Caption(p: Post): (d: string)
    ensures Sanitize(p.description) != [] ==> d == Sanitize(p.description)
    ensures Sanitize(p.description) == [] && p.media != [] ==> d == ChooseAction
    ensures p.media == [] ==> d == Sanitize(p.description)
    ensures p.media != [] ==> d != []
  {
    var d := Sanitize(p.description);
    if d == [] && p.media != [] then ChooseAction else d
  }

  /** The media group of `media`, if any, followed by `text`. */
  function WithAlbum(media: seq<MediaItem>, text: Send): (plan: seq<Send>)
    requires text.Text? && text.to == Chat
    ensures 1 <= |plan| <= 2 && AllTo(plan, Chat)
    ensures |plan| == 2 <==> media != []
    ensures plan[0].Album? <==> media != []
    ensures plan[|plan| - 1] == text
    ensures media != [] ==> plan[0] == Album(Chat, AlbumOf(media))
  {
    if media != [] then [Album(Chat, AlbumOf(media)), text] else [text]
  }

  /** sendPost: the preview of a pending post in the operator's chat — the
      media group, if any, then the description (or the placeholder under
      media) with the edit / delete / post-now buttons. */
  function PreviewPlan(p: Post): (plan: seq<Send>)
    ensures 1 <= |plan| <= 2 && AllTo(plan, Chat)
    ensures |plan| == 2 <==> p.media != []
    ensures plan[0].Album? <==> p.media != []
    ensures plan[|plan| - 1] == Text(Chat, Free(Caption(p)), PostButtons(p.link), false)
    ensures p.media != [] ==> plan[0] == Album(Chat, AlbumOf(p.media))
  {
    WithAlbum(p.media, Text(Chat, Free(Caption(p)), PostButtons(p.link), false))
  }

  /** Under a media group the preview's text is never empty: the
      placeholder stands in for a blank description. */
  lemma PreviewTextNonEmpty(p: Post)
    requires p.media != []
    ensures PreviewPlan(p)[1].body != Free([])
  {
    var c := Caption(p);
    assert c != [];
  }

  /** A post with nothing to show: no media and a blank description. */
  predicate IsEmptyPost(p: Post)
  {
    p.media == [] && Trim(p.description) == []
  }

  /** A post whose only message is empty once sanitized, such as one whose
      description is just a break tag: it passes the blank check, which
      trims the raw description, but Telegram refuses the empty text. */
  predicate ShowsNoText(p: Post)
  {
    p.media == [] && Sanitize(p.description) == []
  }

  /** sendPostWithoutButtons for a post with something to show: like the
      preview, with the page's reply keyboard instead of the post buttons. */
  function ViewPlan(p: Post, markup: Markup): (plan: seq<Send>)
    ensures 1 <= |plan| <= 2 && AllTo(plan, Chat)
    ensures |plan| == 2 <==> p.media != []
    ensures plan[0].Album? <==> p.media != []
    ensures plan[|plan| - 1] == Text(Chat, Free(Caption(p)), Reply(markup), false)
    ensures p.media != [] ==> plan[0] == Album(Chat, AlbumOf(p.media))
  {
    WithAlbum(p.media, Text(Chat, Free(Caption(p)), Reply(markup), false))
  }

  /** The preview and the page view show the same thing, differing only in
      the keyboard under the text. */
  lemma PreviewMatchesView(p: Post, markup: Markup)
    ensures |PreviewPlan(p)| == |ViewPlan(p, markup)|
    ensures PreviewPlan(p)[..|PreviewPlan(p)| - 1] == ViewPlan(p, markup)[..|ViewPlan(p, markup)| - 1]
    ensures PreviewPlan(p)[|PreviewPlan(p)| - 1].(keyboard := Reply(markup)) == ViewPlan(p, markup)[|ViewPlan(p, markup)| - 1]
  {
  }

  /** The preview shows the text the channel will receive, less the suffix:
      as the media group's caption or as a message of its own. The
      placeholder shown under media without a description is never
      published: such a post goes out as the bare media group. */
  lemma PreviewTextIsPublished(p: Post, sign: seq<string>, channel: Channel)
    ensures var plan := PublishPlan(Sanitize(p.description), p.media, sign, channel);
      var signed := Caption(p) + Suffix(sign, channel);
      Sanitize(p.description) != [] || p.media == [] ==>
        CaptionOf(plan) == Some(signed) || plan[|plan| - 1] == Text(ChannelAt(channel), Free(signed), NoKeyboard, true)
    ensures var plan := PublishPlan(Sanitize(p.description), p.media, sign, channel);
      Sanitize(p.description) == [] && p.media != [] ==>
        Caption(p) == ChooseAction && plan == [Album(ChannelAt(channel), AlbumOf(p.media))]
  {
  }
}

=== FILE: seqs.dfy ===
/** Generic facts about sequences: the subsequence order and filtering. */
module Seqs {

  /** `a` can be obtained from `b` by deleting elements (order is kept). */
  predicate IsSubseq<T(==)>(a: seq<T>, b: seq<T>)
    decreases |b|
  {
    if a == [] then true
    else if b == [] then false
    else (a[0] == b[0] && IsSubseq(a[1..], b[1..])) || IsSubseq(a, b[1..])
  }

  lemma {:induction false} SubseqRefl<T>(a: seq<T>)
    ensures IsSubseq(a, a)
    decreases |a|
  {
    if a != [] {
      SubseqRefl(a[1..]);
    }
  }

  lemma {:induction false} SubseqElements<T>(a: seq<T>, b: seq<T>)
    requires IsSubseq(a, b)
    ensures forall x :: x in a ==> x in b
    ensures |a| <= |b|
    decreases |b|
  {
    if a != [] {
      if a[0] == b[0] && IsSubseq(a[1..], b[1..]) {
        SubseqElements(a[1..], b[1..]);
        forall x | x in a ensures x in b {
          if x != a[0] {
            assert x in a[1..];
          }
        }
      } else {
        SubseqElements(a, b[1..]);
      }
    }
  }

  lemma {:induction false} SubseqTrans<T>(a: seq<T>, b: seq<T>, c: seq<T>)
    requires IsSubseq(a, b) && IsSubseq(b, c)
    ensures IsSubseq(a, c)
    decreases |c|
  {
    if a == [] {
    } else if b[0] == c[0] && IsSubseq(b[1..], c[1..]) {
      if a[0] == b[0] && IsSubseq(a[1..], b[1..]) {
        SubseqTrans(a[1..], b[1..], c[1..]);
      } else {
        SubseqTrans(a, b[1..], c[1..]);
      }
    } else {
      SubseqTrans(a, b, c[1..]);
    }
  }

  /** Dropping a prefix of the larger sequence keeps the order. */
  lemma {:induction false} SubseqOfSuffix<T>(a: seq<T>, b: seq<T>, k: nat)
    requires k <= |b| && IsSubseq(a, b[k..])
    ensures IsSubseq(a, b)
    decreases k
  {
    if k > 0 {
      assert b[1..][k - 1..] == b[k..];
      SubseqOfSuffix(a, b[1..], k - 1);
    }
  }

  /** A contiguous slice is a subsequence. */
  lemma {:induction false} SliceIsSubseq<T>(b: seq<T>, i: nat, j: nat)
    requires i <= j <= |b|
    ensures IsSubseq(b[i..j], b)
    decreases j
  {
    if i < j {
      assert b[i..j][1..] == b[i + 1..j];
      if i == 0 {
        assert b[1..][0..j - 1] == b[1..j];
        SliceIsSubseq(b[1..], 0, j - 1);
      } else {
        assert b[1..][i - 1..j - 1] == b[i..j];
        SliceIsSubseq(b[1..], i - 1, j - 1);
      }
    }
  }

  /** Keeping a head element on both sides. */
  lemma SubseqCons<T>(x: T, a: seq<T>, b: seq<T>)
    requires IsSubseq(a, b)
    ensures IsSubseq([x] + a, [x] + b)
  {
    assert ([x] + a)[1..] == a;
    assert ([x] + b)[1..] == b;
  }

  /** Deleting a head element of the larger sequence. */
  lemma SubseqSkip<T>(x: T, a: seq<T>, b: seq<T>)
    requires IsSubseq(a, b)
    ensures IsSubseq(a, [x] + b)
  {
    assert ([x] + b)[1..] == b;
  }

  /** Number of elements of `s` that are equal to `x`. */
  function Count<T(==)>(s: seq<T>, x: T): nat
  {
    if s == [] then 0 else (if s[0] == x then 1 else 0) + Count(s[1..], x)
  }

  lemma {:induction false} CountAppend<T>(a: seq<T>, b: seq<T>, x: T)
    ensures Count(a + b, x) == Count(a, x) + Count(b, x)
    decreases |a|
  {
    if a == [] {
      assert a + b == b;
    } else {
      assert (a + b)[1..] == a[1..] + b;
      CountAppend(a[1..], b, x);
    }
  }
}

=== FILE: text.dfy ===
/** The string operations the bot applies to post text: JavaScript's
    `split` on a one-character separator, `replaceAll` with an empty
    replacement, `trim`, the UTF-16 `length`, and the description sanitizer
    built from them. */
module Text {
  import opened Seqs

  // ---------------------------------------------------------------------------
  // split / join on a single character
  // ---------------------------------------------------------------------------

  /** Index of the first `c` in `s`, or `|s|` when there is none. */
  function FirstIndexOf(s: string, c: char): (i: nat)
    ensures i <= |s|
    ensures i < |s| ==> s[i] == c
    ensures forall k :: 0 <= k < i ==> s[k] != c
  {
    if s == [] then 0
    else if s[0] == c then 0
    else 1 + FirstIndexOf(s[1..], c)
  }

  /** JavaScript's `s.split(c)`: the pieces between occurrences of `c`,
      always at least one piece (`"".split(c)` is `[""]`). */
  function SplitOn(s: string, c: char): (parts: seq<string>)
    ensures |parts| >= 1
    ensures forall k :: 0 <= k < |parts| ==> c !in parts[k]
    decreases |s|
  {
    var i := FirstIndexOf(s, c);
    if i == |s| then [s] else [s[..i]] + SplitOn(s[i + 1..], c)
  }

  /** `parts.join(c)`. */
  function JoinWith(parts: seq<string>, c: char): string
    requires |parts| >= 1
  {
    if |parts| == 1 then parts[0] else parts[0] + [c] + JoinWith(parts[1..], c)
  }

  /** Splitting loses nothing: joining the pieces gives back the text. */
  lemma {:induction false} JoinSplit(s: string, c: char)
    ensures JoinWith(SplitOn(s, c), c) == s
    decreases |s|
  {
    var i := FirstIndexOf(s, c);
    if i < |s| {
      JoinSplit(s[i + 1..], c);
      assert SplitOn(s, c)[1..] == SplitOn(s[i + 1..], c);
      assert s == s[..i] + [c] + s[i + 1..];
    }
  }

  /** Joining separator-free pieces and splitting again gives the pieces back. */
  lemma {:induction false} SplitJoin(parts: seq<string>, c: char)
    requires |parts| >= 1
    requires forall k :: 0 <= k < |parts| ==> c !in parts[k]
    ensures SplitOn(JoinWith(parts, c), c) == parts
    decreases |parts|
  {
    var s := JoinWith(parts, c);
    var p := parts[0];
    assert c !in p;
    if |parts| == 1 {
      FirstIndexOfAbsent(p, c);
    } else {
      var rest := JoinWith(parts[1..], c);
      assert s == p + [c] + rest;
      FirstIndexOfAfter(p, c, rest);
      assert s[..|p|] == p;
      assert s[|p| + 1..] == rest;
      SplitJoin(parts[1..], c);
      assert parts == [p] + parts[1..];
    }
  }

  lemma FirstIndexOfAbsent(s: string, c: char)
    requires c !in s
    ensures FirstIndexOf(s, c) == |s|
  {
  }

  lemma FirstIndexOfAfter(p: string, c: char, rest: string)
    requires c !in p
    ensures FirstIndexOf(p + [c] + rest, c) == |p|
  {
    var s := p + [c] + rest;
    assert forall k :: 0 <= k < |p| ==> s[k] == p[k];
    assert s[|p|] == c;
  }

  // ---------------------------------------------------------------------------
  // replaceAll(pattern, '')
  // ---------------------------------------------------------------------------

  /** `s.replaceAll(pat, '')`: deletes the non-overlapping occurrences of
      `pat`, scanning left to right. */
  function RemoveAll(s: string, pat: string): (r: string)
    requires pat != []
    ensures IsSubseq(r, s)
    decreases |s|
  {
    if |s| < |pat| then
      SubseqRefl(s);
      s
    else if s[..|pat|] == pat then
      var r := RemoveAll(s[|pat|..], pat);
      SubseqOfSuffix(r, s, |pat|);
      r
    else
      var r := RemoveAll(s[1..], pat);
      assert s == [s[0]] + s[1..];
      SubseqCons(s[0], r, s[1..]);
      [s[0]] + r
  }

  // ---------------------------------------------------------------------------
  // trim
  // ---------------------------------------------------------------------------

  /** The characters ECMAScript's `trim` removes: WhiteSpace and LineTerminator. */
  predicate IsJsWhitespace(c: char)
  {
    c == '\t' || c == '\n' || c == '\U{B}' || c == '\U{C}' || c == '\r' || c == ' '
    || c == '\U{A0}' || c == '\U{1680}' || ('\U{2000}' <= c <= '\U{200A}')
    || c == '\U{2028}' || c == '\U{2029}' || c == '\U{202F}' || c == '\U{205F}'
    || c == '\U{3000}' || c == '\U{FEFF}'
  }

  function TrimStart(s: string): (r: string)
    ensures |r| <= |s| && r == s[|s| - |r|..]
    ensures forall k :: 0 <= k < |s| - |r| ==> IsJsWhitespace(s[k])
    ensures r == [] || !IsJsWhitespace(r[0])
  {
    if s != [] && IsJsWhitespace(s[0]) then TrimStart(s[1..]) else s
  }

  function TrimEnd(s: string): (r: string)
    ensures |r| <= |s| && r == s[..|r|]
    ensures forall k :: |r| <= k < |s| ==> IsJsWhitespace(s[k])
    ensures r == [] || !IsJsWhitespace(r[|r| - 1])
  {
    if s != [] && IsJsWhitespace(s[|s| - 1]) then TrimEnd(s[..|s| - 1]) else s
  }

  /** `s.trim()`: the slice `s[i..j]` left after dropping the whitespace at
      both ends. */
  function Trim(s: string): (r: string)
    ensures IsSubseq(r, s)
    ensures r == [] || (!IsJsWhitespace(r[0]) && !IsJsWhitespace(r[|r| - 1]))
    ensures forall c :: c in s && !IsJsWhitespace(c) ==> c in r
  {
    TrimKeeps(s);
    TrimEnd(TrimStart(s))
  }

  lemma TrimKeeps(s: string)
    ensures IsSubseq(TrimEnd(TrimStart(s)), s)
    ensures forall c :: c in s && !IsJsWhitespace(c) ==> c in TrimEnd(TrimStart(s))
  {
    var a := TrimStart(s);
    var r := TrimEnd(a);
    var i := |s| - |a|;
    assert r == s[i..i + |r|];
    SliceIsSubseq(s, i, i + |r|);
    forall k | 0 <= k < |s| && !IsJsWhitespace(s[k]) ensures s[k] in r {
      assert i <= k < i + |r| && s[k] == r[k - i];
    }
  }

  // ---------------------------------------------------------------------------
  // length, as JavaScript counts it
  // ---------------------------------------------------------------------------

  /** JavaScript's `length`: UTF-16 code units, two for a character outside
      the Basic Multilingual Plane. */
  function Utf16Length(s: string): (n: nat)
    ensures |s| <= n <= 2 * |s|
    ensures (forall k :: 0 <= k < |s| ==> s[k] < '\U{10000}') ==> n == |s|
  {
    if s == [] then 0 else (if s[0] < '\U{10000}' then 1 else 2) + Utf16Length(s[1..])
  }

  // ---------------------------------------------------------------------------
  // the description sanitizer
  // ---------------------------------------------------------------------------

  /** The sanitizer every render and publish path applies to a post's
      description: removes the break tags `<br/>`, `<br />` and `</br>`
      (in that order) and trims. The quote-block, image-tag and empty-anchor
      regular expressions that run around these steps are not modelled. */
  function Sanitize(s: string): (r: string)
    ensures IsSubseq(r, s)
    ensures r == [] || (!IsJsWhitespace(r[0]) && !IsJsWhitespace(r[|r| - 1]))
  {
    var a := RemoveAll(s, "<br/>");
    var b := RemoveAll(a, "<br />");
    var c := RemoveAll(b, "</br>");
    var r := Trim(c);
    SubseqTrans(c, b, a);
    SubseqTrans(c, a, s);
    SubseqTrans(r, c, s);
    r
  }

  /** A sanitized text never gets longer. */
  lemma SanitizeShrinks(s: string)
    ensures |Sanitize(s)| <= |s|
  {
    SubseqElements(Sanitize(s), s);
  }

  /** The sanitizer is not idempotent: removing one break tag can bring
      another one together. */
  lemma SanitizeNotIdempotent(s: string)
    requires s == "<br<br/>/>"
    ensures Sanitize(s) == "<br/>"
    ensures Sanitize(Sanitize(s)) == ""
  {
    SanitizeJoinsTags();
    SanitizeTagOnly();
  }

  /** The nested tag: the inner break goes, the outer one closes up. */
  lemma SanitizeJoinsTags()
    ensures Sanitize("<br<br/>/>") == "<br/>"
  {
    BreakTagsJoin();
    BreakTagKept();
    TrimTag();
    SanitizeVia("<br<br/>/>", "<br/>", "<br/>", "<br/>");
  }

  /** A lone break tag sanitizes to nothing. */
  lemma SanitizeTagOnly()
    ensures Sanitize("<br/>") == ""
  {
    BreakTagRemoved();
    TrimTag();
    SanitizeVia("<br/>", "", "", "");
  }

  /** The sanitizer, step by step. */
  lemma SanitizeVia(s: string, a: string, b: string, c: string)
    requires RemoveAll(s, "<br/>") == a && RemoveAll(a, "<br />") == b && RemoveAll(b, "</br>") == c
    ensures Sanitize(s) == Trim(c)
  {
  }

  lemma TrimTag()
    ensures Trim("<br/>") == "<br/>"
    ensures Trim("") == ""
  {
    var s := "<br/>";
    assert !IsJsWhitespace(s[0]);
    assert TrimStart(s) == s;
    assert !IsJsWhitespace(s[|s| - 1]);
    assert TrimEnd(s) == s;
  }

  lemma BreakTagsJoin()
    ensures RemoveAll("<br<br/>/>", "<br/>") == "<br/>"
  {
    var s := "<br<br/>/>";
    var pat := "<br/>";
    assert s[3..][..5] == pat;
    assert s[3..][5..] == "/>";
    assert RemoveAll("/>", pat) == "/>";
    assert RemoveAll(s[3..], pat) == "/>";
    assert s[2..][..5][0] != pat[0];
    assert s[2..][1..] == s[3..];
    assert RemoveAll(s[2..], pat) == "r/>";
    assert s[1..][..5][0] != pat[0];
    assert s[1..][1..] == s[2..];
    assert RemoveAll(s[1..], pat) == "br/>";
    assert s[..5][3] != pat[3];
  }

  lemma BreakTagKept()
    ensures RemoveAll("<br/>", "<br />") == "<br/>"
    ensures RemoveAll("<br/>", "</br>") == "<br/>"
  {
    var s := "<br/>";
    assert s[..5][1] != "</br>"[1];
    assert RemoveAll(s[1..], "</br>") == s[1..];
  }

  lemma BreakTagRemoved()
    ensures RemoveAll("<br/>", "<br/>") == ""
    ensures RemoveAll("", "<br />") == ""
    ensures RemoveAll("", "</br>") == ""
  {
    assert "<br/>"[..5] == "<br/>";
    assert "<br/>"[5..] == "";
  }
}
